=== FILE: README.md ===
# NiSight in Dafny

NiSight is a VS Code extension that previews neuroimaging files. A TypeScript host classifies a
file by its name, runs a Python script that extracts a surface mesh and/or a per-vertex map and
prints them as a JSON envelope, and posts the data as a `SET_STATE` message to a webview. The
webview colours the map with a palette and renders the mesh. This project models that pipeline
as immutable datatypes and pure functions, with one Dafny module per source file:

- `NeuroFormats`: the ordered, end-anchored suffix tables and the first-match classifier (the
  unescaped `.` matches any character other than a line terminator).
- `PathUtils`: `windowsCompatiblePath`.
- `ClientUtils` and `JsStrings`: `minMax`, `hexToRgb`, `rgbStrToRgb` and `autoToRgb`, together
  with the JavaScript string operations they rely on (`substring`, `split`, `parseInt`).
- `SurfaceClient`: `interpColor`, the colour array and the buffer decoding of `loadScene`.
- `ViewerClient`: `setModel`, with the three.js scene abstracted as a list of added objects, and
  the serialisable state.
- `SurfaceExtractPy`: the Python script's envelope printing, suffix dispatch, `extract` and the
  exception path of its entry point.
- `SurfaceExtractHost`: the host's decision procedure over exit code, parse result and status.
- `Logging`: the output channel singleton and the log formats.
- `VoxelViewer`: the volume viewer's `viewImage` and refresh command.
- `NeuroViewer`, `NeuroEditor` and `SurfaceViewer`: the hosts of the current and the older
  surface views, each handler a state-to-state function.
- `ClientWebview`, `LegacyWebview` and `ViewControls`: the view-side `SET_STATE` handlers of both
  protocols, and the mapping from controls to messages.
- Shared modules: `WebviewMessages` (both message protocols), `Json`, `Numbers`, `Buffers`,
  `Effects` and `Wrappers`.

Effects such as notifications, process launches and console output are recorded as `Effect`
values. The Python interpreter lookup, the process result, the user's dialog answers, file
existence and the file readers are all parameters.

## Model

| member | source | states |
|---|---|---|
| NeuroFormats.MatchesAny | src/utils/neuroformats.ts:60-67 | true exactly when some pattern of the table matches the end of the path |
| NeuroFormats.ReadNeuroMetaData | src/utils/neuroformats.ts:69-107 | `object` and `meta` are never set; standard and modality are both present or both absent; cifti only with surfaceMap and nifti only with volumeVoxel |
| NeuroFormats.ReadIsFirstMatch | src/utils/neuroformats.ts:69-107 | the classifier equals a first-match search over the rule table (FreeSurfer mesh, FreeSurfer map, GIFTI mesh, GIFTI map, CIFTI map, NIfTI volume) |
| NeuroFormats.FirstMatchWins | src/utils/neuroformats.ts:69-105 | when group g matches and no earlier group does, the result is group g's standard and modality |
| NeuroFormats.FirstMatchAt | src/utils/neuroformats.ts:69-105 | first-match search over any rule list returns the classification of the first matching rule |
| NeuroFormats.NoMatchIsEmpty | src/utils/neuroformats.ts:107 | a path that matches no group gets the empty record, and only such a path does |
| NeuroFormats.DotIsWildcard | src/utils/neuroformats.ts:3-31 | `.lit` matches every path that ends with the literal after one character that is not a line terminator |
| NeuroFormats.PialExamples | src/utils/neuroformats.ts:4 | "xpial" is a FreeSurfer mesh, while "pial" alone matches nothing |
| NeuroFormats.VolumeExample | src/utils/neuroformats.ts:13 | "x.volume" is a FreeSurfer surface map |
| NeuroFormats.NiiSuffixSkipsSurfaceGroups | src/utils/neuroformats.ts:3-22 | paths ending in "nii" match no FreeSurfer or GIFTI pattern |
| NeuroFormats.CiftiBeforeNifti | src/utils/neuroformats.ts:94-105 | CIFTI suffixes such as ".dscalar.nii" classify as cifti/surfaceMap, never as nifti/volumeVoxel |
| NeuroFormats.RulePatternsAreShort | src/utils/neuroformats.ts:3-31 | no pattern is longer than 13 characters (".dtseries.nii") |
| NeuroFormats.ClassificationIsLocal | src/utils/neuroformats.ts:3-31 | the classification depends only on the last 13 characters of the path |
| PathUtils.WindowsCompatiblePath | src/utils/path_utils.ts:1-8 | off win32 the path is unchanged; on win32 the result does not start with '/' and the input is k slashes followed by the result |
| PathUtils.StripRemovesOnlySlashes | src/utils/path_utils.ts:4 | only leading slashes are removed, all of them |
| PathUtils.WindowsCompatiblePathIdempotent | src/utils/path_utils.ts:1-8 | applying the helper twice gives the same result as applying it once |
| ClientUtils.MinMaxOf | src/surface/client/utils.ts:9-24 | undefined iff the array is empty; for finite data the bounds are elements of the array and enclose every element; a NaN first element gives [NaN, NaN]; src/surface/surfaceclient.ts:9-24 is an identical copy |
| ClientUtils.MinMax | src/surface/client/utils.ts:9-24 | the loop as written computes the reference `MinMaxOf` |
| ClientUtils.ScanMinMaxBounds | src/surface/client/utils.ts:13-23 | the running bounds enclose every element scanned so far and are elements themselves |
| ClientUtils.ScanMinMaxNaN | src/surface/client/utils.ts:15-22 | once both bounds are NaN no comparison succeeds, so they stay NaN |
| ClientUtils.NormalizeInRange | src/surface/surfaceclient.ts:142 | with min < max a value inside the range normalises into [0, 1]; with min = max the result is NaN, since there is no guard |
| ClientUtils.HexToRgb | src/surface/client/utils.ts:26-35 | a result iff the text is an optional '#' and six hex digits in either case; each component is its byte over 255 |
| ClientUtils.HexRoundTrip | src/surface/client/utils.ts:26-35 | the `#rrggbb` text of any three bytes reads back as those bytes over 255 |
| ClientUtils.RgbStrToRgb | src/surface/client/utils.ts:38-41 | the text between position 4 and the last character is split at ", "; component i is parseInt of piece i over 255, one per piece, and the pieces rejoin to that text |
| ClientUtils.SubstringInner | src/surface/client/utils.ts:39 | `substring(4, length - 1)` of "rgb(" + inner + ")" is inner |
| ClientUtils.SplitThree | src/surface/client/utils.ts:40 | three comma-free pieces joined with ", " split back into those pieces |
| ClientUtils.RgbPieces | src/surface/client/utils.ts:38-41 | "rgb(a, b, c)" is read as the three pieces a, b and c |
| ClientUtils.RgbTextComponents | src/surface/client/utils.ts:38-41 | "rgb(r, g, b)" gives [r/255, g/255, b/255] |
| ClientUtils.AutoToRgb | src/surface/client/utils.ts:43-45 | the hex reader iff the text starts with '#', otherwise the rgb() reader |
| ClientUtils.AutoToRgbReadsBothNotations | src/surface/client/utils.ts:43-45 | both the `#rrggbb` and the `rgb(r, g, b)` text of three bytes decode to those bytes over 255 |
| JsStrings.JoinSplit | src/surface/client/utils.ts:40 | splitting loses nothing: join(split(s, sep), sep) == s |
| JsStrings.ParseIntDecimalText | src/surface/client/utils.ts:40 | `parseInt` reads back the decimal text of every non-negative integer |
| SurfaceClient.InterpColor | src/surface/surfaceclient.ts:77-92 | a colour iff x is a number whose lower index floor(x·(k−1)) names a control point; NaN and positions off the table are TypeErrors |
| SurfaceClient.FracInUnit | src/surface/surfaceclient.ts:80 | the weight `y % 1` lies in [0, 1) |
| SurfaceClient.LowIndexOnUnit | src/surface/surfaceclient.ts:79-83 | for x in [0, 1] the lower index lies in [0, k−1] |
| SurfaceClient.InterpDefinedOnUnit | src/surface/surfaceclient.ts:79-83 | for x in [0, 1] and at least one control point both indices are valid and a colour results |
| SurfaceClient.InterpBetweenNeighbours | src/surface/surfaceclient.ts:79-90 | each channel of the result lies between the channels of scale[y0] and scale[y1] |
| SurfaceClient.KnotIndex | src/surface/surfaceclient.ts:79-82 | at the knot j/(k−1) the lower index is j and the weight is 0 |
| SurfaceClient.InterpAtOne | src/surface/surfaceclient.ts:79-90 | x = 1 gives exactly the last control point |
| SurfaceClient.InterpKnotShift | src/surface/surfaceclient.ts:85-90 | as written, the knot of interior control point j gives control point j+1 |
| SurfaceClient.InterpAtZero | src/surface/surfaceclient.ts:85-90 | as written, x = 0 gives the second control point, not the first |
| SurfaceClient.InterpColorIntended | src/surface/surfaceclient.ts:77-92 | corrected interpolation: defined exactly where the original is, with the weights the other way round |
| SurfaceClient.InterpIntendedHitsKnots | src/surface/surfaceclient.ts:77-92 | with the corrected weights every knot j/(k−1) yields control point j |
| SurfaceClient.ColorsFrom | src/surface/surfaceclient.ts:141-144 | defined iff every normalised value has a colour; then four channels per value, value i's colour at positions 4i..4i+3 |
| SurfaceClient.ConstantMapThrows | src/surface/surfaceclient.ts:132-143 | a finite map whose values are all equal gets no colour array: normalisation divides by zero |
| SurfaceClient.ColorsDefined | src/surface/surfaceclient.ts:129-144 | a finite map whose minimum is below its maximum gets a colour array from any non-empty palette |
| SurfaceClient.LoadScene | src/surface/surfaceclient.ts:127-160 | positions are the vertices; colours and vertexColors iff a map is given, four channels per value, the colours being the map's values coloured over the map's own range (`minMax` or [0, 0]); a TypeError iff a map is given and one of its values has no colour; otherwise a RangeError iff the face buffer's length is not a multiple of 4; the index is the decoded faces |
| SurfaceClient.ProperMapLoads | src/surface/surfaceclient.ts:127-160 | a finite, non-constant map on a non-empty palette never throws the TypeError: the load succeeds iff the face buffer's length is a multiple of 4 |
| SurfaceClient.LoadSceneReadsFacesBack | src/surface/surfaceclient.ts:148 | a face buffer written as uint32 words loads with exactly those words as its index |
| Wrappers.FlattenUniformLength | src/surface/surfaceclient.ts:142 | parts of k elements flatten to k elements per part |
| Wrappers.FlattenUniformAt | src/surface/surfaceclient.ts:142 | element k·i+c of the flattening is element c of part i |
| Buffers.DecodeU32 | src/surface/surfaceclient.ts:148 | `new Uint32Array(buffer)` succeeds iff the byte length is a multiple of 4, giving one word per four bytes |
| Buffers.EncodeU32 | src/surface/neuro_viewer.ts:72 | `new Uint32Array(words).buffer` has four bytes per word |
| Buffers.DecodeEncode | src/surface/surfaceclient.ts:148 | decoding the host's encoding of words returns those words |
| Buffers.ToUint32 | src/surface/client/viewer_client.ts:153 | an integral number in [0, 2^32) is kept as it is |
| ViewerClient.Init | src/surface/client/viewer_client.ts:30-32 | a new viewer stores no mesh and no map, has an empty scene, and its palette is "Viridis" |
| ViewerClient.SetModel | src/surface/client/viewer_client.ts:160-228 | given arguments are stored and absent ones (and an empty palette) leave their field; with no mesh stored nothing else happens; otherwise one legend call (remove iff no map stored) and one object with the mesh's positions and index added, none removed, whose colours (with a map stored) are the stored palette's colours of the map normalised over `minMax(map)`, or [0, 0] for an empty map; a stored map with a palette unknown to the schemes throws instead. This is the intended behaviour, with a legend that has `update` and `remove` |
| ViewerClient.SetModelLegendRange | src/surface/client/viewer_client.ts:186-196 | the legend gets `minMax(map)`, or [0, 0] for an empty map |
| ViewerClient.ColorArrayThreePerValue | src/surface/client/viewer_client.ts:198-209 | the colour array has three components per map value, in map order |
| ViewerClient.ColFallsBackToBlack | src/surface/client/viewer_client.ts:198-199 | a colour string that does not parse gives [0, 0, 0] |
| ViewerClient.SetModelAsWritten | src/surface/client/viewer_client.ts:160-212 | the three fields are stored as in `setModel`, then a stored mesh makes it throw at the legend call, which `Legend` does not define, so nothing is added to the scene |
| ViewerClient.MissingLegendMethodsAbortSetModel | src/surface/client/viewer_client.ts:186-227 | both versions store the same fields; with a mesh stored and no map or a known palette, the source throws and adds nothing where the intended version adds one object |
| ViewerClient.SetModelIgnoresLengths | src/surface/client/viewer_client.ts:198-227 | a map of any length is accepted with any mesh: lengths are never compared |
| ViewerClient.FacesToPlain | src/surface/client/viewer_client.ts:141 | `Array.from` of the faces keeps every index |
| ViewerClient.FacesFromPlain | src/surface/client/viewer_client.ts:153 | `new Uint32Array` keeps every index in [0, 2^32) |
| ViewerClient.GetSerializableState | src/surface/client/viewer_client.ts:136-146 | mesh and map are absent iff not stored, and otherwise equal plain arrays |
| ViewerClient.SetSerializableState | src/surface/client/viewer_client.ts:148-158 | absent fields clear nothing and the palette is never changed |
| ViewerClient.SerializeRoundTrip | src/surface/client/viewer_client.ts:136-158 | restoring the serialised state leaves mesh, map and palette as they were |
| ViewerClient.RestoreIntoFreshViewer | src/surface/client/viewer_client.ts:136-158 | restoring into a new viewer reproduces mesh and map |
| SurfaceExtractPy.NumJson | src/python/scripts/surface_extract.py:31-35 | a float is written as a standard JSON number iff it is finite |
| SurfaceExtractPy.ToJson | src/python/scripts/surface_extract.py:10-14 | the encoder with the numpy fallback succeeds iff the value is serialisable |
| SurfaceExtractPy.ArrayStandardIffFinite | src/python/scripts/surface_extract.py:10-14 | an array is written as standard JSON iff all its values are finite |
| SurfaceExtractPy.PrintAsJson | src/python/scripts/surface_extract.py:17-37 | one document: an ERROR envelope {exception, message} for an exception, an OK envelope for serialisable data, otherwise the ERROR envelope of the TypeError after one recursive call |
| SurfaceExtractPy.ErrorEnvelopeIsStandard | src/python/scripts/surface_extract.py:18-28 | every ERROR envelope is standard JSON |
| SurfaceExtractPy.FileName | src/python/scripts/surface_extract.py:53 | `Path.name` holds no '/' and is never `.`; a path ending in a segment other than `.` is named by that whole last segment, the text after its last '/' |
| SurfaceExtractPy.FileNameIgnoresTrailingSlash | src/python/scripts/surface_extract.py:53 | a trailing '/' does not change the name, since pathlib drops empty segments |
| SurfaceExtractPy.FileNameIgnoresDotSegment | src/python/scripts/surface_extract.py:53 | a trailing `.` segment does not change the name, since pathlib drops `.` segments |
| SurfaceExtractPy.FileNameOfDirectoryForm | src/python/scripts/surface_extract.py:53 | "lh.pial/" is named "lh.pial" |
| SurfaceExtractPy.FileNameOfPlainName | src/python/scripts/surface_extract.py:53 | a path without '/', other than `.`, is its own name |
| SurfaceExtractPy.Translate | src/python/scripts/surface_extract.py:61-62 | every vertex is moved by the `cras` offset |
| SurfaceExtractPy.LoadSurfMesh | src/python/scripts/surface_extract.py:48-78 | a missing file raises ValueError; the FreeSurfer suffixes are tried before .gii/.gii.gz; any other name raises ValueError |
| SurfaceExtractPy.MeshSuffixNeedsDot | src/python/scripts/surface_extract.py:55-57 | "xpial" is not a supported mesh: the suffixes include their dot |
| SurfaceExtractPy.DataReaderFor | src/python/scripts/surface_extract.py:88-105 | no reader iff the name ends in none of the suffixes; otherwise the first matching group's reader |
| SurfaceExtractPy.DataSuffixWithoutDot | src/python/scripts/surface_extract.py:88-105 | suffixes are matched without a dot: any name ending in "curv", "nii.gz" or "gii.gz" gets that group's reader |
| SurfaceExtractPy.VolumeHasNoReader | src/python/scripts/surface_extract.py:88-105 | a ".volume" map has no reader |
| SurfaceExtractPy.LoadSurfData | src/python/scripts/surface_extract.py:81-110 | a missing file raises ValueError; a name without a reader leaves `data_part` unbound; otherwise the reader's data |
| SurfaceExtractPy.FlattenCoords | src/python/scripts/surface_extract.py:122 | three numbers per vertex: entries 3i, 3i+1 and 3i+2 are the x, y and z of vertex i |
| SurfaceExtractPy.FlattenFaces | src/python/scripts/surface_extract.py:122 | three indices per triangle: entries 3i, 3i+1 and 3i+2 are the corners of face i |
| SurfaceExtractPy.MeshValue | src/python/scripts/surface_extract.py:121-124 | the mesh entry is always serialisable |
| SurfaceExtractPy.MeshValueStandard | src/python/scripts/surface_extract.py:10-14 | a mesh whose coordinates are finite is written as standard JSON, since face indices are integers |
| SurfaceExtractPy.Extract | src/python/scripts/surface_extract.py:113-126 | a missing supplied path raises IOError before any load; then an exception of the mesh loader, then one of the map loader, propagates; the result is a dict iff both loaders succeed; its mesh entry is None without a mesh path and otherwise the loaded mesh flattened; its map entry is None without a map path and otherwise the loaded map |
| SurfaceExtractPy.VolumeMapFails | src/python/scripts/surface_extract.py:88-107 | extracting an existing ".volume" map raises the unbound-variable error |
| SurfaceExtractPy.ExtractChecksExistenceFirst | src/python/scripts/surface_extract.py:114-116 | with a missing path the result does not depend on the readers and is an OSError |
| SurfaceExtractPy.Run | src/python/scripts/surface_extract.py:140-145 | one document printed; exit 0 iff `extract` succeeded; on any exception the ERROR envelope is printed and the exit code is 1 |
| SurfaceExtractPy.DictFallback | src/python/scripts/surface_extract.py:36-37 | an unserialisable dict is reported as a TypeError about a dict |
| SurfaceExtractPy.ErrorOnZeroExitIsSerialisation | src/python/scripts/surface_extract.py:129-145 | a run with exit 0 printed the OK envelope or, only when serialisation failed, the ERROR envelope |
| SurfaceExtractPy.NumericDataSerialises | src/python/scripts/surface_extract.py:118-124 | the mesh entry always serialises, and so does a numeric map |
| SurfaceExtractPy.Main | src/python/scripts/surface_extract.py:129-145 | a command line the parser rejects prints nothing and exits 2; otherwise the run on the parsed paths |
| SurfaceExtractPy.EqualsFormsAgree | src/python/scripts/surface_extract.py:130-133 | `--mesh=P --map=Q` reads the paths P and Q, as `--mesh P --map Q` does when neither begins with '-' |
| SurfaceExtractHost.Args | src/python/surface_extract.ts:39-48 | the script, then "--mesh" and the mesh path if given, then "--map" and the map path if given |
| SurfaceExtractHost.ArgsRoundTrip | src/python/surface_extract.ts:39-48 | the script's parser reads back exactly the paths the host passed |
| SurfaceExtractHost.DecideParsed | src/python/surface_extract.ts:69-88 | status "ERROR" appends the error line and raises one notification, returning undefined (a missing or null content rejects instead); any other status returns the content unchecked, and a `null` document rejects; no process is started |
| SurfaceExtractHost.LogEffectsStartNothing | src/python/surface_extract.ts:70-85 | logging a Python error starts no process |
| SurfaceExtractHost.SurfaceExtract | src/python/surface_extract.ts:28-89 | no interpreter: one notification, undefined, no process; otherwise exactly one process, started first with the argument list; a non-zero or missing exit code and unparseable output return undefined without touching the channel; a parsed envelope is decided on its status |
| SurfaceExtractHost.TruthyField | src/python/surface_extract.ts:17 | `data?.key ? data.key : null` is the field when that field is truthy and null otherwise |
| SurfaceExtractHost.MeshExtract | src/python/surface_extract.ts:20-26 | the process gets only "--mesh" and the path; it rejects iff the extraction rejects, and otherwise returns the extraction's mesh field when truthy, else null, with the extraction's channel and effects |
| SurfaceExtractHost.MapExtract | src/python/surface_extract.ts:12-18 | the process gets only "--map" and the path; it rejects iff the extraction rejects, and otherwise returns the extraction's map field when truthy, else null, with the extraction's channel and effects |
| SurfaceExtractHost.OkOutputDecided | src/python/surface_extract.ts:61-88 | a zero exit whose output is one OK envelope of standard JSON returns the envelope's content unchanged, with the channel untouched and one process started |
| SurfaceExtractHost.MapExtractDeliversFiniteMap | src/python/surface_extract.ts:12-18 | a finite map the script reads comes back from `mapExtract` exactly as printed, with nothing logged |
| SurfaceExtractHost.MeshExtractDeliversFiniteMesh | src/python/surface_extract.ts:20-26 | a mesh with finite coordinates comes back from `meshExtract` as its flattened vertices and faces, with nothing logged |
| SurfaceExtractHost.ArrayContentFields | src/python/surface_extract.ts:17 | when the parsed content is an array, its `map` field is the truthy function `Array.prototype.map`, which converts to [NaN], and its `mesh` field is null |
| SurfaceExtractHost.ScriptExceptionsAreDiscarded | src/python/surface_extract.ts:52-57 | every exception in the script ends with exit code 1, which the host discards before parsing |
| SurfaceExtractHost.ErrorBranchOfRun | src/python/surface_extract.ts:52-88 | for the output the script prints, the ERROR branch is taken only when extraction succeeded but its result does not serialise |
| SurfaceExtractHost.ErrorBranchOnlyAfterSerialisationFailure | src/python/surface_extract.ts:52-88 | the host's ERROR branch is reached only when the script exited 0 after a serialisation failure |
| SurfaceExtractHost.NaNMapIsUnparsable | src/python/surface_extract.ts:61-67 | a curvature map holding NaN is printed as a non-standard document, so the host cannot parse it and returns undefined |
| Json.JsonParse | src/python/surface_extract.ts:61-67 | parsing succeeds iff the output is one standard document, and gives that document |
| Json.Prop | src/python/surface_extract.ts:69 | property access throws exactly on undefined and null; reading `map` of an array gives the function `Array.prototype.map`, and no other read does |
| Json.NumbersOf | src/surface/neuro_viewer.ts:71 | a typed array built from a parsed array has one converted number per element; one built from the function `Array.prototype.map` is [NaN] (length 1, no element 0) |
| Logging.GetOutputConsole | src/utils/logging.ts:11-18 | the channel exists afterwards, keeps its text, and is created iff it did not exist |
| Logging.GetOutputConsoleCreatesOnce | src/utils/logging.ts:11-18 | a second call creates nothing and returns the same channel |
| Logging.LogMessage | src/utils/logging.ts:20-23 | appends exactly the message and the line ending, "\n" by default |
| Logging.ErrorLineShape | src/utils/logging.ts:28 | the line is "Python error '" + exception + "' occured: " + message + "\n" |
| Logging.NoticeEffectsCount | src/utils/logging.ts:29-33 | one notification; the channel is shown iff the user picks the action |
| Logging.LogPythonException | src/utils/logging.ts:25-34 | throws exactly for undefined or null content; otherwise appends one error line and raises one notification |
| Logging.AppendOnly | src/utils/logging.ts:11-34 | no sequence of logging calls removes text or the channel |
| VoxelViewer.ViewArgs | src/voxel/voxelviewer.ts:28-35 | six arguments, the script first and the file last |
| VoxelViewer.OnFailure | src/voxel/voxelviewer.ts:37-52 | a failed process never sets the HTML and never rejects; unparseable or null output leaves the channel and raises no notification; an ERROR envelope appends one error line with its exception and message and raises one notification (a missing or null content instead throws, appending nothing); any other status logs nothing |
| VoxelViewer.ViewImage | src/voxel/voxelviewer.ts:20-67 | no interpreter: one notification and nothing else; a failed process or unparseable output leaves the HTML; OK sets it to the content; ERROR appends one error line with the content's exception and message and raises exactly one notification, rejecting and appending nothing when its content is missing or null; another status logs nothing; a `null` document rejects |
| VoxelViewer.HtmlSetOnlyOnOk | src/voxel/voxelviewer.ts:54-66 | the HTML changes only after exit 0 with an OK envelope |
| VoxelViewer.Resolve | src/voxel/voxelviewer.ts:90-101 | the provider remembers the new panel, showing what viewing the file leaves on an empty page, only when the view does not reject; after a rejection it keeps its previous panel; the document is unchanged |
| VoxelViewer.NullOutputKeepsOldPanel | src/voxel/voxelviewer.ts:54-100 | a script that prints `null` makes the view reject at `msg.status`, so the provider keeps its old panel and later refreshes never reach the new one |
| VoxelViewer.Refresh | src/voxel/voxelviewer.ts:111-121 | nothing without a panel; otherwise "Refreshing..." and then a new view of the document |
| VoxelViewer.FailedRefreshShowsRefreshing | src/voxel/voxelviewer.ts:113-119 | a refresh whose process fails leaves "Refreshing..." in the panel |
| WebviewMessages.Words | src/surface/neuro_viewer.ts:72 | one ToUint32 word per number |
| WebviewMessages.FaceBytes | src/surface/neuro_viewer.ts:72 | four bytes per face index |
| WebviewMessages.MeshPayloadOf | src/surface/neuro_viewer.ts:70-73 | four bytes per vertex coordinate and per face index |
| NeuroViewer.LoadFile | src/surface/neuro_viewer.ts:32-91 | nothing without an extension location or for other modalities; a mesh starts the mesh extraction and a map the map extraction, at most one process; the load rejects iff that extraction rejects; a message is sent iff it returns a truthy value, holding the mesh buffers (vertices as float32, faces as uint32) or the map as float32, and no dropdown entries |
| NeuroViewer.FiniteMapReachesView | src/surface/neuro_viewer.ts:75-90 | a surface map of finite values that the script reads is sent to the view as exactly those values |
| NeuroViewer.FiniteMeshReachesView | src/surface/neuro_viewer.ts:63-90 | a mesh with finite coordinates that the script reads is sent to the view with its flattened coordinates as the vertex buffer |
| NeuroViewer.VerticesOnTheWire | src/surface/neuro_viewer.ts:69-72 | the vertex buffer built from a printed mesh holds the flattened coordinates |
| NeuroViewer.SpawnsOfExtract | src/surface/neuro_viewer.ts:63-84 | one extraction starts at most one process |
| NeuroViewer.FacesSurviveTheWire | src/surface/neuro_viewer.ts:70-73 | a view decoding the face buffer gets the extracted indices as uint32 words |
| NeuroViewer.DiscardedExtractionSendsNothing | src/surface/neuro_viewer.ts:63-90 | an extraction that returns undefined sends no message and leaves the channel |
| NeuroViewer.MeshWithoutDotSendsNothing | src/surface/neuro_viewer.ts:63-90 | "xpial" is classified as a mesh but the script rejects it: nothing is sent |
| NeuroViewer.VolumeMapSendsNothing | src/surface/neuro_viewer.ts:75-90 | "x.volume" is classified as a map but the script has no reader: nothing is sent |
| NeuroViewer.ArrayContentSendsOneNaN | src/surface/neuro_viewer.ts:75-90 | should the extraction's content be an array, the map sent is the one-element [NaN] buffer built from `Array.prototype.map` |
| NeuroViewer.HandleWebviewMessage | src/surface/neuro_viewer.ts:93-127 | the choose buttons load the first picked file; SET_MESH/SET_MAP only log |
| NeuroViewer.CancelLoadsNothing | src/surface/neuro_viewer.ts:100-104 | a cancelled or empty pick loads nothing |
| NeuroViewer.ChooseLoadsFirstPick | src/surface/neuro_viewer.ts:95-117 | a choose button loads a file iff the dialog returns at least one, and then the first; nothing is logged |
| NeuroViewer.DropdownLogsPath | src/surface/neuro_viewer.ts:118-123 | SET_MESH and SET_MAP log one line ending in the path and load nothing |
| NeuroEditor.InitValid | src/surface/neuro_editor.ts:8-9 | the initial host, both counters at 0, satisfies the invariant |
| NeuroEditor.NewEditor | src/surface/neuro_editor.ts:76-79 | the new editor takes the counter's value, distinct from every earlier editor's, and the counter grows by one |
| NeuroEditor.Register | src/surface/neuro_editor.ts:107-108 | only the editor's extension location changes |
| NeuroEditor.OpenDocument | src/surface/neuro_editor.ts:21-29 | the new document takes the counter's value, distinct from every earlier document's, with no panel and no listener |
| NeuroEditor.SendWebviewMessage | src/surface/neuro_editor.ts:54-59 | nothing without a panel; otherwise exactly the message is posted |
| NeuroEditor.ApplyLoad | src/surface/neuro_editor.ts:45 | a finished load posts its message, if any, to the document's panel |
| NeuroEditor.LoadInto | src/surface/neuro_editor.ts:45 | a load keeps the invariant and only appends to the channel |
| NeuroEditor.Rebind | src/surface/neuro_editor.ts:31-43 | the panel starts empty; every earlier listener of the document is disposed, others are untouched, and one new live listener is registered for it |
| NeuroEditor.Present | src/surface/neuro_editor.ts:47-51 | the html is set and then the message handler registered |
| NeuroEditor.Resolve | src/surface/neuro_editor.ts:31-52 | afterwards the new listener is the document's only live one; the panel shows what the load posted, then the page and the handler, unless the load rejected |
| NeuroEditor.ResolveCustomEditor | src/surface/neuro_editor.ts:89-101 | the document is made active before it is resolved |
| NeuroEditor.ViewStateChanged | src/surface/neuro_editor.ts:37-43 | a live listener makes its document active iff the panel is visible and active; nothing else changes |
| NeuroEditor.ViewFile | src/surface/neuro_editor.ts:115-126 | nothing without an active document or when the first argument is not a Uri; otherwise a load into the active document |
| NeuroEditor.ReceiveMessage | src/surface/neuro_editor.ts:48-51 | nothing before the handler is registered; then the viewer's handling |
| NeuroEditor.Dispose | src/surface/neuro_editor.ts:61-66 | the document's listeners are no longer live; no other listener changes |
| NeuroEditor.Step | src/surface/neuro_editor.ts:21-126 | every handler keeps the invariant and only appends to the channel |
| NeuroEditor.Run | src/surface/neuro_editor.ts:21-126 | any sequence of handlers keeps the invariant and only appends to the channel |
| NeuroEditor.ReachableInvariants | src/surface/neuro_editor.ts:21-79 | in every reachable host, document and editor numbers are distinct and count from 0, and each document has at most one live listener |
| SurfaceViewer.Basename | src/surface/surfaceviewer.ts:150 | the basename holds no '/'; a path not ending in '/' has its whole last segment, the text after its last '/', as basename |
| SurfaceViewer.BasenameIgnoresTrailingSlash | src/surface/surfaceviewer.ts:150 | a trailing '/' does not change the basename |
| SurfaceViewer.BasenameOfPlainName | src/surface/surfaceviewer.ts:150 | a name without '/' is its own basename |
| SurfaceViewer.OpenDocument | src/surface/surfaceviewer.ts:84-97 | the mesh is the document's file, no map, not set up, no view |
| SurfaceViewer.StateMessageOf | src/surface/surfaceviewer.ts:136-165 | mesh and map present iff `surf.mesh` and `surf.map` are truthy; one mesh entry (path, basename); a map entry iff a map path is set |
| SurfaceViewer.InitWebview | src/surface/surfaceviewer.ts:99-109 | without a view nothing changes; otherwise the view's earlier events are kept as a prefix, exactly two follow (the page is set, then the handler registered), and no other part of the document changes |
| SurfaceViewer.ViewImage | src/surface/surfaceviewer.ts:111-168 | no view: no effect; setup only on the first call; both paths extracted together; a truthy result is posted |
| SurfaceViewer.SetupAtMostOnce | src/surface/surfaceviewer.ts:117-120 | once set up, a view adds at most one event, a posted message |
| SurfaceViewer.UndefinedResultPostsNothing | src/surface/surfaceviewer.ts:130-132 | an undefined extraction result posts nothing |
| SurfaceViewer.ResolveCustomEditor | src/surface/surfaceviewer.ts:232-247 | the document takes the new view and views its image iff the provider knows the extension's location |
| SurfaceViewer.SecondResolveShowsNoPage | src/surface/surfaceviewer.ts:117-120 | a second resolve of a set-up document gives the new view no page and no handler |
| SurfaceViewer.ReceiveMessage | src/surface/surfaceviewer.ts:177-213 | a non-empty pick replaces that path and views again; a cancel changes nothing; SET_MESH/SET_MAP only log |
| SurfaceViewer.ChoosingKeepsTheOtherPath | src/surface/surfaceviewer.ts:179-202 | choosing a map keeps the mesh, and choosing a mesh keeps the map |
| ViewControls.FreshOptions | src/webview.ts:76-90 | one option per entry, in order, with value and label copied |
| ViewControls.InstalledFrom | src/surface/client/webview.ts:115-146 | the longest prefix of the lookups whose ids are all on the page |
| ViewControls.Installed | src/surface/client/webview.ts:115-146 | `window.onload` installs handlers in order up to the first missing id |
| ViewControls.OnUiEvent | src/surface/client/webview.ts:115-146 | a control without an installed handler sends nothing |
| ViewControls.SentByItsControl | src/surface/client/webview.ts:119-145 | each message is sent only by its own control, and only while that control's handler is installed |
| ViewControls.CurrentPageWiresNothing | src/surface/webview_html.ts:38-59 | the current page has neither dropdown (they are commented out), so no handler is installed and nothing is ever sent |
| ViewControls.OlderPageWiresEveryControl | src/surface/surfaceviewer.ts:53-69 | on the older page every handler is installed and every message is sent by its control |
| ClientWebview.Options | src/surface/client/webview.ts:90-104 | one shown option per child of a dropdown |
| ClientWebview.Without | src/surface/client/webview.ts:95 | moving the shared option away leaves its old dropdown without it and with none but its old children |
| ClientWebview.AppendEntry | src/surface/client/webview.ts:92-95 | without an element of id "vscode-option" a TypeError; otherwise that element takes the entry and becomes the dropdown's last child |
| ClientWebview.AppendEntries | src/surface/client/webview.ts:91-96 | after a non-empty list the shared element carries the last entry |
| ClientWebview.FillDropdown | src/surface/client/webview.ts:90-104 | a missing dropdown throws a TypeError before anything changes |
| ClientWebview.OnMessage | src/surface/client/webview.ts:75-113 | a SET_STATE without a mesh changes nothing and is not echoed; with one, a throwing load ends the handler with the dropdowns unchanged and no mesh shown, since `loadScene` empties the viewer element first, and otherwise the loaded scene is shown; other commands are echoed; a message is echoed, once, iff no exception ends the handler and it is not a meshless SET_STATE |
| ClientWebview.RaggedFacesClearView | src/surface/surfaceclient.ts:94-148 | a mesh whose face bytes are not a multiple of four throws while loading: the previous mesh is no longer shown, the dropdowns are untouched, nothing is echoed |
| ClientWebview.PageOf | src/surface/webview_html.ts:38-59 | a freshly rendered page has a dropdown iff its id is on the page |
| ClientWebview.MapOnlyLoadIsDropped | src/surface/client/webview.ts:83 | the map-only SET_STATE of `loadFile` is dropped by the view: nothing loaded, nothing echoed |
| ClientWebview.MeshLoadIsEchoed | src/surface/client/webview.ts:83-112 | on a page with both dropdowns a mesh SET_STATE from `loadFile` empties them and is echoed exactly once |
| ClientWebview.CurrentPageNeverEchoesALoad | src/surface/client/webview.ts:80-90 | on the current page a mesh SET_STATE is shown and then throws at the missing map dropdown, so it is never echoed |
| ClientWebview.MissingOptionElementThrows | src/surface/client/webview.ts:90-104 | without an element of id "vscode-option", a SET_STATE with a mesh entry throws after the scene loads and is not echoed |
| ClientWebview.AppendEntriesShape | src/surface/client/webview.ts:90-104 | with the shared element present it ends as the target's last child, and the other dropdown loses only that element |
| ClientWebview.SharedOptionShowsLastEntryOnly | src/surface/client/webview.ts:90-104 | as written, the mesh dropdown shows only the last mesh entry and the map dropdown ends empty |
| ClientWebview.FillDropdownIntended | src/webview.ts:76-90 | corrected fill: a missing dropdown throws; otherwise the other dropdown is untouched |
| ClientWebview.IntendedFillListsEveryEntry | src/webview.ts:76-90 | with new elements each dropdown shows exactly its entries, in order |
| LegacyWebview.OnMessage | src/webview.ts:66-99 | SET_STATE sets the iframe's srcdoc, then rebuilds the map and then the mesh dropdown from new options; a missing element throws where it is used; a message is echoed once iff nothing threw |
| LegacyWebview.EveryMessageEchoedOnce | src/webview.ts:66-99 | with the iframe and both dropdowns present every message is echoed exactly once, and each dropdown lists its entries in order |

## Left out

- Floating point: numbers are exact reals or NaN. Float32 rounding, infinities and IEEE
  division by zero are not modelled. `Numbers.Div` reports a non-zero number over zero as NaN;
  no modelled caller reaches that case.
- `JSON.parse` and `json.dumps` are not modelled as text. A process's output is one document per
  `print` call, or unreadable text. Template-literal text of a non-integral number is a
  placeholder.
- `Json.NumbersOf`: a typed array built from a value that is neither an array nor the function
  `Array.prototype.map` is modelled as empty.
- `Json.Prop`: of the properties `Array.prototype` gives every array, only `map` is modelled, the
  one the extension reads; a string's or a number's own properties are undefined.
- Typed-array element conversion covers the JSON values the script prints.
- three.js: the scene, camera, renderer, controls, lights and animation loop are left out.
  `loadScene`'s early return when the page has no "viewer" element is left out too (both pages
  have one). `ViewerClient` keeps only the list of added objects and the legend calls.
- The GLSL shader strings are left out. So is the d3 drawing of `src/surface/client/legend.ts`.
- ViewerClient.SetModel: models the evidently intended legend calls `update(min, max, palette)`
  and `remove()`, which `Legend` does not define; `SetModelAsWritten` models the source.
- SurfaceExtractPy.FileName: models `PurePosixPath.name`; on Windows pathlib also splits on `\` and
  drops a drive, which is not modelled.
- SurfaceExtractPy.Missing: the message quotes the path as the host passed it, while the script
  formats `str(Path(path))`, which drops trailing '/' and `.` segments and collapses '//'.
- SurfaceViewer.Basename: models `path.basename` on POSIX; on Windows it also splits on `\` and
  drops a drive, which is not modelled.
- `colormap` and `colorInterpolates` are parameters: a table of control points, and a map from
  palette names to functions from a position to a colour string.
- `src/utils/process_capture.ts` and `src/utils/python_environment.ts` are left out. The
  interpreter lookup and the process output are parameters.
- `src/python/nisight.py` is left out. The volume viewer's script output is a parameter.
- nibabel and numpy readers are parameters. Only the suffix dispatch and the `cras` translation
  are modelled. Squeezing of array shapes is not.
- `pathlib` existence checks are a predicate parameter.
- argparse is modelled only for the `--mesh P`, `--map P`, `--mesh=P` and `--map=P` forms.
  Abbreviated option names are not accepted. `-h` and `--help`, which print the usage text and
  exit with status 0, are not modelled; the host never passes them. A separate value that is `-`
  alone, looks like a negative number or contains a space, which argparse takes as a value, is
  treated as an option.
- The text of Python's unbound-variable error is not modelled exactly.
- Console output is recorded as effects; its texts are approximated.
- The console lines of `loadFile` ("Load " with the path, then the metadata;
  `src/surface/neuro_viewer.ts:33-35`) and of the editor constructor ("Created new editor #"
  with its number; `src/surface/neuro_editor.ts:78`) are not recorded.
- `parsePythonMessage` is not in `src/python_message.ts`, which defines only types. It is modelled
  as `JSON.parse`.
- HTML templates are represented only by the page text a host sets and by their element ids.
  `src/extension.ts` activation and `src/utils/misc.ts` are left out.
- Async interleaving is not modelled. Each handler is one atomic step, with an awaited load
  completed before the code after it runs. Dialog answers and notification choices are
  parameters.
- `VoxelViewer.Resolve`: `webview.options` is not modelled.
- VoxelViewer.ViewArgs: states the length and the two ends of the argument list only; the four
  arguments between them are constants.
- SurfaceClient.InterpColor: its contract states where a colour exists; the weights are stated
  by the lemmas about knots, the ends and the neighbours rather than by the contract.
- SurfaceExtractHost.NaNMapIsUnparsable: stated for a curvature file named without a directory,
  the case its proof covers; other readers and paths go through the same printing.

## Findings

| source | as written | input that shows it | evidently intended | confidence | as-written member | corrected member |
|---|---|---|---|---|---|---|
| src/surface/surfaceclient.ts:85-90 | `scale[y0]` is weighted by the fraction `y % 1` and `scale[y1]` by `1 - frac` | any palette of k ≥ 2 control points at x = 0: the result is `scale[1]`; the knot j/(k−1) gives `scale[j+1]` | `scale[y0] * (1 - frac) + scale[y1] * frac`, which passes through every control point | high; not executed | SurfaceClient.InterpKnotShift | SurfaceClient.InterpIntendedHitsKnots |
| src/surface/client/webview.ts:92-100 | each dropdown option is fetched with `getDocElem("vscode-option")` rather than created | a SET_STATE with a mesh and one mesh entry on the older page, which has no element of that id: a TypeError after the scene loads, and no echo | `document.createElement("vscode-option")` per entry, as src/webview.ts:78 does | high; not executed | ClientWebview.MissingOptionElementThrows | ClientWebview.IntendedFillListsEveryEntry |
| src/surface/client/viewer_client.ts:196-212 | `setModel` calls `this.legend.update(...)` and `this.legend.remove()`, but the `Legend` class (src/surface/client/legend.ts:3-111) defines only `init` | any `setModel` call that leaves a mesh stored, e.g. a mesh with no map: a TypeError before the geometry is added, so the scene stays empty | a legend with `update` and `remove`, after which one mesh object is added to the scene | medium; not executed | ViewerClient.MissingLegendMethodsAbortSetModel | ViewerClient.SetModel |

=== FILE: buffers.dfy ===
/** Binary payloads between the host and the view: `Uint32Array` buffers as explicit
    little-endian bytes, and `Float32Array` buffers as their elements (float32 rounding
    is not modelled), each element occupying four bytes. */
module Buffers {
  import opened Wrappers
  import opened Numbers

  type byte = x: int | 0 <= x < 256
  type u32 = x: int | 0 <= x < 0x1_0000_0000

  const TwoTo32: int := 0x1_0000_0000

  /** Truncation toward zero. */
  function Trunc(r: real): (t: int)
    ensures r >= 0.0 ==> t == r.Floor
    ensures r < 0.0 ==> t == -((-r).Floor)
  {
    if r >= 0.0 then r.Floor else -((-r).Floor)
  }

  /** ECMAScript ToUint32, applied when a `Uint32Array` is built from numbers: NaN gives
      0, anything else is truncated and reduced modulo 2^32. */
  function ToUint32(n: Num): (w: u32)
    ensures n.Fin? && 0.0 <= n.r && n.r == n.r.Floor as real && n.r < TwoTo32 as real ==> w as real == n.r
  {
    if n.NaN? then 0 else Trunc(n.r) % TwoTo32
  }

  /** The four little-endian bytes of a word. */
  function WordBytes(x: u32): (bs: seq<byte>)
    ensures |bs| == 4
  {
    var q1 := x / 256;
    var q2 := q1 / 256;
    var q3 := q2 / 256;
    [x % 256, q1 % 256, q2 % 256, q3]
  }

  function WordOf(b0: byte, b1: byte, b2: byte, b3: byte): u32 {
    b0 + 256 * (b1 + 256 * (b2 + 256 * b3))
  }

  lemma WordRoundTrip(x: u32)
    ensures var bs := WordBytes(x); WordOf(bs[0], bs[1], bs[2], bs[3]) == x
  {
    var q1 := x / 256;
    var q2 := q1 / 256;
    var q3 := q2 / 256;
    assert x == x % 256 + 256 * q1;
    assert q1 == q1 % 256 + 256 * q2;
    assert q2 == q2 % 256 + 256 * q3;
  }

  /** `new Uint32Array(words).buffer`. */
  function EncodeU32(xs: seq<u32>): (bs: seq<byte>)
    ensures |bs| == 4 * |xs|
  {
    if |xs| == 0 then [] else WordBytes(xs[0]) + EncodeU32(xs[1..])
  }

  /** `new Uint32Array(buffer)`: `None` is the RangeError thrown when the byte length is
      not a multiple of four. */
  function DecodeU32(bs: seq<byte>): (r: Option<seq<u32>>)
    ensures r.Some? <==> |bs| % 4 == 0
    ensures r.Some? ==> 4 * |r.value| == |bs|
    decreases |bs|
  {
    if |bs| % 4 != 0 then None
    else if |bs| == 0 then Some([])
    else
      var rest := DecodeU32(bs[4..]);
      Some([WordOf(bs[0], bs[1], bs[2], bs[3])] + rest.value)
  }

  /** Reading a word buffer back as words returns the words that were written. */
  lemma {:induction false} DecodeEncode(xs: seq<u32>)
    ensures DecodeU32(EncodeU32(xs)) == Some(xs)
  {
    if |xs| > 0 {
      var bs := EncodeU32(xs);
      assert bs[..4] == WordBytes(xs[0]);
      assert bs[4..] == EncodeU32(xs[1..]);
      WordRoundTrip(xs[0]);
      DecodeEncode(xs[1..]);
      assert xs == [xs[0]] + xs[1..];
    }
  }

  /** A `Float32Array` buffer, carried as its elements. */
  datatype F32Buffer = F32Buffer(values: seq<Num>) {
    function ByteLength(): nat { 4 * |values| }
  }
}

=== FILE: client_utils.dfy ===
/** Helpers of the rendering view: the data range of a scalar map, and the parsing of
    the two colour notations (`#rrggbb` and `rgb(r, g, b)`) into fractions of 255. */
module ClientUtils {
  import opened Wrappers
  import opened Numbers
  import opened JsStrings

  // ---------------------------------------------------------------------------
  // minMax

  /** The loop of `minMax` from position `i` on, with the running minimum and maximum.
      Comparisons are JavaScript's, so a NaN never replaces a bound and a NaN bound is
      never replaced. */
  function ScanMinMax(arr: seq<Num>, i: nat, mn: Num, mx: Num): (Num, Num)
    requires i <= |arr|
    decreases |arr| - i
  {
    if i == |arr| then (mn, mx)
    else
      var mx' := if Lt(mx, arr[i]) then arr[i] else mx;
      var mn' := if Lt(arr[i], mn) then arr[i] else mn;
      ScanMinMax(arr, i + 1, mn', mx')
  }

  lemma {:induction false} ScanMinMaxBounds(arr: seq<Num>, i: nat, mn: Num, mx: Num)
    requires i <= |arr| && AllFinite(arr)
    requires mn in arr && mx in arr && mn.Fin? && mx.Fin?
    requires forall j :: 0 <= j < i ==> mn.r <= arr[j].r <= mx.r
    ensures var (lo, hi) := ScanMinMax(arr, i, mn, mx);
      lo in arr && hi in arr && lo.Fin? && hi.Fin?
      && forall j :: 0 <= j < |arr| ==> lo.r <= arr[j].r <= hi.r
    decreases |arr| - i
  {
    if i < |arr| {
      var mx' := if Lt(mx, arr[i]) then arr[i] else mx;
      var mn' := if Lt(arr[i], mn) then arr[i] else mn;
      ScanMinMaxBounds(arr, i + 1, mn', mx');
    }
  }

  lemma {:induction false} ScanMinMaxNaN(arr: seq<Num>, i: nat)
    requires i <= |arr|
    ensures ScanMinMax(arr, i, NaN, NaN) == (NaN, NaN)
    decreases |arr| - i
  {
    if i < |arr| {
      ScanMinMaxNaN(arr, i + 1);
    }
  }

  /** `minMax` as a function: `None` (undefined) for an empty array, otherwise the pair
      of bounds, which are members of the array and enclose every element when no
      element is NaN. A NaN first element makes both bounds NaN. */
  function MinMaxOf(arr: seq<Num>): (r: Option<(Num, Num)>)
    ensures r.None? <==> |arr| == 0
    ensures r.Some? && AllFinite(arr) ==>
              r.value.0 in arr && r.value.1 in arr && r.value.0.Fin? && r.value.1.Fin?
              && forall j :: 0 <= j < |arr| ==> r.value.0.r <= arr[j].r <= r.value.1.r
    ensures |arr| > 0 && arr[0].NaN? ==> r == Some((NaN, NaN))
  {
    if |arr| == 0 then None
    else if AllFinite(arr) then
      ScanMinMaxBounds(arr, 0, arr[0], arr[0]);
      Some(ScanMinMax(arr, 0, arr[0], arr[0]))
    else if arr[0].NaN? then
      ScanMinMaxNaN(arr, 0);
      Some(ScanMinMax(arr, 0, arr[0], arr[0]))
    else Some(ScanMinMax(arr, 0, arr[0], arr[0]))
  }

  /** `minMax` itself: one pass from index 0, updating the maximum
      first and the minimum second. */
  method MinMax(arr: seq<Num>) returns (r: Option<(Num, Num)>)
    ensures r == MinMaxOf(arr)
  {
    if |arr| == 0 {
      return None;
    }
    var mx := arr[0];
    var mn := arr[0];
    var i := 0;
    while i < |arr|
      invariant 0 <= i <= |arr|
      invariant ScanMinMax(arr, i, mn, mx) == ScanMinMax(arr, 0, arr[0], arr[0])
    {
      if Lt(mx, arr[i]) {
        mx := arr[i];
      }
      if Lt(arr[i], mn) {
        mn := arr[i];
      }
      i := i + 1;
    }
    r := Some((mn, mx));
  }

  /** `(x - min) / (max - min)`, with no guard: equal bounds give `0 / 0`, NaN. */
  function Normalize(x: Num, mn: Num, mx: Num): Num {
    Div(Sub(x, mn), Sub(mx, mn))
  }

  /** Within a finite range the normalised value lies in [0, 1]; with equal bounds it is
      NaN. */
  lemma NormalizeInRange(x: Num, mn: Num, mx: Num)
    requires x.Fin? && mn.Fin? && mx.Fin? && mn.r <= x.r <= mx.r
    ensures mn.r < mx.r ==> Normalize(x, mn, mx).Fin? && 0.0 <= Normalize(x, mn, mx).r <= 1.0
    ensures mn.r == mx.r ==> Normalize(x, mn, mx) == NaN
  {
    if mn.r < mx.r {
      var d := mx.r - mn.r;
      var t := (x.r - mn.r) / d;
      assert t * d == x.r - mn.r;
      assert 0.0 <= t;
      assert t <= 1.0;
    }
  }

  // ---------------------------------------------------------------------------
  // hexToRgb

  /** What `/^#?([a-f\d]{2})([a-f\d]{2})([a-f\d]{2})$/i` accepts: six hexadecimal digits
      of either case, optionally preceded by '#'. */
  predicate IsHexColor(hex: string) {
    || (|hex| == 7 && hex[0] == '#' && forall i :: 1 <= i < 7 ==> IsHexDigit(hex[i]))
    || (|hex| == 6 && forall i :: 0 <= i < 6 ==> IsHexDigit(hex[i]))
  }

  /** The six digits after the optional '#'. */
  function HexBody(hex: string): string {
    if |hex| == 7 && hex[0] == '#' then hex[1..] else hex
  }

  /** The value of the two hex digits at position `2*c` of a six-digit body. */
  function HexByte(body: string, c: nat): (b: nat)
    requires c < 3 && |body| == 6 && forall i :: 0 <= i < 6 ==> IsHexDigit(body[i])
    ensures b < 256
  {
    16 * HexDigitValue(body[2 * c]) + HexDigitValue(body[2 * c + 1])
  }

  /** `hexToRgb`: three components, each a byte divided by 255, or `None` (null) when
      the text is not a six-digit colour. */
  function HexToRgb(hex: string): (r: Option<seq<Num>>)
    ensures r.Some? <==> IsHexColor(hex)
    ensures r.Some? ==>
              |r.value| == 3 && forall c :: 0 <= c < 3 ==> r.value[c].Fin? && 0.0 <= r.value[c].r <= 1.0
    ensures r.Some? ==> forall c :: 0 <= c < 3 ==> r.value[c] == Fin(HexByte(HexBody(hex), c) as real / 255.0)
  {
    var body := HexBody(hex);
    if |body| == 6 && forall i :: 0 <= i < 6 ==> IsHexDigit(body[i]) then
      Some([Fin(HexByte(body, 0) as real / 255.0),
            Fin(HexByte(body, 1) as real / 255.0),
            Fin(HexByte(body, 2) as real / 255.0)])
    else None
  }

  /** The lower-case hexadecimal digit of a value below 16. */
  function HexDigitChar(d: nat): (c: char)
    requires d < 16
    ensures IsHexDigit(c) && HexDigitValue(c) == d
  {
    if d < 10 then DigitChar(d) else ('a' as int + (d - 10)) as char
  }

  function ByteHex(b: nat): (s: string)
    requires b < 256
    ensures |s| == 2 && IsHexDigit(s[0]) && IsHexDigit(s[1])
    ensures 16 * HexDigitValue(s[0]) + HexDigitValue(s[1]) == b
  {
    [HexDigitChar(b / 16), HexDigitChar(b % 16)]
  }

  /** The `#rrggbb` notation of three bytes. */
  function HexColor(r: nat, g: nat, b: nat): string
    requires r < 256 && g < 256 && b < 256
  {
    "#" + ByteHex(r) + ByteHex(g) + ByteHex(b)
  }

  /** `hexToRgb` reads back the bytes of every `#rrggbb` colour as fractions of 255. */
  lemma HexRoundTrip(r: nat, g: nat, b: nat)
    requires r < 256 && g < 256 && b < 256
    ensures HexToRgb(HexColor(r, g, b)) == Some([Fin(r as real / 255.0), Fin(g as real / 255.0), Fin(b as real / 255.0)])
  {
    var hex := HexColor(r, g, b);
    var body := HexBody(hex);
    assert body == ByteHex(r) + ByteHex(g) + ByteHex(b);
    assert HexByte(body, 0) == r;
    assert HexByte(body, 1) == g;
    assert HexByte(body, 2) == b;
  }

  // ---------------------------------------------------------------------------
  // rgbStrToRgb and autoToRgb

  const ComponentSeparator: string := ", "

  /** `parseInt(x) / 255`. */
  function ParseComponent(x: string): Num {
    match ParseInt(x)
    case Some(n) => Fin(n as real / 255.0)
    case None => NaN
  }

  /** `rgbStrToRgb`: the text between position 4 and the last character is split at
      ", " and each piece becomes `parseInt(piece) / 255`. Nothing checks the `rgb(`
      prefix, the closing parenthesis or the number of pieces. */
  function RgbStrToRgb(rgbStr: string): (r: seq<Num>)
    ensures |r| >= 1
    ensures var inner := Substring(rgbStr, 4, |rgbStr| - 1);
      var parts := Split(inner, ComponentSeparator);
      |r| == |parts| && Join(parts, ComponentSeparator) == inner
      && forall i :: 0 <= i < |parts| ==> r[i] == ParseComponent(parts[i])
  {
    var inner := Substring(rgbStr, 4, |rgbStr| - 1);
    var parts := Split(inner, ComponentSeparator);
    JoinSplit(inner, ComponentSeparator);
    seq(|parts|, i requires 0 <= i < |parts| => ParseComponent(parts[i]))
  }

  /** The `rgb(r, g, b)` notation of three integers. */
  function RgbText(r: nat, g: nat, b: nat): string {
    "rgb(" + DecimalText(r) + ", " + DecimalText(g) + ", " + DecimalText(b) + ")"
  }

  lemma DecimalTextHasNoComma(n: nat)
    ensures forall i :: 0 <= i < |DecimalText(n)| ==> DecimalText(n)[i] != ComponentSeparator[0]
  {
  }

  /** Three comma-free pieces joined with ", " split back into those pieces. */
  lemma SplitThree(a: string, b: string, c: string)
    requires forall i :: 0 <= i < |a| ==> a[i] != ComponentSeparator[0]
    requires forall i :: 0 <= i < |b| ==> b[i] != ComponentSeparator[0]
    requires forall i :: 0 <= i < |c| ==> c[i] != ComponentSeparator[0]
    ensures Split(a + ", " + b + ", " + c, ComponentSeparator) == [a, b, c]
  {
    var tail := b + ", " + c;
    assert a + ", " + b + ", " + c == a + ComponentSeparator + tail;
    SplitAuxPiece(a, ComponentSeparator, tail, "");
    assert tail == b + ComponentSeparator + c;
    SplitAuxPiece(b, ComponentSeparator, c, "");
    SplitAuxLast(c, ComponentSeparator, "");
    assert "" + a == a && "" + b == b && "" + c == c;
  }

  lemma SubstringInner(inner: string)
    ensures var s := "rgb(" + inner + ")"; Substring(s, 4, |s| - 1) == inner
  {
    var s := "rgb(" + inner + ")";
    assert s[4..|s| - 1] == inner;
  }

  /** The pieces of an `rgb(a, b, c)` text are read one by one. */
  lemma RgbPieces(a: string, b: string, c: string)
    requires forall i :: 0 <= i < |a| ==> a[i] != ComponentSeparator[0]
    requires forall i :: 0 <= i < |b| ==> b[i] != ComponentSeparator[0]
    requires forall i :: 0 <= i < |c| ==> c[i] != ComponentSeparator[0]
    ensures RgbStrToRgb("rgb(" + a + ", " + b + ", " + c + ")")
            == [ParseComponent(a), ParseComponent(b), ParseComponent(c)]
  {
    var inner := a + ", " + b + ", " + c;
    assert "rgb(" + a + ", " + b + ", " + c + ")" == "rgb(" + inner + ")";
    SubstringInner(inner);
    SplitThree(a, b, c);
    var parts := [a, b, c];
    assert RgbStrToRgb("rgb(" + inner + ")") == seq(3, i requires 0 <= i < 3 => ParseComponent(parts[i]));
  }

  /** `rgb(r, g, b)` gives `[r/255, g/255, b/255]`. */
  lemma RgbTextComponents(r: nat, g: nat, b: nat)
    ensures RgbStrToRgb(RgbText(r, g, b))
            == [Fin(r as real / 255.0), Fin(g as real / 255.0), Fin(b as real / 255.0)]
  {
    var dr, dg, db := DecimalText(r), DecimalText(g), DecimalText(b);
    DecimalTextHasNoComma(r);
    DecimalTextHasNoComma(g);
    DecimalTextHasNoComma(b);
    RgbPieces(dr, dg, db);
    ParseComponentDecimal(r);
    ParseComponentDecimal(g);
    ParseComponentDecimal(b);
  }

  lemma ParseComponentDecimal(n: nat)
    ensures ParseComponent(DecimalText(n)) == Fin(n as real / 255.0)
  {
    ParseIntDecimalText(n);
  }

  /** `autoToRgb`: the hexadecimal reader for text starting with '#', the `rgb()` reader
      for everything else. */
  function AutoToRgb(colorStr: string): (r: Option<seq<Num>>)
    ensures StartsWith(colorStr, "#") ==> r == HexToRgb(colorStr)
    ensures !StartsWith(colorStr, "#") ==> r == Some(RgbStrToRgb(colorStr))
  {
    if StartsWith(colorStr, "#") then HexToRgb(colorStr) else Some(RgbStrToRgb(colorStr))
  }

  /** Both notations a palette produces decode to the byte values over 255. */
  lemma AutoToRgbReadsBothNotations(r: nat, g: nat, b: nat)
    requires r < 256 && g < 256 && b < 256
    ensures AutoToRgb(HexColor(r, g, b)) == Some([Fin(r as real / 255.0), Fin(g as real / 255.0), Fin(b as real / 255.0)])
    ensures AutoToRgb(RgbText(r, g, b)) == Some([Fin(r as real / 255.0), Fin(g as real / 255.0), Fin(b as real / 255.0)])
  {
    HexRoundTrip(r, g, b);
    RgbTextComponents(r, g, b);
    assert HexColor(r, g, b)[..1] == "#";
    assert RgbText(r, g, b)[0] == 'r';
  }
}

=== FILE: client_webview.dfy ===
/** The current view's message handler: a SET_STATE with a mesh loads the scene, fills
    both dropdowns and is echoed back; one without a mesh is dropped. The dropdown
    options are fetched by element id rather than created, so all entries share the one
    element with id "vscode-option", when the page has one. */
module ClientWebview {
  import opened Wrappers
  import opened Buffers
  import opened WebviewMessages
  import opened SurfaceClient
  import opened ViewControls
  import NeuroViewer
  import NeuroFormats
  import SurfaceExtractHost
  import Logging

  /** A child of a dropdown: an option of its own, or the page's element with id
      "vscode-option". */
  datatype Child = Own(element: OptionElement) | Shared

  /** The parts of the page the handler touches: the children of each dropdown (`None`
      when the page has no element with that id), the element with id "vscode-option"
      while it is in the document (`None` when there is none), and the mesh shown in the
      viewer element: `loadScene` empties that element before it can throw, so a load
      that throws leaves nothing shown. */
  datatype Page = Page(
    meshDropdown: Option<seq<Child>>,
    mapDropdown: Option<seq<Child>>,
    shared: Option<OptionElement>,
    shown: Option<SceneMesh>)

  /** What a dropdown shows. */
  function Options(children: seq<Child>, shared: Option<OptionElement>): (r: seq<OptionElement>)
    ensures |r| == |children|
  {
    seq(|children|, i requires 0 <= i < |children| =>
      match children[i]
      case Own(e) => e
      case Shared => shared.GetOr(OptionElement("", "")))
  }

  /** The children without the shared element. */
  function Without(children: seq<Child>): (r: seq<Child>)
    ensures Shared !in r
    ensures forall c :: c in r ==> c in children
  {
    if |children| == 0 then []
    else (if children[0] == Shared then [] else [children[0]]) + Without(children[1..])
  }

  /** Which dropdown. */
  datatype Which = MeshList | MapList

  function ListOf(p: Page, which: Which): Option<seq<Child>> {
    if which == MeshList then p.meshDropdown else p.mapDropdown
  }

  /** A page after some of the handler's steps, and the error that stopped it. */
  datatype Filled = Filled(page: Page, error: Option<JsError>)

  /** One entry: the element with id "vscode-option" is looked up (a TypeError when
      there is none), given the entry's value and label, and appended to the dropdown,
      which moves it out of wherever it was. */
  function AppendEntry(p: Page, which: Which, e: SelectEntry): (r: Filled)
    ensures p.shared.None? ==> r == Filled(p, Some(TypeError))
    ensures p.shared.Some? ==>
      r.error.None? && r.page.shared == Some(OptionElement(e.value, e.caption)) && r.page.shown == p.shown
      && ListOf(r.page, which).Some? && |ListOf(r.page, which).value| > 0
      && ListOf(r.page, which).value[|ListOf(r.page, which).value| - 1] == Shared
  {
    if p.shared.None? then Filled(p, Some(TypeError))
    else
      var mesh := if p.meshDropdown.Some? then Some(Without(p.meshDropdown.value)) else None;
      var maps := if p.mapDropdown.Some? then Some(Without(p.mapDropdown.value)) else None;
      var el := Some(OptionElement(e.value, e.caption));
      if which == MeshList then
        Filled(p.(meshDropdown := Some(mesh.GetOr([]) + [Shared]), mapDropdown := maps, shared := el), None)
      else
        Filled(p.(meshDropdown := mesh, mapDropdown := Some(maps.GetOr([]) + [Shared]), shared := el), None)
  }

  function AppendEntries(p: Page, which: Which, entries: seq<SelectEntry>): (r: Filled)
    ensures |entries| > 0 && p.shared.None? ==> r.error == Some(TypeError)
    ensures |entries| > 0 && p.shared.Some? ==>
      r.error.None? && r.page.shared == Some(OptionElement(entries[|entries| - 1].value, entries[|entries| - 1].caption))
      && ListOf(r.page, which).Some? && |ListOf(r.page, which).value| > 0
      && ListOf(r.page, which).value[|ListOf(r.page, which).value| - 1] == Shared
    ensures |entries| == 0 ==> r == Filled(p, None)
    ensures r.page.shown == p.shown
    decreases |entries|
  {
    if |entries| == 0 then Filled(p, None)
    else
      var f := AppendEntry(p, which, entries[0]);
      if f.error.Some? then f else AppendEntries(f.page, which, entries[1..])
  }

  /** `dropdown.innerHTML = ""` and then one `appendChild` per entry; a missing dropdown
      throws a TypeError before anything changes. Clearing takes the shared element out
      of the document if it was a child. */
  function FillDropdown(p: Page, which: Which, entries: seq<SelectEntry>): (r: Filled)
    ensures ListOf(p, which).None? ==> r == Filled(p, Some(TypeError))
    ensures r.page.shown == p.shown
  {
    match ListOf(p, which)
    case None => Filled(p, Some(TypeError))
    case Some(children) =>
      var shared := if Shared in children then None else p.shared;
      var cleared :=
        if which == MeshList then p.(meshDropdown := Some([]), shared := shared)
        else p.(mapDropdown := Some([]), shared := shared);
      AppendEntries(cleared, which, entries)
  }

  /** What the handler leaves: the page, the messages echoed to the host, and the error
      that ended it, if any. */
  datatype Handled = Handled(page: Page, echoed: seq<Inbound<BackendMessage>>, error: Option<JsError>)

  /** The message listener: SET_STATE without a mesh returns at once; with a mesh it loads
      the scene (`map ?? undefined`), fills the map dropdown and then the mesh dropdown,
      and echoes the message; any other command is echoed as it is. An exception ends the
      handler where it is thrown, without the echo. `scale` is the colour table. */
  function OnMessage(p: Page, m: Inbound<BackendMessage>, scale: seq<Rgba>): (r: Handled)
    ensures m.OtherCommand? ==> r == Handled(p, [m], None)
    ensures m.Backend? && m.msg.data.mesh.None? ==> r == Handled(p, [], None)
    ensures m.Backend? && m.msg.data.mesh.Some? ==>
      match LoadScene(m.msg.data.mesh.value, m.msg.data.values, scale)
      case Threw(e) => r == Handled(p.(shown := None), [], Some(e))
      case Loaded(s) => r.page.shown == Some(s)
    ensures r.echoed == [] || r.echoed == [m]
    ensures r.echoed == [m] <==> r.error.None? && (m.OtherCommand? || m.msg.data.mesh.Some?)
  {
    match m
    case OtherCommand(_) => Handled(p, [m], None)
    case Backend(msg) =>
      if msg.data.mesh.None? then Handled(p, [], None)
      else
        match LoadScene(msg.data.mesh.value, msg.data.values, scale)
        case Threw(e) => Handled(p.(shown := None), [], Some(e))
        case Loaded(s) =>
          var f1 := FillDropdown(p.(shown := Some(s)), MapList, msg.selectMapEntries);
          if f1.error.Some? then Handled(f1.page, [], f1.error)
          else
            var f2 := FillDropdown(f1.page, MeshList, msg.selectMeshEntries);
            if f2.error.Some? then Handled(f2.page, [], f2.error) else Handled(f2.page, [m], None)
  }

  // ---------------------------------------------------------------------------
  // What the handler does with the hosts' messages

  /** The map-only SET_STATE that `loadFile` sends for a surface map is dropped by the
      view: nothing is loaded, the page is untouched, and nothing is echoed. */
  lemma MapOnlyLoadIsDropped(ctx: NeuroViewer.LoadContext, uri: string, proc: SurfaceExtractHost.ProcessOutput,
                             o: Logging.Output, choice: Option<string>, p: Page, scale: seq<Rgba>)
    requires NeuroFormats.ReadNeuroMetaData(uri).modality == Some(NeuroFormats.SurfaceMap)
    requires NeuroViewer.LoadFile(ctx, uri, proc, o, choice).message.Some?
    ensures var m := NeuroViewer.LoadFile(ctx, uri, proc, o, choice).message.value;
      m.data.values.Some? && OnMessage(p, Backend(m), scale) == Handled(p, [], None)
  {
  }

  /** A mesh SET_STATE from `loadFile` (no entries) that loads, on a page with both
      dropdowns, leaves both dropdowns empty and is echoed exactly once. */
  lemma MeshLoadIsEchoed(p: Page, m: BackendMessage, scale: seq<Rgba>)
    requires p.meshDropdown.Some? && p.mapDropdown.Some?
    requires m.data.mesh.Some? && m.selectMeshEntries == [] && m.selectMapEntries == []
    requires LoadScene(m.data.mesh.value, m.data.values, scale).Loaded?
    ensures var r := OnMessage(p, Backend(m), scale);
      r.echoed == [Backend(m)] && r.error.None?
      && r.page.meshDropdown == Some([]) && r.page.mapDropdown == Some([])
  {
  }

  /** A mesh whose face buffer is not a whole number of words throws while loading: the
      previous mesh is gone from the view, the dropdowns are untouched, and nothing is
      echoed. */
  lemma RaggedFacesClearView(p: Page, m: BackendMessage, scale: seq<Rgba>)
    requires m.data.mesh.Some? && |m.data.mesh.value.faces| % 4 != 0
    ensures var r := OnMessage(p, Backend(m), scale);
      r.page == p.(shown := None) && r.echoed == [] && r.error.Some?
  {
  }

  /** A freshly rendered page with element ids `ids`: empty dropdowns where the page has
      them, nothing shown yet. */
  function PageOf(ids: set<string>): (p: Page)
    ensures p.meshDropdown.Some? <==> IdOf(MeshDropdown) in ids
    ensures p.mapDropdown.Some? <==> IdOf(MapDropdown) in ids
    ensures p.shared.Some? <==> "vscode-option" in ids
  {
    Page(if IdOf(MeshDropdown) in ids then Some([]) else None,
         if IdOf(MapDropdown) in ids then Some([]) else None,
         if "vscode-option" in ids then Some(OptionElement("", "")) else None,
         None)
  }

  /** On the current page, which has neither dropdown, a SET_STATE with a mesh is never
      echoed: when the scene loads it is shown, and clearing the missing map dropdown
      then throws a TypeError. */
  lemma CurrentPageNeverEchoesALoad(m: BackendMessage, scale: seq<Rgba>)
    requires m.data.mesh.Some?
    ensures var r := OnMessage(PageOf(CurrentPageIds), Backend(m), scale);
      && r.echoed == [] && r.error.Some?
      && (LoadScene(m.data.mesh.value, m.data.values, scale).Loaded? ==>
            r.error == Some(TypeError) && r.page.shown == Some(LoadScene(m.data.mesh.value, m.data.values, scale).mesh))
  {
    assert IdOf(MapDropdown) !in CurrentPageIds;
  }

  /** As written, without an element of id "vscode-option" (the page has none) a
      SET_STATE with a mesh entry, as every message of the older host has, throws a
      TypeError after the scene is loaded: no dropdown gets an option and nothing is
      echoed. */
  lemma MissingOptionElementThrows(p: Page, m: BackendMessage, scale: seq<Rgba>)
    requires p.meshDropdown.Some? && p.mapDropdown.Some? && p.shared.None?
    requires m.data.mesh.Some? && |m.selectMeshEntries| > 0
    requires LoadScene(m.data.mesh.value, m.data.values, scale).Loaded?
    ensures var r := OnMessage(p, Backend(m), scale);
      r.error == Some(TypeError) && r.echoed == [] && r.page.shown.Some? && r.page.shared.None?
      && (r.page.meshDropdown == Some([]) || r.page.meshDropdown == p.meshDropdown)
      && (r.page.mapDropdown == Some([]) || r.page.mapDropdown == p.mapDropdown)
  {
  }

  /** The other dropdown. */
  function Other(which: Which): Which {
    if which == MeshList then MapList else MeshList
  }

  /** A list without the shared element is its own `Without`. */
  lemma {:induction false} WithoutNoShared(a: seq<Child>)
    requires Shared !in a
    ensures Without(a) == a
    decreases |a|
  {
    if |a| > 0 {
      assert Shared !in a[1..];
      WithoutNoShared(a[1..]);
      assert [a[0]] + a[1..] == a;
    }
  }

  /** Appending the shared element and removing it again gives `Without`. */
  lemma {:induction false} WithoutAppendShared(a: seq<Child>)
    ensures Without(a + [Shared]) == Without(a)
    decreases |a|
  {
    if |a| == 0 {
      assert [Shared][1..] == [];
    } else {
      assert (a + [Shared])[1..] == a[1..] + [Shared];
      WithoutAppendShared(a[1..]);
    }
  }

  /** With the shared element in the document, appending entries leaves it as the last
      child of the target dropdown and the only moved child: the target keeps its other
      children, the other dropdown loses only the shared element, and the element carries
      the last entry. */
  lemma {:induction false} AppendEntriesShape(p: Page, which: Which, entries: seq<SelectEntry>)
    requires p.shared.Some? && |entries| > 0
    ensures var r := AppendEntries(p, which, entries);
      && r.error.None?
      && r.page.shared == Some(OptionElement(entries[|entries| - 1].value, entries[|entries| - 1].caption))
      && ListOf(r.page, which) == Some(Without(ListOf(p, which).GetOr([])) + [Shared])
      && ListOf(r.page, Other(which)) ==
           (if ListOf(p, Other(which)).Some? then Some(Without(ListOf(p, Other(which)).value)) else None)
    decreases |entries|
  {
    var f := AppendEntry(p, which, entries[0]);
    assert ListOf(f.page, which) == Some(Without(ListOf(p, which).GetOr([])) + [Shared]);
    assert ListOf(f.page, Other(which)) ==
           (if ListOf(p, Other(which)).Some? then Some(Without(ListOf(p, Other(which)).value)) else None);
    if |entries| > 1 {
      AppendEntriesShape(f.page, which, entries[1..]);
      var t := Without(ListOf(p, which).GetOr([]));
      WithoutAppendShared(t);
      WithoutNoShared(t);
      if ListOf(p, Other(which)).Some? {
        WithoutNoShared(Without(ListOf(p, Other(which)).value));
      }
    }
  }

  /** As written, with an element of id "vscode-option" elsewhere on the page, every
      entry reuses it: the mesh dropdown shows only the last mesh entry, and the map
      dropdown loses its option to the mesh dropdown. */
  lemma SharedOptionShowsLastEntryOnly(p: Page, m: BackendMessage, scale: seq<Rgba>)
    requires p.meshDropdown.Some? && p.mapDropdown.Some? && p.shared.Some?
    requires Shared !in p.meshDropdown.value && Shared !in p.mapDropdown.value
    requires m.data.mesh.Some? && |m.selectMeshEntries| > 0
    requires LoadScene(m.data.mesh.value, m.data.values, scale).Loaded?
    ensures var r := OnMessage(p, Backend(m), scale);
      var last := m.selectMeshEntries[|m.selectMeshEntries| - 1];
      && r.error.None? && r.echoed == [Backend(m)]
      && r.page.meshDropdown.Some? && Options(r.page.meshDropdown.value, r.page.shared) == [OptionElement(last.value, last.caption)]
      && r.page.mapDropdown.Some? && Options(r.page.mapDropdown.value, r.page.shared) == []
  {
    var s := LoadScene(m.data.mesh.value, m.data.values, scale).mesh;
    var p0 := p.(shown := Some(s));
    var cleared := p0.(mapDropdown := Some([]));
    assert Without([]) == [];
    assert [] + [Shared] == [Shared];
    if |m.selectMapEntries| > 0 {
      AppendEntriesShape(cleared, MapList, m.selectMapEntries);
      WithoutNoShared(p.meshDropdown.value);
    }
    var f1 := FillDropdown(p0, MapList, m.selectMapEntries);
    assert f1.error.None? && f1.page.shared.Some?;
    assert f1.page.meshDropdown == p.meshDropdown;
    assert f1.page.mapDropdown == Some([]) || f1.page.mapDropdown == Some([Shared]);
    var cleared2 := f1.page.(meshDropdown := Some([]));
    AppendEntriesShape(cleared2, MeshList, m.selectMeshEntries);
    var f2 := FillDropdown(f1.page, MeshList, m.selectMeshEntries);
    assert Without([Shared]) == [] by { assert [Shared][1..] == []; }
    assert f2.page.meshDropdown == Some([Shared]);
    assert f2.page.mapDropdown == Some([]);
  }

  /** The corrected fill: one new option element per entry, as the legacy view does. */
  function FillDropdownIntended(p: Page, which: Which, entries: seq<SelectEntry>): (r: Filled)
    ensures ListOf(p, which).None? ==> r == Filled(p, Some(TypeError))
    ensures ListOf(p, which).Some? ==> r.error.None? && ListOf(r.page, Other(which)) == ListOf(p, Other(which))
    ensures r.page.shown == p.shown
  {
    match ListOf(p, which)
    case None => Filled(p, Some(TypeError))
    case Some(children) =>
      var shared := if Shared in children then None else p.shared;
      var created := seq(|entries|, i requires 0 <= i < |entries| => Own(OptionElement(entries[i].value, entries[i].caption)));
      if which == MeshList then Filled(p.(meshDropdown := Some(created), shared := shared), None)
      else Filled(p.(mapDropdown := Some(created), shared := shared), None)
  }

  /** With fresh elements, filling the map dropdown and then the mesh dropdown leaves
      each showing exactly its entries, in order. */
  lemma IntendedFillListsEveryEntry(p: Page, m: BackendMessage)
    requires p.meshDropdown.Some? && p.mapDropdown.Some?
    ensures var f1 := FillDropdownIntended(p, MapList, m.selectMapEntries);
      var f2 := FillDropdownIntended(f1.page, MeshList, m.selectMeshEntries);
      && f1.error.None? && f2.error.None?
      && Options(f2.page.meshDropdown.value, f2.page.shared) == FreshOptions(m.selectMeshEntries)
      && Options(f2.page.mapDropdown.value, f2.page.shared) == FreshOptions(m.selectMapEntries)
  {
  }
}

=== FILE: effects.dfy ===
/** The observable actions of the host that the model records instead of performing:
    notifications, the output channel, the developer console and process launches. */
module Effects {

  datatype Effect =
    | Notify(text: string, actions: seq<string>)   // an error notification with its buttons
    | CreateChannel(name: string)                   // an output channel is created
    | Append(text: string)                          // text appended to the output channel
    | ShowChannel                                   // the output channel is revealed
    | ConsoleError(text: string)                    // a developer-console error
    | ConsoleLog(text: string)                      // a developer-console log line
    | Spawn(program: string, args: seq<string>)     // a child process is started

  /** The number of process launches among `effects`. */
  function Spawns(effects: seq<Effect>): (n: nat)
    ensures n <= |effects|
    ensures n == 0 <==> forall i :: 0 <= i < |effects| ==> !effects[i].Spawn?
  {
    if |effects| == 0 then 0
    else (if effects[0].Spawn? then 1 else 0) + Spawns(effects[1..])
  }

  /** The number of notifications among `effects`. */
  function Notifications(effects: seq<Effect>): (n: nat)
    ensures n <= |effects|
    ensures n == 0 <==> forall i :: 0 <= i < |effects| ==> !effects[i].Notify?
  {
    if |effects| == 0 then 0
    else (if effects[0].Notify? then 1 else 0) + Notifications(effects[1..])
  }

  lemma {:induction false} NotificationsAppend(a: seq<Effect>, b: seq<Effect>)
    ensures Notifications(a + b) == Notifications(a) + Notifications(b)
  {
    if |a| > 0 {
      assert (a + b)[1..] == a[1..] + b;
      NotificationsAppend(a[1..], b);
    } else {
      assert a + b == b;
    }
  }

  lemma {:induction false} SpawnsAppend(a: seq<Effect>, b: seq<Effect>)
    ensures Spawns(a + b) == Spawns(a) + Spawns(b)
  {
    if |a| > 0 {
      assert (a + b)[1..] == a[1..] + b;
      SpawnsAppend(a[1..], b);
    } else {
      assert a + b == b;
    }
  }
}

=== FILE: js_strings.dfy ===
/** The JavaScript string operations the extension uses, with their ECMAScript
    semantics: `startsWith`, `endsWith`, `substring`, `split` with a string separator,
    `parseInt` without a radix, and the decimal text of a non-negative integer. */
module JsStrings {
  import opened Wrappers

  predicate StartsWith(s: string, prefix: string) {
    |prefix| <= |s| && s[..|prefix|] == prefix
  }

  predicate EndsWith(s: string, suffix: string) {
    |suffix| <= |s| && s[|s| - |suffix|..] == suffix
  }

  function Clamp(i: int, n: nat): (r: nat)
    ensures r <= n
  {
    if i < 0 then 0 else if i > n then n else i
  }

  /** `s.substring(start, end)`: both bounds are clamped to `[0, |s|]` and swapped when
      the start exceeds the end. */
  function Substring(s: string, start: int, end: int): (r: string)
    ensures var a, b := Clamp(start, |s|), Clamp(end, |s|);
      r == if a <= b then s[a..b] else s[b..a]
  {
    var a, b := Clamp(start, |s|), Clamp(end, |s|);
    if a <= b then s[a..b] else s[b..a]
  }

  /** `s.split(sep)` for a non-empty separator: the pieces between the leftmost
      non-overlapping occurrences of `sep`; the empty string splits into `[""]`. */
  function Split(s: string, sep: string): (r: seq<string>)
    requires |sep| > 0
    ensures |r| >= 1
  {
    SplitAux(s, sep, "")
  }

  /** Splits `s`, where `cur` is the part of the current piece already scanned. */
  function SplitAux(s: string, sep: string, cur: string): (r: seq<string>)
    requires |sep| > 0
    ensures |r| >= 1
    decreases |s|
  {
    if |s| == 0 then [cur]
    else if StartsWith(s, sep) then [cur] + SplitAux(s[|sep|..], sep, "")
    else SplitAux(s[1..], sep, cur + [s[0]])
  }

  /** `parts.join(sep)`. */
  function Join(parts: seq<string>, sep: string): string {
    if |parts| == 0 then ""
    else if |parts| == 1 then parts[0]
    else parts[0] + sep + Join(parts[1..], sep)
  }

  lemma {:induction false} JoinSplitAux(s: string, sep: string, cur: string)
    requires |sep| > 0
    ensures Join(SplitAux(s, sep, cur), sep) == cur + s
    decreases |s|
  {
    if |s| == 0 {
    } else if StartsWith(s, sep) {
      var rest := SplitAux(s[|sep|..], sep, "");
      JoinSplitAux(s[|sep|..], sep, "");
      assert [cur] + rest != [] && ([cur] + rest)[1..] == rest;
      assert s == sep + s[|sep|..];
    } else {
      JoinSplitAux(s[1..], sep, cur + [s[0]]);
      assert s == [s[0]] + s[1..];
    }
  }

  /** Splitting loses nothing: joining the pieces with the separator restores the string. */
  lemma JoinSplit(s: string, sep: string)
    requires |sep| > 0
    ensures Join(Split(s, sep), sep) == s
  {
    JoinSplitAux(s, sep, "");
  }

  /** A piece followed by the separator starts a new piece: splitting `p + sep + rest`,
      where `p` holds no character of the separator's first letter, gives `p` first. */
  lemma {:induction false} SplitAuxPiece(p: string, sep: string, rest: string, cur: string)
    requires |sep| > 0
    requires forall i :: 0 <= i < |p| ==> p[i] != sep[0]
    ensures SplitAux(p + sep + rest, sep, cur) == [cur + p] + SplitAux(rest, sep, "")
    decreases |p|
  {
    if |p| == 0 {
      var s := p + sep + rest;
      assert s == sep + rest;
      assert s[..|sep|] == sep;
      assert s[|sep|..] == rest;
      assert StartsWith(s, sep);
      assert SplitAux(s, sep, cur) == [cur] + SplitAux(rest, sep, "");
      assert cur + p == cur;
    } else {
      var s := p + sep + rest;
      assert s[0] == p[0];
      assert !StartsWith(s, sep) by { assert s[0] != sep[0]; }
      assert s[1..] == p[1..] + sep + rest;
      SplitAuxPiece(p[1..], sep, rest, cur + [p[0]]);
      assert cur + [p[0]] + p[1..] == cur + p;
    }
  }

  /** The last piece: a string holding no character of the separator's first letter is
      one piece. */
  lemma {:induction false} SplitAuxLast(p: string, sep: string, cur: string)
    requires |sep| > 0
    requires forall i :: 0 <= i < |p| ==> p[i] != sep[0]
    ensures SplitAux(p, sep, cur) == [cur + p]
    decreases |p|
  {
    if |p| == 0 {
      assert cur + p == cur;
    } else {
      assert !StartsWith(p, sep) by { assert p[0] != sep[0]; }
      SplitAuxLast(p[1..], sep, cur + [p[0]]);
      assert cur + [p[0]] + p[1..] == cur + p;
    }
  }

  // ---------------------------------------------------------------------------
  // Decimal text and parseInt

  predicate IsDecimalDigit(c: char) {
    '0' <= c <= '9'
  }

  function DigitValue(c: char): (d: nat)
    requires IsDecimalDigit(c)
    ensures d < 10
  {
    (c - '0') as nat
  }

  function DigitChar(d: nat): (c: char)
    requires d < 10
    ensures IsDecimalDigit(c) && DigitValue(c) == d
  {
    ('0' as int + d) as char
  }

  /** The decimal text JavaScript and Python give a non-negative integer. */
  function DecimalText(n: nat): (s: string)
    ensures |s| >= 1
    ensures forall i :: 0 <= i < |s| ==> IsDecimalDigit(s[i])
  {
    if n < 10 then [DigitChar(n)] else DecimalText(n / 10) + [DigitChar(n % 10)]
  }

  /** The value of a run of digits in base 10, most significant first. */
  function DigitsValue(ds: string): nat
    requires forall i :: 0 <= i < |ds| ==> IsDecimalDigit(ds[i])
  {
    if |ds| == 0 then 0 else 10 * DigitsValue(ds[..|ds| - 1]) + DigitValue(ds[|ds| - 1])
  }

  lemma {:induction false} DigitsValueOfDecimalText(n: nat)
    ensures DigitsValue(DecimalText(n)) == n
  {
    if n >= 10 {
      var s := DecimalText(n);
      assert s[..|s| - 1] == DecimalText(n / 10);
      DigitsValueOfDecimalText(n / 10);
    }
  }

  /** StrWhiteSpaceChar of ECMAScript: the white space and line terminators that
      `parseInt` skips before the number. */
  predicate IsJsWhiteSpace(c: char) {
    c == '\t' || c == '\n' || c == '\U{000B}' || c == '\U{000C}' || c == '\r' || c == ' '
    || c == '\U{00A0}' || c == '\U{1680}' || ('\U{2000}' <= c <= '\U{200A}')
    || c == '\U{2028}' || c == '\U{2029}' || c == '\U{202F}' || c == '\U{205F}'
    || c == '\U{3000}' || c == '\U{FEFF}'
  }

  function TrimStart(s: string): (r: string)
    ensures |r| <= |s| && r == s[|s| - |r|..]
    ensures |r| > 0 ==> !IsJsWhiteSpace(r[0])
  {
    if |s| > 0 && IsJsWhiteSpace(s[0]) then TrimStart(s[1..]) else s
  }

  predicate IsHexDigit(c: char) {
    IsDecimalDigit(c) || ('a' <= c <= 'f') || ('A' <= c <= 'F')
  }

  function HexDigitValue(c: char): (d: nat)
    requires IsHexDigit(c)
    ensures d < 16
  {
    if IsDecimalDigit(c) then DigitValue(c)
    else if 'a' <= c <= 'f' then (c - 'a') as nat + 10
    else (c - 'A') as nat + 10
  }

  /** The longest prefix of `s` made of digits of the radix (10 or 16). */
  function DigitPrefix(s: string, hex: bool): (r: string)
    ensures |r| <= |s| && r == s[..|r|]
    ensures forall i :: 0 <= i < |r| ==> (if hex then IsHexDigit(r[i]) else IsDecimalDigit(r[i]))
  {
    if |s| > 0 && (if hex then IsHexDigit(s[0]) else IsDecimalDigit(s[0]))
    then [s[0]] + DigitPrefix(s[1..], hex)
    else []
  }

  function RadixValue(ds: string, hex: bool): nat
    requires forall i :: 0 <= i < |ds| ==> (if hex then IsHexDigit(ds[i]) else IsDecimalDigit(ds[i]))
  {
    if |ds| == 0 then 0
    else
      var last := ds[|ds| - 1];
      (if hex then 16 else 10) * RadixValue(ds[..|ds| - 1], hex)
        + (if hex then HexDigitValue(last) else DigitValue(last))
  }

  /** `parseInt(s)` with no radix: leading white space is skipped, one sign is read, a
      `0x`/`0X` prefix selects base 16, and the longest run of digits is converted.
      `None` is NaN (no digit at all). */
  function ParseInt(s: string): (r: Option<int>)
  {
    var t := TrimStart(s);
    var sign := if |t| > 0 && t[0] == '-' then -1 else 1;
    var u := if |t| > 0 && (t[0] == '-' || t[0] == '+') then t[1..] else t;
    var hex := |u| >= 2 && u[0] == '0' && (u[1] == 'x' || u[1] == 'X');
    var body := if hex then u[2..] else u;
    var ds := DigitPrefix(body, hex);
    if |ds| == 0 then None else Some(sign * RadixValue(ds, hex))
  }

  lemma {:induction false} DigitPrefixOfDigits(s: string)
    requires forall i :: 0 <= i < |s| ==> IsDecimalDigit(s[i])
    ensures DigitPrefix(s, false) == s
  {
    if |s| > 0 {
      DigitPrefixOfDigits(s[1..]);
    }
  }

  lemma {:induction false} RadixValueDecimal(ds: string)
    requires forall i :: 0 <= i < |ds| ==> IsDecimalDigit(ds[i])
    ensures RadixValue(ds, false) == DigitsValue(ds)
  {
    if |ds| > 0 {
      RadixValueDecimal(ds[..|ds| - 1]);
    }
  }

  /** `parseInt` reads back the decimal text of every non-negative integer. */
  lemma ParseIntDecimalText(n: nat)
    ensures ParseInt(DecimalText(n)) == Some(n)
  {
    var s := DecimalText(n);
    assert !IsJsWhiteSpace(s[0]);
    assert TrimStart(s) == s;
    assert s[0] != '-' && s[0] != '+';
    assert !(|s| >= 2 && s[1] == 'x') && !(|s| >= 2 && s[1] == 'X');
    DigitPrefixOfDigits(s);
    RadixValueDecimal(s);
    DigitsValueOfDecimalText(n);
  }
}

=== FILE: json.dfy ===
/** JSON documents as the extension's two halves exchange them, and the JavaScript
    operations the host applies to a parsed document: property access, truthiness,
    numeric conversion and template-literal text. */
module Json {
  import opened Wrappers
  import opened Numbers
  import opened JsStrings

  /** A JSON document. `JNonFinite` is the `NaN`/`Infinity` token that Python's
      `json.dumps` writes for non-finite floats; it is not standard JSON. Object fields
      keep their textual order. */
  datatype Json =
    | JNull
    | JBool(b: bool)
    | JNum(n: real)
    | JNonFinite
    | JStr(s: string)
    | JArr(items: seq<Json>)
    | JObj(fields: seq<(string, Json)>)

  /** A JavaScript value the extension reads from parsed JSON: `undefined`, a parsed
      value, or `ArrayMap`, the inherited `Array.prototype.map` that `a.map` gives for
      any array `a` (the one inherited member among the keys the extension reads). */
  datatype JsValue = Undefined | Val(j: Json) | ArrayMap

  /** The keys of `Array.prototype` that the extension reads. */
  const ArrayMethodKey: string := "map"

  /** Standard JSON: no non-finite token anywhere. `JSON.parse` accepts exactly these. */
  predicate Standard(j: Json) {
    match j
    case JNonFinite => false
    case JArr(items) => forall i :: 0 <= i < |items| ==> Standard(items[i])
    case JObj(fields) => forall i :: 0 <= i < |fields| ==> Standard(fields[i].1)
    case _ => true
  }

  /** What a process wrote to standard output: one document per `print` call, or text
      that is not a sequence of printed documents at all (a crash mid-write, a wrong
      encoding). */
  datatype Stdout = Printed(docs: seq<Json>) | Garbled

  /** `JSON.parse` of the captured output: it succeeds exactly when the output is one
      standard document (the trailing newline of `print` is white space). */
  function JsonParse(out: Stdout): (r: Option<Json>)
    ensures r.Some? <==> out.Printed? && |out.docs| == 1 && Standard(out.docs[0])
    ensures r.Some? ==> r.value == out.docs[0]
  {
    if out.Printed? && |out.docs| == 1 && Standard(out.docs[0]) then Some(out.docs[0]) else None
  }

  /** The value of the last field named `key` (`JSON.parse` keeps the last duplicate). */
  function LookupLast(fields: seq<(string, Json)>, key: string): (r: JsValue)
    ensures r.Val? ==> exists i :: 0 <= i < |fields| && fields[i] == (key, r.j)
    ensures r.Undefined? <==> forall i :: 0 <= i < |fields| ==> fields[i].0 != key
    ensures !r.ArrayMap?
  {
    if |fields| == 0 then Undefined
    else if fields[|fields| - 1].0 == key then Val(fields[|fields| - 1].1)
    else LookupLast(fields[..|fields| - 1], key)
  }

  /** `v.key`: `None` is the TypeError thrown for `undefined` and `null`. An array's
      `map` is the inherited method; otherwise primitives, arrays and the method itself
      have none of the keys the extension reads, so they give `undefined`. */
  function Prop(v: JsValue, key: string): (r: Option<JsValue>)
    ensures r.None? <==> v.Undefined? || v == Val(JNull)
    ensures r == Some(ArrayMap) <==> v.Val? && v.j.JArr? && key == ArrayMethodKey
  {
    match v
    case Undefined => None
    case ArrayMap => Some(Undefined)
    case Val(j) =>
      match j
      case JNull => None
      case JObj(fields) => Some(LookupLast(fields, key))
      case JArr(_) => Some(if key == ArrayMethodKey then ArrayMap else Undefined)
      case _ => Some(Undefined)
  }

  /** JavaScript truthiness. */
  predicate Truthy(v: JsValue) {
    match v
    case Undefined => false
    case ArrayMap => true
    case Val(j) =>
      match j
      case JNull => false
      case JBool(b) => b
      case JNum(n) => n != 0.0
      case JStr(s) => s != ""
      case _ => true
  }

  /** `ToNumber` of an array element when a typed array is built from a parsed array. */
  function ToNumber(j: Json): (r: Num)
    ensures j.JNum? ==> r == Fin(j.n)
  {
    match j
    case JNum(n) => Fin(n)
    case JNull => Fin(0.0)
    case JBool(b) => Fin(if b then 1.0 else 0.0)
    case _ => NaN
  }

  /** The numbers a typed-array constructor reads from a value: the converted elements
      of an array; `map` is array-like with `length` 1 (its parameter count) and no
      element 0, so it yields one NaN; any other source yields no element. */
  function NumbersOf(v: JsValue): (r: seq<Num>)
    ensures v.Val? && v.j.JArr? ==>
              |r| == |v.j.items| && forall i :: 0 <= i < |r| ==> r[i] == ToNumber(v.j.items[i])
    ensures v == ArrayMap ==> r == [NaN]
  {
    if v.Val? && v.j.JArr? then seq(|v.j.items|, i requires 0 <= i < |v.j.items| => ToNumber(v.j.items[i]))
    else if v.ArrayMap? then [NaN]
    else []
  }

  /** The text of an integral number. */
  function IntText(n: int): string {
    if n < 0 then "-" + DecimalText(-n) else DecimalText(n)
  }

  /** The text a template literal gives a value. */
  function JsText(v: JsValue): string {
    match v
    case Undefined => "undefined"
    case ArrayMap => "function map() { [native code] }"
    case Val(j) => JsonText(j)
  }

  function JsonText(j: Json): string {
    match j
    case JNull => "null"
    case JBool(b) => if b then "true" else "false"
    case JNum(n) => if n == n.Floor as real then IntText(n.Floor) else "<number>"
    case JNonFinite => "NaN"
    case JStr(s) => s
    case JArr(items) => ItemsText(items)
    case JObj(_) => "[object Object]"
  }

  /** `Array.prototype.toString`: elements joined with commas, `null` as the empty text. */
  function ItemsText(items: seq<Json>): string
    decreases items, 0
  {
    if |items| == 0 then ""
    else
      var first := if items[0].JNull? then "" else JsonText(items[0]);
      if |items| == 1 then first else first + "," + ItemsText(items[1..])
  }
}

=== FILE: legacy_webview.dfy ===
/** The legacy view's message handler: a SET_STATE puts the host's HTML into the
    viewer iframe and rebuilds both dropdowns from new option elements; every message is
    then echoed back to the host. */
module LegacyWebview {
  import opened Wrappers
  import opened WebviewMessages
  import opened SurfaceClient
  import opened ViewControls

  /** The parts of the page the handler touches: the iframe's `srcdoc` and each
      dropdown's options; `None` when the page has no element with that id. */
  datatype LegacyPage = LegacyPage(
    srcdoc: Option<string>,
    meshOptions: Option<seq<OptionElement>>,
    mapOptions: Option<seq<OptionElement>>)

  /** What the handler leaves: the page, the messages echoed to the host, and the error
      that ended it, if any. */
  datatype LegacyHandled = LegacyHandled(page: LegacyPage, echoed: seq<Inbound<LegacyBackendMessage>>, error: Option<JsError>)

  /** The message listener. For SET_STATE: set the iframe's document, then clear and
      refill the map dropdown, then the mesh dropdown, one new option per entry; a
      missing element throws a TypeError where it is first used, which ends the handler
      before the echo. Any other message is echoed as it is. */
  function OnMessage(p: LegacyPage, m: Inbound<LegacyBackendMessage>): (r: LegacyHandled)
    ensures m.OtherCommand? ==> r == LegacyHandled(p, [m], None)
    ensures m.Backend? && p.srcdoc.None? ==> r == LegacyHandled(p, [], Some(TypeError))
    ensures m.Backend? && p.srcdoc.Some? ==> r.page.srcdoc == Some(m.msg.iframeContents)
    ensures m.Backend? && p.srcdoc.Some? && p.mapOptions.Some? ==> r.page.mapOptions == Some(FreshOptions(m.msg.selectMapEntries))
    ensures m.Backend? && p.srcdoc.Some? && p.mapOptions.Some? && p.meshOptions.Some? ==>
      r.page.meshOptions == Some(FreshOptions(m.msg.selectMeshEntries))
    ensures r.echoed == [] || r.echoed == [m]
    ensures r.echoed == [m] <==> r.error.None?
    ensures r.error.None? <==> m.OtherCommand? || (p.srcdoc.Some? && p.mapOptions.Some? && p.meshOptions.Some?)
  {
    match m
    case OtherCommand(_) => LegacyHandled(p, [m], None)
    case Backend(msg) =>
      if p.srcdoc.None? then LegacyHandled(p, [], Some(TypeError))
      else
        var p1 := p.(srcdoc := Some(msg.iframeContents));
        if p1.mapOptions.None? then LegacyHandled(p1, [], Some(TypeError))
        else
          var p2 := p1.(mapOptions := Some(FreshOptions(msg.selectMapEntries)));
          if p2.meshOptions.None? then LegacyHandled(p2, [], Some(TypeError))
          else LegacyHandled(p2.(meshOptions := Some(FreshOptions(msg.selectMeshEntries))), [m], None)
  }

  /** On a page with the iframe and both dropdowns every message is echoed exactly once,
      whatever its command, and after a SET_STATE each dropdown's values and labels are
      its entries', in order. */
  lemma EveryMessageEchoedOnce(p: LegacyPage, m: Inbound<LegacyBackendMessage>)
    requires p.srcdoc.Some? && p.mapOptions.Some? && p.meshOptions.Some?
    ensures var r := OnMessage(p, m);
      && r.echoed == [m]
      && (m.Backend? ==>
            |r.page.meshOptions.value| == |m.msg.selectMeshEntries|
            && (forall i :: 0 <= i < |m.msg.selectMeshEntries| ==>
                  r.page.meshOptions.value[i].value == m.msg.selectMeshEntries[i].value
                  && r.page.meshOptions.value[i].caption == m.msg.selectMeshEntries[i].caption)
            && |r.page.mapOptions.value| == |m.msg.selectMapEntries|
            && (forall i :: 0 <= i < |m.msg.selectMapEntries| ==>
                  r.page.mapOptions.value[i].value == m.msg.selectMapEntries[i].value
                  && r.page.mapOptions.value[i].caption == m.msg.selectMapEntries[i].caption))
  {
  }
}

=== FILE: logging.dfy ===
/** The extension's output channel: created lazily once, then only appended to, and the
    notification that points the user at it after a Python error. */
module Logging {
  import opened Wrappers
  import opened Json
  import opened Effects

  const ChannelName: string := "NiSight"
  const ShowOutputConsoleAction: string := "Show output console"

  /** The module-level channel: whether it exists, and all text appended to it. */
  datatype Output = Output(created: bool, text: string)

  const NoOutput: Output := Output(false, "")

  /** The outcome of a logging call: the channel afterwards, what was done, and whether
      the call threw. */
  datatype LogResult = LogResult(out: Output, effects: seq<Effect>, threw: bool)

  /** `getOutputConsole()`: creates the channel on the first call only. */
  function GetOutputConsole(o: Output): (r: LogResult)
    ensures r.out.created && r.out.text == o.text && !r.threw
    ensures |r.effects| <= 1
    ensures r.effects != [] <==> !o.created
    ensures forall i :: 0 <= i < |r.effects| ==> r.effects[i] == CreateChannel(ChannelName)
  {
    if o.created then LogResult(o, [], false)
    else LogResult(Output(true, o.text), [CreateChannel(ChannelName)], false)
  }

  /** Two consecutive calls create the channel at most once, and the second creates
      nothing. */
  lemma GetOutputConsoleCreatesOnce(o: Output)
    ensures GetOutputConsole(GetOutputConsole(o).out).effects == []
    ensures GetOutputConsole(GetOutputConsole(o).out).out == GetOutputConsole(o).out
  {
  }

  /** `logMessage(message, eol = "\n")`: appends the message and the line ending; an
      absent line ending is the default. */
  function LogMessage(o: Output, message: string, eol: Option<string>): (r: LogResult)
    ensures r.out.created && !r.threw
    ensures r.out.text == o.text + message + eol.GetOr("\n")
    ensures Notifications(r.effects) == 0
  {
    var c := GetOutputConsole(o);
    LogResult(Output(true, c.out.text + message + eol.GetOr("\n")), c.effects + [Append(message + eol.GetOr("\n"))], false)
  }

  /** The line appended for a Python exception. */
  function ErrorLine(exception: string, message: string): string {
    "Python error '" + exception + "' occured: " + message + "\n"
  }

  /** The notification raised for a Python exception. */
  function ErrorNotice(exception: string): string {
    "NiSight: Python error " + exception + " occured. Show the output console for details..."
  }

  /** The appended line starts with the fixed prefix, quotes the class name, and ends
      with a newline. */
  lemma ErrorLineShape(exception: string, message: string)
    ensures var line := ErrorLine(exception, message);
      line[..14] == "Python error '" && line[|line| - 1] == '\n'
      && line[14..14 + |exception|] == exception
      && |line| == |exception| + |message| + 26
  {
  }

  /** The notification, the user's answer and, when the user picked the action, the
      reveal of the channel. `choice` is the button the user clicked, if any. */
  function NoticeEffects(exception: string, choice: Option<string>): seq<Effect> {
    [Notify(ErrorNotice(exception), [ShowOutputConsoleAction])]
      + (if choice == Some(ShowOutputConsoleAction) then [ShowChannel] else [])
  }

  lemma NoticeEffectsCount(exception: string, choice: Option<string>)
    ensures Notifications(NoticeEffects(exception, choice)) == 1
    ensures ShowChannel in NoticeEffects(exception, choice) <==> choice == Some(ShowOutputConsoleAction)
  {
    var e := NoticeEffects(exception, choice);
    assert e[1..] == (if choice == Some(ShowOutputConsoleAction) then [ShowChannel] else []);
  }

  /** `logPythonException(content)`: gets the channel, then reads `content.exception`
      and `content.message` (a TypeError when `content` is null or undefined), appends
      one error line and raises one notification. */
  function LogPythonException(o: Output, content: JsValue, choice: Option<string>): (r: LogResult)
    ensures r.out.created
    ensures r.threw <==> content.Undefined? || content == Val(JNull)
    ensures r.threw ==> r.out.text == o.text && Notifications(r.effects) == 0
    ensures !r.threw ==>
      r.out.text == o.text + ErrorLine(JsText(Prop(content, "exception").value), JsText(Prop(content, "message").value))
    ensures !r.threw ==> Notifications(r.effects) == 1
    ensures ShowChannel in r.effects <==> !r.threw && choice == Some(ShowOutputConsoleAction)
  {
    var c := GetOutputConsole(o);
    match (Prop(content, "exception"), Prop(content, "message"))
    case (Some(e), Some(m)) =>
      var line := ErrorLine(JsText(e), JsText(m));
      var notice := NoticeEffects(JsText(e), choice);
      NoticeEffectsCount(JsText(e), choice);
      NotificationsAppend(c.effects, [Append(line)]);
      NotificationsAppend(c.effects + [Append(line)], notice);
      LogResult(Output(true, c.out.text + line), c.effects + [Append(line)] + notice, false)
    case _ => LogResult(c.out, c.effects, true)
  }

  /** The operations that touch the channel. */
  datatype LogOp =
    | GetConsole
    | Log(message: string, eol: Option<string>)
    | LogException(content: JsValue, choice: Option<string>)

  function Step(o: Output, op: LogOp): Output {
    match op
    case GetConsole => GetOutputConsole(o).out
    case Log(m, e) => LogMessage(o, m, e).out
    case LogException(c, ch) => LogPythonException(o, c, ch).out
  }

  function Run(o: Output, ops: seq<LogOp>): Output
    decreases |ops|
  {
    if |ops| == 0 then o else Run(Step(o, ops[0]), ops[1..])
  }

  /** The channel is append-only: after any sequence of operations the earlier text is
      a prefix of the later one, and a created channel stays created. */
  lemma {:induction false} AppendOnly(o: Output, ops: seq<LogOp>)
    ensures o.text <= Run(o, ops).text
    ensures o.created ==> Run(o, ops).created
    decreases |ops|
  {
    if |ops| > 0 {
      var o1 := Step(o, ops[0]);
      assert o.text <= o1.text && o1.created;
      AppendOnly(o1, ops[1..]);
    }
  }
}

=== FILE: neuro_editor.dfy ===
/** The custom editor of the current surface viewer: editors and documents numbered
    from two global counters, the active document of each editor, the view-state
    listener of each document, and the `nisight.viewfile` command. Every handler is one
    atomic step from host state to host state. */
module NeuroEditor {
  import opened Wrappers
  import opened Effects
  import opened Logging
  import opened WebviewMessages
  import opened SurfaceExtractHost
  import opened NeuroViewer
  import JsStrings

  /** A `NeuroDocument`: its number, the editor that opened it (an index), its file, the
      events of its panel once resolved, and its current view-state listener (an index). */
  datatype Document = Document(id: nat, editor: nat, uri: string, panel: Option<seq<PanelEvent>>, listener: Option<nat>)

  /** A `NeuroEditor`: its number, the extension location set by `register`, and the
      active document (an index). */
  datatype Editor = Editor(id: nat, extensionUri: Option<string>, active: Option<nat>)

  /** A view-state listener: the document whose handler it runs, and whether it is still
      registered. */
  datatype Listener = Listener(doc: nat, live: bool)

  /** Everything the host holds: the counters `COUNTER_VIEWER` and `COUNTER_DOCUMENT`,
      the editors, documents and listeners ever created, the output channel, and what
      was done. */
  datatype Host = Host(
    counterViewer: nat,
    counterDocument: nat,
    editors: seq<Editor>,
    docs: seq<Document>,
    listeners: seq<Listener>,
    out: Output,
    effects: seq<Effect>)

  /** The host when the extension is loaded: both counters at 0. */
  const Init := Host(0, 0, [], [], [], NoOutput, [])

  /** The references between editors, documents and listeners are sound; every number
      is its creation index; a live listener is the one its document holds. */
  ghost predicate Valid(h: Host) {
    && h.counterViewer == |h.editors|
    && h.counterDocument == |h.docs|
    && (forall i :: 0 <= i < |h.editors| ==>
          h.editors[i].id == i && (h.editors[i].active.Some? ==> h.editors[i].active.value < |h.docs|))
    && (forall i :: 0 <= i < |h.docs| ==>
          h.docs[i].id == i && h.docs[i].editor < |h.editors|
          && (h.docs[i].listener.Some? ==>
                h.docs[i].listener.value < |h.listeners| && h.listeners[h.docs[i].listener.value].doc == i))
    && (forall k :: 0 <= k < |h.listeners| ==>
          h.listeners[k].doc < |h.docs| && (h.listeners[k].live ==> h.docs[h.listeners[k].doc].listener == Some(k)))
  }

  lemma InitValid()
    ensures Valid(Init)
  {
  }

  // ---------------------------------------------------------------------------
  // Creation

  /** `new NeuroEditor()`: the editor takes the viewer counter's value, which is then
      incremented. */
  function NewEditor(h: Host): (r: Host)
    requires Valid(h)
    ensures Valid(r)
    ensures |r.editors| == |h.editors| + 1 && r.editors[..|h.editors|] == h.editors
    ensures r.editors[|h.editors|].id == h.counterViewer
    ensures forall i :: 0 <= i < |h.editors| ==> r.editors[i].id != r.editors[|h.editors|].id
    ensures r.counterViewer == h.counterViewer + 1
    ensures r.editors[|h.editors|].extensionUri.None? && r.editors[|h.editors|].active.None?
    ensures r.docs == h.docs && r.listeners == h.listeners && r.out == h.out
  {
    h.(counterViewer := h.counterViewer + 1,
       editors := h.editors + [Editor(h.counterViewer, None, None)])
  }

  /** `register(context)`: the editor learns the extension's location. */
  function Register(h: Host, e: nat, extensionUri: string): (r: Host)
    requires Valid(h) && e < |h.editors|
    ensures Valid(r)
    ensures |r.editors| == |h.editors| && r.docs == h.docs && r.listeners == h.listeners && r.out == h.out
    ensures r.editors[e].extensionUri == Some(extensionUri)
    ensures r.editors[e].id == h.editors[e].id && r.editors[e].active == h.editors[e].active
    ensures forall i :: 0 <= i < |h.editors| && i != e ==> r.editors[i] == h.editors[i]
  {
    h.(editors := h.editors[e := h.editors[e].(extensionUri := Some(extensionUri))])
  }

  /** `openCustomDocument(uri)`: the document takes the document counter's value, which
      is then incremented; it has no panel and no listener yet. */
  function OpenDocument(h: Host, e: nat, uri: string): (r: Host)
    requires Valid(h) && e < |h.editors|
    ensures Valid(r)
    ensures |r.docs| == |h.docs| + 1 && r.docs[..|h.docs|] == h.docs
    ensures r.docs[|h.docs|].id == h.counterDocument && r.counterDocument == h.counterDocument + 1
    ensures forall i :: 0 <= i < |h.docs| ==> r.docs[i].id != r.docs[|h.docs|].id
    ensures r.docs[|h.docs|].editor == e && r.docs[|h.docs|].uri == uri
    ensures r.docs[|h.docs|].panel.None? && r.docs[|h.docs|].listener.None?
    ensures r.editors == h.editors && r.listeners == h.listeners && r.out == h.out
  {
    h.(counterDocument := h.counterDocument + 1,
       docs := h.docs + [Document(h.counterDocument, e, uri, None, None)],
       effects := h.effects + [ConsoleLog("Created new doc #" + JsStrings.DecimalText(h.counterDocument))])
  }

  // ---------------------------------------------------------------------------
  // Sending and loading

  /** `sendWebviewMessage(message)`: posted to the panel, if there is one. */
  function SendWebviewMessage(h: Host, d: nat, message: BackendMessage): (r: Host)
    requires Valid(h) && d < |h.docs|
    ensures Valid(r)
    ensures |r.docs| == |h.docs| && forall i :: 0 <= i < |h.docs| && i != d ==> r.docs[i] == h.docs[i]
    ensures h.docs[d].panel.None? ==> r == h
    ensures h.docs[d].panel.Some? ==>
      r.docs[d].panel == Some(h.docs[d].panel.value + [Posted(message)])
      && r.docs[d].listener == h.docs[d].listener
    ensures r.editors == h.editors && r.listeners == h.listeners && r.out == h.out && r.effects == h.effects
  {
    match h.docs[d].panel
    case None => h
    case Some(events) => h.(docs := h.docs[d := h.docs[d].(panel := Some(events + [Posted(message)]))])
  }

  /** The load context of document `d`: its editor's extension location. */
  function ContextOf(h: Host, d: nat, env: LoadEnv): LoadContext
    requires Valid(h) && d < |h.docs|
  {
    LoadContext(h.editors[h.docs[d].editor].extensionUri, env.interpreter, env.pyPath)
  }

  /** What a finished load posts: its message, if it has one. */
  function Posts(load: LoadResult): seq<PanelEvent> {
    if load.message.Some? then [Posted(load.message.value)] else []
  }

  /** The state change of a finished load: the channel and effects it produced, and its
      message (if any) sent through document `d`. */
  function ApplyLoad(h: Host, d: nat, load: LoadResult): (r: Host)
    requires Valid(h) && d < |h.docs|
    ensures Valid(r)
    ensures |r.docs| == |h.docs| && forall i :: 0 <= i < |h.docs| && i != d ==> r.docs[i] == h.docs[i]
    ensures r.out == load.out && r.effects == h.effects + load.effects
    ensures load.message.None? || h.docs[d].panel.None? ==> r.docs == h.docs
    ensures h.docs[d].panel.Some? ==> r.docs[d].panel == Some(h.docs[d].panel.value + Posts(load))
    ensures r.docs[d].listener == h.docs[d].listener
    ensures r.editors == h.editors && r.listeners == h.listeners
  {
    var h1 := h.(out := load.out, effects := h.effects + load.effects);
    if load.message.Some? then SendWebviewMessage(h1, d, load.message.value)
    else
      assert h.docs[d].panel.Some? ==> h.docs[d].panel.value + Posts(load) == h.docs[d].panel.value;
      h1
  }

  /** `viewer.loadFile(uri)` of document `d`. */
  function LoadInto(h: Host, d: nat, uri: string, env: LoadEnv): (r: Host)
    requires Valid(h) && d < |h.docs|
    ensures Valid(r)
    ensures h.out.text <= r.out.text
  {
    ApplyLoad(h, d, LoadFile(ContextOf(h, d, env), uri, env.proc, h.out, env.choice))
  }

  // ---------------------------------------------------------------------------
  // Resolving a document

  /** The result of resolving: the host, and whether the awaited load rejected. */
  datatype Resolved = Resolved(host: Host, rejected: bool)

  /** `buildHtml()` once the panel is set: empty without an extension location. */
  function PageFor(extensionUri: Option<string>, page: string): string {
    if extensionUri.None? then "" else page
  }

  /** The first half of `resolve`: take the new panel (nothing posted to it yet),
      dispose the previous listener, and register a new one. */
  function Rebind(h: Host, d: nat): (r: Host)
    requires Valid(h) && d < |h.docs|
    ensures Valid(r)
    ensures |r.docs| == |h.docs| && forall i :: 0 <= i < |h.docs| && i != d ==> r.docs[i] == h.docs[i]
    ensures r.docs[d] == h.docs[d].(panel := Some([]), listener := Some(|h.listeners|))
    ensures |r.listeners| == |h.listeners| + 1 && r.listeners[|h.listeners|] == Listener(d, true)
    ensures forall k :: 0 <= k < |h.listeners| ==>
      r.listeners[k].doc == h.listeners[k].doc && (r.listeners[k].live <==> h.listeners[k].live && h.listeners[k].doc != d)
    ensures r.editors == h.editors && r.out == h.out && r.effects == h.effects
  {
    var doc := h.docs[d];
    var retired :=
      if doc.listener.Some? then h.listeners[doc.listener.value := Listener(d, false)] else h.listeners;
    var docs := h.docs[d := doc.(panel := Some([]), listener := Some(|h.listeners|))];
    RebindValid(h, d, docs, retired + [Listener(d, true)]);
    h.(docs := docs, listeners := retired + [Listener(d, true)])
  }

  /** Retiring the document's listener and registering its next one keeps the references
      sound. */
  lemma RebindValid(h: Host, d: nat, docs: seq<Document>, listeners: seq<Listener>)
    requires Valid(h) && d < |h.docs|
    requires docs == h.docs[d := h.docs[d].(panel := Some([]), listener := Some(|h.listeners|))]
    requires var l := h.docs[d].listener;
      listeners == (if l.Some? then h.listeners[l.value := Listener(d, false)] else h.listeners) + [Listener(d, true)]
    ensures Valid(h.(docs := docs, listeners := listeners))
  {
  }

  /** The last half of `resolve`: set the html, then register the message handler. */
  function Present(h: Host, d: nat, html: string): (r: Host)
    requires Valid(h) && d < |h.docs| && h.docs[d].panel.Some?
    ensures Valid(r)
    ensures |r.docs| == |h.docs| && forall i :: 0 <= i < |h.docs| && i != d ==> r.docs[i] == h.docs[i]
    ensures r.docs[d].panel == Some(h.docs[d].panel.value + [HtmlSet(html), HandlerRegistered])
    ensures r.docs[d].listener == h.docs[d].listener
    ensures r.editors == h.editors && r.listeners == h.listeners && r.out == h.out && r.effects == h.effects
  {
    h.(docs := h.docs[d := h.docs[d].(panel := Some(h.docs[d].panel.value + [HtmlSet(html), HandlerRegistered]))])
  }

  /** `document.resolve(panel)`: take the new panel, dispose the previous listener,
      register a new one, await the load (whose message goes to the new panel), and only
      then set the html and register the message handler. */
  function Resolve(h: Host, d: nat, env: LoadEnv): (r: Resolved)
    requires Valid(h) && d < |h.docs|
    ensures Valid(r.host)
    ensures r.host.editors == h.editors && |r.host.docs| == |h.docs|
    ensures forall i :: 0 <= i < |h.docs| && i != d ==> r.host.docs[i] == h.docs[i]
    ensures |r.host.listeners| == |h.listeners| + 1
    // the new listener is the only live one of this document, and the old one is disposed
    ensures r.host.docs[d].listener == Some(|h.listeners|)
    ensures forall k :: 0 <= k < |r.host.listeners| && r.host.listeners[k].live && r.host.listeners[k].doc == d
                        ==> k == |h.listeners|
    ensures h.docs[d].listener.Some? ==> !r.host.listeners[h.docs[d].listener.value].live
    // the load's message is posted first; html and handler follow only after a load that did not reject
    ensures var load := LoadFile(ContextOf(h, d, env), h.docs[d].uri, env.proc, h.out, env.choice);
      && r.rejected == load.rejected
      && r.host.out == load.out
      && (r.rejected ==> r.host.docs[d].panel == Some(Posts(load)))
      && (!r.rejected ==>
            r.host.docs[d].panel == Some(Posts(load) + [HtmlSet(PageFor(ContextOf(h, d, env).extensionUri, env.page)), HandlerRegistered]))
  {
    var load := LoadFile(ContextOf(h, d, env), h.docs[d].uri, env.proc, h.out, env.choice);
    var h1 := Rebind(h, d);
    var h2 := ApplyLoad(h1, d, load);
    assert h2.docs[d].panel == Some(Posts(load)) by {
      assert [] + Posts(load) == Posts(load);
    }
    if load.rejected then Resolved(h2, true)
    else Resolved(Present(h2, d, PageFor(ContextOf(h, d, env).extensionUri, env.page)), false)
  }

  /** `resolveCustomEditor(document, panel)`: the document becomes its editor's active
      document before it is resolved. */
  function ResolveCustomEditor(h: Host, d: nat, env: LoadEnv): (r: Resolved)
    requires Valid(h) && d < |h.docs|
    ensures Valid(r.host)
    ensures |r.host.editors| == |h.editors| && r.host.editors[h.docs[d].editor].active == Some(d)
    ensures r == Resolve(h.(editors := h.editors[h.docs[d].editor := h.editors[h.docs[d].editor].(active := Some(d))]), d, env)
  {
    var e := h.docs[d].editor;
    Resolve(h.(editors := h.editors[e := h.editors[e].(active := Some(d))]), d, env)
  }

  /** The panel's view state changed; listener `k` runs only while registered, and makes
      its document active only when the panel is both visible and active. */
  function ViewStateChanged(h: Host, k: nat, visible: bool, active: bool): (r: Host)
    requires Valid(h) && k < |h.listeners|
    ensures Valid(r)
    ensures r.docs == h.docs && r.listeners == h.listeners && |r.editors| == |h.editors| && r.out == h.out
    ensures h.listeners[k].live && visible && active ==>
      r.editors[h.docs[h.listeners[k].doc].editor].active == Some(h.listeners[k].doc)
    ensures forall i :: 0 <= i < |h.editors| ==>
      r.editors[i].active != h.editors[i].active ==>
        h.listeners[k].live && visible && active && i == h.docs[h.listeners[k].doc].editor
  {
    if h.listeners[k].live && visible && active then
      var d := h.listeners[k].doc;
      var e := h.docs[d].editor;
      h.(editors := h.editors[e := h.editors[e].(active := Some(d))])
    else h
  }

  // ---------------------------------------------------------------------------
  // Commands and messages

  /** An argument of a command invocation: a file location, or anything else. */
  datatype CommandArg = UriArg(uri: string) | OtherArg

  /** `nisight.viewfile(...args)`: load the first argument into the active document, if
      there is an active document and the first argument is a file location. */
  function ViewFile(h: Host, e: nat, args: seq<CommandArg>, env: LoadEnv): (r: Host)
    requires Valid(h) && e < |h.editors|
    ensures Valid(r)
    ensures h.editors[e].active.None? ==> r == h
    ensures (|args| == 0 || !args[0].UriArg?) ==> r == h
    ensures h.editors[e].active.Some? && |args| > 0 && args[0].UriArg? ==>
      r == LoadInto(h, h.editors[e].active.value, args[0].uri, env)
  {
    match h.editors[e].active
    case None => h
    case Some(d) => if |args| > 0 && args[0].UriArg? then LoadInto(h, d, args[0].uri, env) else h
  }

  /** Whether the message handler of document `d` is registered. */
  predicate HandlerOn(doc: Document) {
    doc.panel.Some? && HandlerRegistered in doc.panel.value
  }

  /** A message from the view of document `d`: handled once the handler is registered.
      The view's echo of a host message has no case in the handler and does nothing. */
  function ReceiveMessage(h: Host, d: nat, message: HostInbound<BackendMessage>, pick: Pick, env: LoadEnv): (r: Host)
    requires Valid(h) && d < |h.docs|
    ensures Valid(r)
    ensures !HandlerOn(h.docs[d]) || message.Echo? ==> r == h
    ensures HandlerOn(h.docs[d]) && message.Frontend? ==>
      var handled := HandleWebviewMessage(message.f, pick);
      && (handled.load.None? ==> r == h.(effects := h.effects + handled.effects))
      && (handled.load.Some? ==> r == LoadInto(h.(effects := h.effects + handled.effects), d, handled.load.value, env))
  {
    if !HandlerOn(h.docs[d]) || message.Echo? then h
    else
      var handled := HandleWebviewMessage(message.f, pick);
      var h1 := h.(effects := h.effects + handled.effects);
      if handled.load.Some? then LoadInto(h1, d, handled.load.value, env) else h1
  }

  /** `document.dispose()`: its listener, if any, is unregistered. */
  function Dispose(h: Host, d: nat): (r: Host)
    requires Valid(h) && d < |h.docs|
    ensures Valid(r)
    ensures forall k :: 0 <= k < |r.listeners| && r.listeners[k].doc == d ==> !r.listeners[k].live
    ensures |r.listeners| == |h.listeners|
    ensures forall k :: 0 <= k < |h.listeners| && h.listeners[k].doc != d ==> r.listeners[k] == h.listeners[k]
    ensures r.docs == h.docs && r.editors == h.editors && r.out == h.out
  {
    var h1 := h.(effects := h.effects + [ConsoleLog("dispose doc #" + JsStrings.DecimalText(h.docs[d].id))]);
    match h.docs[d].listener
    case None => h1
    case Some(k) => h1.(listeners := h.listeners[k := Listener(d, false)])
  }

  // ---------------------------------------------------------------------------
  // Runs of handlers

  /** One thing that can happen to the host. Indices name editors, documents and
      listeners by creation order; an index of nothing yet created is ignored. */
  datatype Op =
    | CreateEditor
    | RegisterEditor(e: nat, extensionUri: string)
    | Open(e: nat, uri: string)
    | ResolveEditor(d: nat, env: LoadEnv)
    | ViewState(k: nat, visible: bool, active: bool)
    | ViewFileCommand(e: nat, args: seq<CommandArg>, env: LoadEnv)
    | Message(d: nat, message: HostInbound<BackendMessage>, pick: Pick, env: LoadEnv)
    | DisposeDocument(d: nat)

  function Step(h: Host, op: Op): (r: Host)
    requires Valid(h)
    ensures Valid(r)
    ensures h.out.text <= r.out.text
  {
    match op
    case CreateEditor => NewEditor(h)
    case RegisterEditor(e, u) => if e < |h.editors| then Register(h, e, u) else h
    case Open(e, u) => if e < |h.editors| then OpenDocument(h, e, u) else h
    case ResolveEditor(d, env) => if d < |h.docs| then ResolveCustomEditor(h, d, env).host else h
    case ViewState(k, visible, active) => if k < |h.listeners| then ViewStateChanged(h, k, visible, active) else h
    case ViewFileCommand(e, args, env) => if e < |h.editors| then ViewFile(h, e, args, env) else h
    case Message(d, m, pick, env) => if d < |h.docs| then ReceiveMessage(h, d, m, pick, env) else h
    case DisposeDocument(d) => if d < |h.docs| then Dispose(h, d) else h
  }

  /** The host after the handlers `ops`, in order. */
  function Run(h: Host, ops: seq<Op>): (r: Host)
    requires Valid(h)
    ensures Valid(r)
    ensures h.out.text <= r.out.text
    decreases |ops|
  {
    if |ops| == 0 then h else Run(Step(h, ops[0]), ops[1..])
  }

  /** In every reachable host, editors and documents carry distinct numbers counted from
      0, and no document has more than one registered view-state listener. */
  lemma ReachableInvariants(ops: seq<Op>)
    ensures var h := Run(Init, ops);
      && (forall i, j :: 0 <= i < j < |h.docs| ==> h.docs[i].id != h.docs[j].id)
      && (forall i :: 0 <= i < |h.docs| ==> h.docs[i].id == i)
      && (forall i, j :: 0 <= i < j < |h.editors| ==> h.editors[i].id != h.editors[j].id)
      && (forall k1, k2 :: 0 <= k1 < |h.listeners| && 0 <= k2 < |h.listeners|
            && h.listeners[k1].live && h.listeners[k2].live && h.listeners[k1].doc == h.listeners[k2].doc
            ==> k1 == k2)
  {
    InitValid();
  }
}

=== FILE: neuro_viewer.dfy ===
/** The current surface viewer's host logic: loading a file (classification, then
    extraction, then one SET_STATE message) and answering the view's messages. */
module NeuroViewer {
  import opened Wrappers
  import opened Numbers
  import opened Buffers
  import opened Json
  import opened Effects
  import opened Logging
  import opened NeuroFormats
  import opened WebviewMessages
  import opened SurfaceExtractHost
  import Py = SurfaceExtractPy
  import JsStrings

  /** What a load needs from outside: the editor's extension location (absent before
      registration), the interpreter, and the extraction script's path. */
  datatype LoadContext = LoadContext(extensionUri: Option<string>, interpreter: Option<string>, pyPath: string)

  /** The outcome of `loadFile`: the message to send (if any), the output channel, what
      was done, and whether the load rejected. */
  datatype LoadResult = LoadResult(message: Option<BackendMessage>, out: Output, effects: seq<Effect>, rejected: bool)

  /** The SET_STATE message with the given data and no dropdown entries. */
  function StateMessage(data: SurfaceData): BackendMessage {
    SetState(data, [], [])
  }

  /** `loadFile(uri)`: classify the path; extract only a mesh for a surface mesh and only
      a map for a surface map; send one SET_STATE when something was extracted. `proc` is
      what the extraction process produced. */
  function LoadFile(ctx: LoadContext, uri: string, proc: ProcessOutput, o: Output, choice: Option<string>): (r: LoadResult)
    ensures ctx.extensionUri.None? ==> r == LoadResult(None, o, [], false)
    ensures ReadNeuroMetaData(uri).modality != Some(SurfaceMesh) && ReadNeuroMetaData(uri).modality != Some(SurfaceMap)
            ==> r == LoadResult(None, o, [], false)
    ensures ctx.extensionUri.Some? && ctx.interpreter.Some? && ReadNeuroMetaData(uri).modality == Some(SurfaceMesh) ==>
      |r.effects| > 0 && r.effects[0] == Spawn(ctx.interpreter.value, [ctx.pyPath, "--mesh", uri])
    ensures ctx.extensionUri.Some? && ctx.interpreter.Some? && ReadNeuroMetaData(uri).modality == Some(SurfaceMap) ==>
      |r.effects| > 0 && r.effects[0] == Spawn(ctx.interpreter.value, [ctx.pyPath, "--map", uri])
    ensures Spawns(r.effects) <= 1
    // a message carries exactly one of mesh and map, and no entries
    ensures r.message.Some? ==>
      (r.message.value.data.mesh.Some? != r.message.value.data.values.Some?)
      && r.message.value.selectMeshEntries == [] && r.message.value.selectMapEntries == []
    ensures r.message.Some? && r.message.value.data.mesh.Some? ==> ReadNeuroMetaData(uri).modality == Some(SurfaceMesh)
    ensures r.message.Some? && r.message.value.data.values.Some? ==> ReadNeuroMetaData(uri).modality == Some(SurfaceMap)
    ensures r.rejected ==> r.message.None?
    ensures o.text <= r.out.text
    // per modality: the extraction's settlement decides the message and the rejection
    ensures ctx.extensionUri.Some? && ReadNeuroMetaData(uri).modality == Some(SurfaceMesh) ==>
      var x := MeshExtract(ctx.interpreter, ctx.pyPath, uri, proc, o, choice);
      r.rejected == x.0.Rejected? && r.out == x.1 && r.effects == x.2
      && r.message == (if x.0.Returned? && Truthy(x.0.v)
                       then Some(StateMessage(SurfaceData(Some(MeshPayloadOf(x.0.v)), None))) else None)
    ensures ctx.extensionUri.Some? && ReadNeuroMetaData(uri).modality == Some(SurfaceMap) ==>
      var x := MapExtract(ctx.interpreter, ctx.pyPath, uri, proc, o, choice);
      r.rejected == x.0.Rejected? && r.out == x.1 && r.effects == x.2
      && r.message == (if x.0.Returned? && Truthy(x.0.v)
                       then Some(StateMessage(SurfaceData(None, Some(F32Buffer(NumbersOf(x.0.v)))))) else None)
  {
    var meta := ReadNeuroMetaData(uri);
    if ctx.extensionUri.None? then LoadResult(None, o, [], false)
    else if meta.modality == Some(SurfaceMesh) then
      var (outcome, out, effects) := MeshExtract(ctx.interpreter, ctx.pyPath, uri, proc, o, choice);
      SpawnsOfExtract(ctx.interpreter, ctx.pyPath, Some(uri), None, proc, o, choice);
      if outcome.Rejected? then LoadResult(None, out, effects, true)
      else if Truthy(outcome.v) then
        LoadResult(Some(StateMessage(SurfaceData(Some(MeshPayloadOf(outcome.v)), None))), out, effects, false)
      else LoadResult(None, out, effects, false)
    else if meta.modality == Some(SurfaceMap) then
      var (outcome, out, effects) := MapExtract(ctx.interpreter, ctx.pyPath, uri, proc, o, choice);
      SpawnsOfExtract(ctx.interpreter, ctx.pyPath, None, Some(uri), proc, o, choice);
      if outcome.Rejected? then LoadResult(None, out, effects, true)
      else if Truthy(outcome.v) then
        LoadResult(Some(StateMessage(SurfaceData(None, Some(F32Buffer(NumbersOf(outcome.v)))))), out, effects, false)
      else LoadResult(None, out, effects, false)
    else LoadResult(None, o, [], false)
  }

  lemma SpawnsOfExtract(interpreter: Option<string>, pyPath: string, fileMesh: Option<string>, fileMap: Option<string>,
                        proc: ProcessOutput, o: Output, choice: Option<string>)
    ensures Spawns(SurfaceExtract(interpreter, pyPath, fileMesh, fileMap, proc, o, choice).effects) <= 1
  {
  }

  /** The face indices a view reads back from a load's mesh payload are the extracted
      indices converted to uint32. */
  lemma FacesSurviveTheWire(mesh: JsValue)
    requires Prop(mesh, "vertices").Some?
    ensures DecodeU32(MeshPayloadOf(mesh).faces) == Some(Words(NumbersOf(Prop(mesh, "faces").value)))
  {
    DecodeEncode(Words(NumbersOf(Prop(mesh, "faces").value)));
  }

  /** A load whose extraction comes back undefined, with the channel untouched, sends
      nothing and does not reject. */
  lemma DiscardedExtractionSendsNothing(ctx: LoadContext, uri: string, proc: ProcessOutput, o: Output, choice: Option<string>)
    requires ctx.extensionUri.Some?
    requires ReadNeuroMetaData(uri).modality == Some(SurfaceMesh) ==>
      var x := SurfaceExtract(ctx.interpreter, ctx.pyPath, Some(uri), None, proc, o, choice);
      x.outcome == Returned(Undefined) && x.out == o
    requires ReadNeuroMetaData(uri).modality == Some(SurfaceMap) ==>
      var x := SurfaceExtract(ctx.interpreter, ctx.pyPath, None, Some(uri), proc, o, choice);
      x.outcome == Returned(Undefined) && x.out == o
    ensures var r := LoadFile(ctx, uri, proc, o, choice);
      r.message.None? && !r.rejected && r.out == o
  {
  }

  /** A path such as "xpial" is a FreeSurfer mesh to the classifier, whose `.` matches any
      character, but not to the script, which wants the literal ".pial": the script fails,
      its exit status is discarded, and no message is sent. */
  lemma MeshWithoutDotSendsNothing(ctx: LoadContext, env: Py.Env, o: Output, choice: Option<string>)
    requires ctx.extensionUri.Some? && ctx.interpreter.Some? && env.present("xpial")
    ensures var proc := ScriptProcess(ctx.pyPath, Some("xpial"), None, env);
      var r := LoadFile(ctx, "xpial", proc, o, choice);
      r.message.None? && !r.rejected && r.out == o
  {
    PialExamples();
    Py.MeshSuffixNeedsDot(env);
    assert Py.Extract(Some("xpial"), None, env).Raised?;
    ExamplesHaveNoDash();
    ScriptExceptionsAreDiscarded(ctx.interpreter.value, ctx.pyPath, Some("xpial"), None, env, o, choice);
    DiscardedExtractionSendsNothing(ctx, "xpial", ScriptProcess(ctx.pyPath, Some("xpial"), None, env), o, choice);
  }

  /** Neither example path reads as an option to the script. */
  lemma ExamplesHaveNoDash()
    ensures !JsStrings.StartsWith("xpial", "-") && !JsStrings.StartsWith("x.volume", "-")
  {
    assert "xpial"[0] != '-' && "x.volume"[0] != '-';
  }

  /** A FreeSurfer ".volume" file is a surface map to the classifier, but the script has
      no reader for it: the unassigned variable makes it fail, and nothing is sent. */
  lemma VolumeMapSendsNothing(ctx: LoadContext, env: Py.Env, o: Output, choice: Option<string>)
    requires ctx.extensionUri.Some? && ctx.interpreter.Some? && env.present("x.volume")
    ensures var proc := ScriptProcess(ctx.pyPath, None, Some("x.volume"), env);
      var r := LoadFile(ctx, "x.volume", proc, o, choice);
      r.message.None? && !r.rejected && r.out == o
  {
    VolumeExample();
    Py.VolumeMapFails(env);
    ExamplesHaveNoDash();
    ScriptExceptionsAreDiscarded(ctx.interpreter.value, ctx.pyPath, None, Some("x.volume"), env, o, choice);
    DiscardedExtractionSendsNothing(ctx, "x.volume", ScriptProcess(ctx.pyPath, None, Some("x.volume"), env), o, choice);
  }

  /** A surface map of finite values that the script reads is sent to the view as
      exactly those values, in one SET_STATE message without a mesh. */
  lemma FiniteMapReachesView(ctx: LoadContext, uri: string, env: Py.Env, values: seq<Num>,
                             o: Output, choice: Option<string>)
    requires ctx.extensionUri.Some? && ctx.interpreter.Some?
    requires ReadNeuroMetaData(uri).modality == Some(SurfaceMap)
    requires !JsStrings.StartsWith(uri, "-")
    requires Py.LoadSurfData(uri, env) == Py.Ok(Py.PArray(values))
    requires AllFinite(values)
    ensures var r := LoadFile(ctx, uri, ScriptProcess(ctx.pyPath, None, Some(uri), env), o, choice);
      r.message == Some(StateMessage(SurfaceData(None, Some(F32Buffer(values)))))
      && !r.rejected && r.out == o
  {
    MapExtractDeliversFiniteMap(ctx.interpreter.value, ctx.pyPath, uri, env, values, o, choice);
    MapOutcomeSendsNumbers(ctx, uri, ScriptProcess(ctx.pyPath, None, Some(uri), env), o, choice, values);
  }

  /** A map extraction that returns a printed array with the channel untouched sends
      the array's values. */
  lemma MapOutcomeSendsNumbers(ctx: LoadContext, uri: string, proc: ProcessOutput, o: Output,
                               choice: Option<string>, values: seq<Num>)
    requires ctx.extensionUri.Some? && ReadNeuroMetaData(uri).modality == Some(SurfaceMap)
    requires var x := MapExtract(ctx.interpreter, ctx.pyPath, uri, proc, o, choice);
      x.0 == Returned(Val(Py.ToJson(Py.PArray(values)).value)) && x.1 == o
    ensures var r := LoadFile(ctx, uri, proc, o, choice);
      r.message == Some(StateMessage(SurfaceData(None, Some(F32Buffer(values)))))
      && !r.rejected && r.out == o
  {
    ArrayReadBack(values);
  }

  /** Output whose content is an array makes `mapExtract` return `Array.prototype.map`,
      and the view is sent the one NaN a typed array reads from it. */
  lemma ArrayContentSendsOneNaN(ctx: LoadContext, uri: string, proc: ProcessOutput, o: Output,
                                choice: Option<string>, items: seq<Json>)
    requires ctx.extensionUri.Some? && ReadNeuroMetaData(uri).modality == Some(SurfaceMap)
    requires SurfaceExtract(ctx.interpreter, ctx.pyPath, None, Some(uri), proc, o, choice).outcome
             == Returned(Val(JArr(items)))
    ensures LoadFile(ctx, uri, proc, o, choice).message == Some(StateMessage(SurfaceData(None, Some(F32Buffer([NaN])))))
  {
    ArrayContentFields(items);
  }

  /** The numbers a typed array reads from a printed numpy array are its values. */
  lemma ArrayReadBack(values: seq<Num>)
    ensures NumbersOf(Val(Py.ToJson(Py.PArray(values)).value)) == values
  {
    var arr := Val(Py.ToJson(Py.PArray(values)).value);
    forall i | 0 <= i < |values| ensures NumbersOf(arr)[i] == values[i] {
      assert arr.j.items[i] == Py.NumJson(values[i]);
    }
  }

  /** A mesh with finite coordinates that the script reads is sent to the view with
      its coordinates, in one SET_STATE message without a map. */
  lemma FiniteMeshReachesView(ctx: LoadContext, uri: string, env: Py.Env, s: Py.Surface,
                              o: Output, choice: Option<string>)
    requires ctx.extensionUri.Some? && ctx.interpreter.Some?
    requires ReadNeuroMetaData(uri).modality == Some(SurfaceMesh)
    requires !JsStrings.StartsWith(uri, "-")
    requires Py.LoadSurfMesh(uri, env) == Py.Ok(s)
    requires Py.FiniteCoords(s.coords)
    ensures var r := LoadFile(ctx, uri, ScriptProcess(ctx.pyPath, Some(uri), None, env), o, choice);
      r.message.Some? && r.message.value.data.mesh.Some?
      && r.message.value.data.mesh.value.vertices == F32Buffer(Py.FlattenCoords(s.coords))
      && !r.rejected && r.out == o
  {
    var proc := ScriptProcess(ctx.pyPath, Some(uri), None, env);
    MeshExtractDeliversFiniteMesh(ctx.interpreter.value, ctx.pyPath, uri, env, s, o, choice);
    MeshOutcomeSendsPayload(ctx, uri, proc, o, choice, Py.ToJson(Py.MeshValue(Some(s))).value);
    VerticesOnTheWire(s);
  }

  /** A mesh extraction that returns an object with the channel untouched sends the
      buffers built from that object. */
  lemma MeshOutcomeSendsPayload(ctx: LoadContext, uri: string, proc: ProcessOutput, o: Output,
                                choice: Option<string>, mesh: Json)
    requires ctx.extensionUri.Some? && ReadNeuroMetaData(uri).modality == Some(SurfaceMesh)
    requires mesh.JObj?
    requires MeshExtract(ctx.interpreter, ctx.pyPath, uri, proc, o, choice).0 == Returned(Val(mesh))
    requires MeshExtract(ctx.interpreter, ctx.pyPath, uri, proc, o, choice).1 == o
    ensures var r := LoadFile(ctx, uri, proc, o, choice);
      r.message == Some(StateMessage(SurfaceData(Some(MeshPayloadOf(Val(mesh))), None)))
      && !r.rejected && r.out == o
  {
  }

  /** The vertex buffer built from a printed mesh holds the flattened coordinates. */
  lemma VerticesOnTheWire(s: Py.Surface)
    ensures MeshPayloadOf(Val(Py.ToJson(Py.MeshValue(Some(s))).value)).vertices == F32Buffer(Py.FlattenCoords(s.coords))
  {
    var mesh := Val(Py.ToJson(Py.MeshValue(Some(s))).value);
    var vs := Py.FlattenCoords(s.coords);
    var arr := Val(Py.ToJson(Py.PArray(vs)).value);
    assert Prop(mesh, "vertices") == Some(arr) by {
      var fields := mesh.j.fields;
      assert fields[0] == ("vertices", arr.j);
      assert fields[1].0 != "vertices" by { assert fields[1].0[0] != "vertices"[0]; }
      assert fields[..1] == [("vertices", arr.j)];
    }
    ArrayReadBack(vs);
  }

  // ---------------------------------------------------------------------------
  // Messages from the view

  /** What handling a view message does: the file to load next, if any, and the console
      lines it writes. */
  datatype Handled = Handled(load: Option<string>, effects: seq<Effect>)

  /** `handleWebviewMessage(message)`: the choose buttons open a dialog (`pick` is the
      user's answer) and load the first picked file; the dropdown messages only log. */
  function HandleWebviewMessage(message: FrontendMessage, pick: Pick): (r: Handled)
    ensures (message.ChooseMesh? || message.ChooseMap?) ==> r.load == Picked(pick) && r.effects == []
    ensures (message.SetMesh? || message.SetMap?) ==> r.load.None? && |r.effects| == 1 && r.effects[0].ConsoleLog?
  {
    match message
    case ChooseMesh => Handled(Picked(pick), [])
    case ChooseMap => Handled(Picked(pick), [])
    case SetMesh(path) => Handled(None, [ConsoleLog("Set mesh: " + path)])
    case SetMap(path) => Handled(None, [ConsoleLog("Set map: " + path)])
  }

  /** Either choose button loads a file exactly when the dialog returns at least one,
      and then the first of them; neither logs. */
  lemma ChooseLoadsFirstPick(message: FrontendMessage, pick: Pick)
    requires message.ChooseMesh? || message.ChooseMap?
    ensures var r := HandleWebviewMessage(message, pick);
      (r.load.Some? <==> pick.Some? && |pick.value| > 0)
      && (r.load.Some? ==> r.load.value == pick.value[0])
      && Notifications(r.effects) == 0
  {
  }

  /** The dropdown messages log one line ending in the selected path and load nothing. */
  lemma DropdownLogsPath(message: FrontendMessage, pick: Pick)
    requires message.SetMesh? || message.SetMap?
    ensures var r := HandleWebviewMessage(message, pick);
      r.load.None? && |r.effects| == 1 && r.effects[0].ConsoleLog?
      && JsStrings.EndsWith(r.effects[0].text, message.path)
  {
  }

  /** A cancelled or empty dialog loads nothing. */
  lemma CancelLoadsNothing(message: FrontendMessage, pick: Pick)
    requires pick.None? || pick == Some([])
    ensures HandleWebviewMessage(message, pick).load.None?
  {
  }
}

=== FILE: neuroformats.dfy ===
/** File classification: an ordered table of end-anchored suffix patterns, where the
    first matching group decides the (standard, modality) pair of a path. */
module NeuroFormats {
  import opened Wrappers

  datatype Standard = Freesurfer | Cifti | Gifti | Nifti
  datatype Modality = VolumeVoxel | SurfaceMesh | SurfaceMap
  datatype FileObject = HemiRight | HemiLeft

  /** The metadata record: every field is optional. */
  datatype MetaData = MetaData(
    standard: Option<Standard>,
    modality: Option<Modality>,
    obj: Option<FileObject>,
    meta: Option<map<string, string>>)

  const Empty: MetaData := MetaData(None, None, None, None)

  function Classified(s: Standard, m: Modality): MetaData {
    MetaData(Some(s), Some(m), None, None)
  }

  // ---------------------------------------------------------------------------
  // Patterns

  /** Characters that a regular-expression `.` does not match (no `s` flag). */
  predicate IsLineTerminator(c: char) {
    c == '\n' || c == '\r' || c == '\U{2028}' || c == '\U{2029}'
  }

  /** One pattern character against one path character: the unescaped `.` is a
      wildcard, every other character stands for itself. */
  predicate CharMatches(p: char, c: char) {
    if p == '.' then !IsLineTerminator(c) else p == c
  }

  /** `/pat$/.test(s)` for the patterns of the tables: the last `|pat|` characters of
      `s` match the pattern character by character. */
  predicate MatchesAtEnd(s: string, pat: string) {
    |pat| <= |s| && forall i :: 0 <= i < |pat| ==> CharMatches(pat[i], s[|s| - |pat| + i])
  }

  const MeshFreesurfer: seq<string> := [".pial", ".white", ".inflated", ".sphere", ".orig"]
  const MapFreesurfer: seq<string> := [".sulc", ".volume", ".thickness"]
  const MeshGifti: seq<string> := [".surf.gii", ".coord.gii"]
  const MapGifti: seq<string> := [".shape.gii", ".func.gii", ".label.gii"]
  const MapCifti: seq<string> := [".dlabel.nii", ".dtseries.nii", ".dscalar.nii"]
  const VolumeNifti: seq<string> := [".nii", ".nii.gz"]

  /** The longest pattern of all tables (`.dtseries.nii`). */
  const LongestPattern: nat := 13

  /** `matchesAny`: some pattern of the table matches the path. */
  function MatchesAny(fsPath: string, rxs: seq<string>): (b: bool)
    ensures b <==> exists i :: 0 <= i < |rxs| && MatchesAtEnd(fsPath, rxs[i])
  {
    if |rxs| == 0 then false
    else if MatchesAtEnd(fsPath, rxs[0]) then true
    else
      var rest := MatchesAny(fsPath, rxs[1..]);
      assert forall i :: 1 <= i < |rxs| ==> rxs[i] == rxs[1..][i - 1];
      rest
  }

  /** `readNeuroMetaData`: the groups are tried in order and the first that matches
      decides; no match gives the empty record. */
  function ReadNeuroMetaData(fsPath: string): (r: MetaData)
    ensures r.obj.None? && r.meta.None?
    ensures r.standard.None? <==> r.modality.None?
    ensures r.standard == Some(Cifti) ==> r.modality == Some(SurfaceMap)
    ensures r.standard == Some(Nifti) ==> r.modality == Some(VolumeVoxel)
  {
    if MatchesAny(fsPath, MeshFreesurfer) then Classified(Freesurfer, SurfaceMesh)
    else if MatchesAny(fsPath, MapFreesurfer) then Classified(Freesurfer, SurfaceMap)
    else if MatchesAny(fsPath, MeshGifti) then Classified(Gifti, SurfaceMesh)
    else if MatchesAny(fsPath, MapGifti) then Classified(Gifti, SurfaceMap)
    else if MatchesAny(fsPath, MapCifti) then Classified(Cifti, SurfaceMap)
    else if MatchesAny(fsPath, VolumeNifti) then Classified(Nifti, VolumeVoxel)
    else Empty
  }

  // ---------------------------------------------------------------------------
  // The rule table as data, and the classifier as a first-match search over it

  datatype Rule = Rule(patterns: seq<string>, standard: Standard, modality: Modality)

  /** The six groups in evaluation order. */
  const Rules: seq<Rule> := [
    Rule(MeshFreesurfer, Freesurfer, SurfaceMesh),
    Rule(MapFreesurfer, Freesurfer, SurfaceMap),
    Rule(MeshGifti, Gifti, SurfaceMesh),
    Rule(MapGifti, Gifti, SurfaceMap),
    Rule(MapCifti, Cifti, SurfaceMap),
    Rule(VolumeNifti, Nifti, VolumeVoxel)
  ]

  /** Reference definition: the classification of the first rule whose group matches. */
  function FirstMatch(fsPath: string, rules: seq<Rule>): MetaData {
    if |rules| == 0 then Empty
    else if MatchesAny(fsPath, rules[0].patterns) then Classified(rules[0].standard, rules[0].modality)
    else FirstMatch(fsPath, rules[1..])
  }

  /** The classifier is the first-match search over the rule table. */
  lemma ReadIsFirstMatch(fsPath: string)
    ensures ReadNeuroMetaData(fsPath) == FirstMatch(fsPath, Rules)
  {
    var r := Rules;
    var p := fsPath;
    assert r[5..][1..] == [];
    assert FirstMatch(p, r[5..]) == if MatchesAny(p, VolumeNifti) then Classified(Nifti, VolumeVoxel) else Empty;
    assert r[4..][1..] == r[5..];
    assert FirstMatch(p, r[4..]) == if MatchesAny(p, MapCifti) then Classified(Cifti, SurfaceMap) else FirstMatch(p, r[5..]);
    assert r[3..][1..] == r[4..];
    assert FirstMatch(p, r[3..]) == if MatchesAny(p, MapGifti) then Classified(Gifti, SurfaceMap) else FirstMatch(p, r[4..]);
    assert r[2..][1..] == r[3..];
    assert FirstMatch(p, r[2..]) == if MatchesAny(p, MeshGifti) then Classified(Gifti, SurfaceMesh) else FirstMatch(p, r[3..]);
    assert r[1..][1..] == r[2..];
    assert FirstMatch(p, r[1..]) == if MatchesAny(p, MapFreesurfer) then Classified(Freesurfer, SurfaceMap) else FirstMatch(p, r[2..]);
    assert FirstMatch(p, r) == if MatchesAny(p, MeshFreesurfer) then Classified(Freesurfer, SurfaceMesh) else FirstMatch(p, r[1..]);
  }

  /** First match wins: when group `g` matches and no earlier group does, the result is
      group `g`'s pair, whatever later groups would say. */
  lemma {:induction false} FirstMatchWins(fsPath: string, g: nat)
    requires g < |Rules|
    requires MatchesAny(fsPath, Rules[g].patterns)
    requires forall h :: 0 <= h < g ==> !MatchesAny(fsPath, Rules[h].patterns)
    ensures ReadNeuroMetaData(fsPath) == Classified(Rules[g].standard, Rules[g].modality)
  {
    ReadIsFirstMatch(fsPath);
    FirstMatchAt(fsPath, Rules, g);
  }

  lemma {:induction false} FirstMatchAt(fsPath: string, rules: seq<Rule>, g: nat)
    requires g < |rules|
    requires MatchesAny(fsPath, rules[g].patterns)
    requires forall h :: 0 <= h < g ==> !MatchesAny(fsPath, rules[h].patterns)
    ensures FirstMatch(fsPath, rules) == Classified(rules[g].standard, rules[g].modality)
  {
    if g > 0 {
      assert !MatchesAny(fsPath, rules[0].patterns);
      FirstMatchAt(fsPath, rules[1..], g - 1);
    }
  }

  /** A path matching no group gets the empty record, and only such a path does. */
  lemma NoMatchIsEmpty(fsPath: string)
    ensures ReadNeuroMetaData(fsPath) == Empty
            <==> forall g :: 0 <= g < |Rules| ==> !MatchesAny(fsPath, Rules[g].patterns)
  {
    if ReadNeuroMetaData(fsPath) == Empty {
      forall g | 0 <= g < |Rules| ensures !MatchesAny(fsPath, Rules[g].patterns) {
        if g == 0 {} else if g == 1 {} else if g == 2 {} else if g == 3 {} else if g == 4 {} else {}
      }
    }
    if forall g :: 0 <= g < |Rules| ==> !MatchesAny(fsPath, Rules[g].patterns) {
      assert Rules[0].patterns == MeshFreesurfer && Rules[1].patterns == MapFreesurfer;
      assert Rules[2].patterns == MeshGifti && Rules[3].patterns == MapGifti;
      assert Rules[4].patterns == MapCifti && Rules[5].patterns == VolumeNifti;
    }
  }

  // ---------------------------------------------------------------------------
  // The unescaped dot

  predicate NoDot(lit: string) {
    forall i :: 0 <= i < |lit| ==> lit[i] != '.'
  }

  /** A pattern `.lit` matches exactly the paths that end with one character other than
      a line terminator followed by `lit`: the dot is a wildcard, not a literal dot. */
  lemma DotIsWildcard(fsPath: string, lit: string)
    requires NoDot(lit)
    ensures MatchesAtEnd(fsPath, "." + lit)
            <==> |fsPath| > |lit| && !IsLineTerminator(fsPath[|fsPath| - |lit| - 1])
                 && fsPath[|fsPath| - |lit|..] == lit
  {
    var pat := "." + lit;
    if MatchesAtEnd(fsPath, pat) {
      assert CharMatches(pat[0], fsPath[|fsPath| - |pat|]);
      forall i | 0 <= i < |lit| ensures fsPath[|fsPath| - |lit|..][i] == lit[i] {
        assert CharMatches(pat[i + 1], fsPath[|fsPath| - |pat| + i + 1]);
      }
    }
    if |fsPath| > |lit| && !IsLineTerminator(fsPath[|fsPath| - |lit| - 1])
       && fsPath[|fsPath| - |lit|..] == lit {
      forall i | 0 <= i < |pat| ensures CharMatches(pat[i], fsPath[|fsPath| - |pat| + i]) {
        if i > 0 {
          assert fsPath[|fsPath| - |lit|..][i - 1] == lit[i - 1];
        }
      }
    }
  }

  /** "xpial" is a FreeSurfer mesh; "pial" alone, with no character for the dot, is not
      classified. */
  lemma PialExamples()
    ensures ReadNeuroMetaData("xpial") == Classified(Freesurfer, SurfaceMesh)
    ensures ReadNeuroMetaData("pial") == Empty
  {
    assert MatchesAtEnd("xpial", MeshFreesurfer[0]);
    var p := "pial";
    LongerPatternsMiss(p, MeshFreesurfer);
    LongerPatternsMiss(p, MapFreesurfer);
    LongerPatternsMiss(p, MeshGifti);
    LongerPatternsMiss(p, MapGifti);
    LongerPatternsMiss(p, MapCifti);
    assert !MatchesAtEnd(p, VolumeNifti[0]) by { assert p[3] != ".nii"[3]; }
    assert !MatchesAtEnd(p, VolumeNifti[1]);
  }

  /** No pattern longer than the path matches it. */
  lemma LongerPatternsMiss(fsPath: string, rxs: seq<string>)
    requires forall j :: 0 <= j < |rxs| ==> |rxs[j]| > |fsPath|
    ensures !MatchesAny(fsPath, rxs)
  {
  }

  /** "x.volume" is a FreeSurfer surface map. */
  lemma VolumeExample()
    ensures ReadNeuroMetaData("x.volume") == Classified(Freesurfer, SurfaceMap)
  {
    var p := "x.volume";
    LiteralMismatch(p, MeshFreesurfer[0], 0);
    LiteralMismatch(p, MeshFreesurfer[1], 1);
    LiteralMismatch(p, MeshFreesurfer[2], 0);
    LiteralMismatch(p, MeshFreesurfer[3], 1);
    LiteralMismatch(p, MeshFreesurfer[4], 0);
    assert MatchesAtEnd(p, MapFreesurfer[1]);
  }

  // ---------------------------------------------------------------------------
  // CIFTI before NIfTI

  /** A pattern whose `k`-th character from the end is a literal that the path does not
      have at that place cannot match. */
  lemma {:induction false} LiteralMismatch(fsPath: string, pat: string, k: nat)
    requires k < |pat| && pat[|pat| - 1 - k] != '.'
    requires k < |fsPath| ==> fsPath[|fsPath| - 1 - k] != pat[|pat| - 1 - k]
    ensures !MatchesAtEnd(fsPath, pat)
  {
    if |pat| <= |fsPath| {
      var i := |pat| - 1 - k;
      assert fsPath[|fsPath| - |pat| + i] == fsPath[|fsPath| - 1 - k];
      assert !CharMatches(pat[i], fsPath[|fsPath| - |pat| + i]);
    }
  }

  /** Paths ending in "nii" match none of the FreeSurfer and GIFTI groups. */
  lemma {:induction false} NiiSuffixSkipsSurfaceGroups(fsPath: string)
    requires |fsPath| >= 3 && fsPath[|fsPath| - 3..] == "nii"
    ensures !MatchesAny(fsPath, MeshFreesurfer) && !MatchesAny(fsPath, MapFreesurfer)
    ensures !MatchesAny(fsPath, MeshGifti) && !MatchesAny(fsPath, MapGifti)
  {
    assert fsPath[|fsPath| - 1] == 'i' && fsPath[|fsPath| - 3] == 'n' by {
      assert fsPath[|fsPath| - 3..][2] == 'i' && fsPath[|fsPath| - 3..][0] == 'n';
    }
    forall pat | pat in MeshFreesurfer + MapFreesurfer ensures !MatchesAtEnd(fsPath, pat) {
      LiteralMismatch(fsPath, pat, 0);
    }
    forall pat | pat in MeshGifti + MapGifti ensures !MatchesAtEnd(fsPath, pat) {
      LiteralMismatch(fsPath, pat, 2);
    }
  }

  /** CIFTI suffixes are classified as CIFTI surface maps, never as NIfTI volumes, since
      the CIFTI group is tried first. */
  lemma CiftiBeforeNifti(fsPath: string)
    requires MatchesAny(fsPath, MapCifti)
    ensures ReadNeuroMetaData(fsPath) == Classified(Cifti, SurfaceMap)
  {
    var i :| 0 <= i < |MapCifti| && MatchesAtEnd(fsPath, MapCifti[i]);
    var pat := MapCifti[i];
    assert pat[|pat| - 3..] == "nii";
    forall j | 0 <= j < 3 ensures fsPath[|fsPath| - 3..][j] == "nii"[j] {
      assert CharMatches(pat[|pat| - 3 + j], fsPath[|fsPath| - |pat| + (|pat| - 3 + j)]);
    }
    NiiSuffixSkipsSurfaceGroups(fsPath);
  }

  // ---------------------------------------------------------------------------
  // Locality

  lemma {:induction false} MatchesAtEndSuffix(fsPath: string, pat: string, n: nat)
    requires |pat| <= n <= |fsPath|
    ensures MatchesAtEnd(fsPath, pat) == MatchesAtEnd(fsPath[|fsPath| - n..], pat)
  {
    var t := fsPath[|fsPath| - n..];
    forall i | 0 <= i < |pat|
      ensures CharMatches(pat[i], t[|t| - |pat| + i]) == CharMatches(pat[i], fsPath[|fsPath| - |pat| + i])
    {
      assert t[|t| - |pat| + i] == fsPath[|fsPath| - |pat| + i];
    }
  }

  lemma {:induction false} MatchesAnySuffix(fsPath: string, rxs: seq<string>, n: nat)
    requires n <= |fsPath|
    requires forall i :: 0 <= i < |rxs| ==> |rxs[i]| <= n
    ensures MatchesAny(fsPath, rxs) == MatchesAny(fsPath[|fsPath| - n..], rxs)
  {
    forall i | 0 <= i < |rxs| ensures MatchesAtEnd(fsPath, rxs[i]) == MatchesAtEnd(fsPath[|fsPath| - n..], rxs[i]) {
      MatchesAtEndSuffix(fsPath, rxs[i], n);
    }
  }

  lemma {:induction false} FirstMatchCongruent(p: string, q: string, rules: seq<Rule>)
    requires forall g :: 0 <= g < |rules| ==> MatchesAny(p, rules[g].patterns) == MatchesAny(q, rules[g].patterns)
    ensures FirstMatch(p, rules) == FirstMatch(q, rules)
  {
    if |rules| > 0 {
      FirstMatchCongruent(p, q, rules[1..]);
    }
  }

  lemma RulePatternsAreShort()
    ensures forall g, i :: 0 <= g < |Rules| && 0 <= i < |Rules[g].patterns| ==> |Rules[g].patterns[i]| <= LongestPattern
  {
  }

  /** The classification depends only on the last 13 characters of the path. */
  lemma ClassificationIsLocal(fsPath: string)
    requires |fsPath| >= LongestPattern
    ensures ReadNeuroMetaData(fsPath) == ReadNeuroMetaData(fsPath[|fsPath| - LongestPattern..])
  {
    var t := fsPath[|fsPath| - LongestPattern..];
    RulePatternsAreShort();
    forall g | 0 <= g < |Rules| ensures MatchesAny(fsPath, Rules[g].patterns) == MatchesAny(t, Rules[g].patterns) {
      MatchesAnySuffix(fsPath, Rules[g].patterns, LongestPattern);
    }
    FirstMatchCongruent(fsPath, t, Rules);
    ReadIsFirstMatch(fsPath);
    ReadIsFirstMatch(t);
  }
}

=== FILE: numbers.dfy ===
/** JavaScript numbers as they occur in typed arrays and colour arithmetic: a finite
    value or NaN. IEEE rounding is not modelled: a finite number is an exact real. */
module Numbers {

  datatype Num = Fin(r: real) | NaN

  predicate AllFinite(xs: seq<Num>) {
    forall i :: 0 <= i < |xs| ==> xs[i].Fin?
  }

  /** JavaScript `a < b`: false whenever either side is NaN. */
  predicate Lt(a: Num, b: Num) {
    a.Fin? && b.Fin? && a.r < b.r
  }

  /** `a + b` (JavaScript or numpy float addition). */
  function Add(a: Num, b: Num): (r: Num)
    ensures r.Fin? <==> a.Fin? && b.Fin?
  {
    if a.Fin? && b.Fin? then Fin(a.r + b.r) else NaN
  }

  /** JavaScript `a - b`. */
  function Sub(a: Num, b: Num): (r: Num)
    ensures r.Fin? <==> a.Fin? && b.Fin?
  {
    if a.Fin? && b.Fin? then Fin(a.r - b.r) else NaN
  }

  /** JavaScript `a / b` restricted to the cases the model reaches: a finite quotient,
      or NaN for `0 / 0` and NaN operands. A non-zero numerator over zero (an infinity)
      is reported as NaN as well; no caller reaches it (see `ClientUtils.NormalizeInRange`). */
  function Div(a: Num, b: Num): (r: Num)
    ensures r.Fin? <==> a.Fin? && b.Fin? && b.r != 0.0
  {
    if a.Fin? && b.Fin? && b.r != 0.0 then Fin(a.r / b.r) else NaN
  }
}

=== FILE: path_utils.dfy ===
/** `windowsCompatiblePath`: on win32 the leading forward slashes of a path are
    removed; elsewhere the path is returned as given. The platform is a parameter. */
module PathUtils {

  /** `path.replace(/^\/+/, '')`: drop every leading '/'. */
  function StripLeadingSlashes(path: string): string {
    if |path| > 0 && path[0] == '/' then StripLeadingSlashes(path[1..]) else path
  }

  function Slashes(k: nat): (s: string)
    ensures |s| == k && forall i :: 0 <= i < k ==> s[i] == '/'
  {
    if k == 0 then "" else "/" + Slashes(k - 1)
  }

  function WindowsCompatiblePath(platform: string, path: string): (r: string)
    ensures platform != "win32" ==> r == path
    ensures platform == "win32" ==> |r| == 0 || r[0] != '/'
    ensures platform == "win32" ==> exists k: nat :: k <= |path| && path == Slashes(k) + r
  {
    if platform == "win32" then
      StripRemovesOnlySlashes(path);
      StripLeadingSlashes(path)
    else path
  }

  /** Only slashes are removed, and only at the front: the input is `k` slashes
      followed by the result. */
  lemma {:induction false} StripRemovesOnlySlashes(path: string)
    ensures var r := StripLeadingSlashes(path);
      (|r| == 0 || r[0] != '/') && exists k: nat :: k <= |path| && path == Slashes(k) + r
  {
    var r := StripLeadingSlashes(path);
    if |path| > 0 && path[0] == '/' {
      StripRemovesOnlySlashes(path[1..]);
      var k: nat :| k <= |path[1..]| && path[1..] == Slashes(k) + r;
      assert path == Slashes(k + 1) + r;
    } else {
      assert path == Slashes(0) + r;
    }
  }

  /** Applying the helper twice is the same as applying it once. */
  lemma WindowsCompatiblePathIdempotent(platform: string, path: string)
    ensures WindowsCompatiblePath(platform, WindowsCompatiblePath(platform, path))
            == WindowsCompatiblePath(platform, path)
  {
    if platform == "win32" {
      var r := StripLeadingSlashes(path);
      StripRemovesOnlySlashes(path);
      assert StripLeadingSlashes(r) == r;
    }
  }
}

=== FILE: surface_client.dfy ===
/** The scene builder of the first rendering view: colours are interpolated over a
    table of control points and the face buffer is read back as uint32 words. The
    three.js scene, camera, lights and animation are not modelled; the outcome of a
    load is the mesh object it would add. */
module SurfaceClient {
  import opened Wrappers
  import opened Numbers
  import opened Buffers
  import opened ClientUtils
  import opened WebviewMessages

  /** A colour with four channels. */
  datatype Rgba = Rgba(r: real, g: real, b: real, a: real) {
    function Channel(i: nat): real
      requires i < 4
    {
      if i == 0 then r else if i == 1 then g else if i == 2 then b else a
    }
    function Channels(): seq<real> { [r, g, b, a] }
  }

  /** `wa * a + wb * b`, channel by channel. */
  function Mix(a: Rgba, wa: real, b: Rgba, wb: real): (c: Rgba)
    ensures forall i :: 0 <= i < 4 ==> c.Channel(i) == a.Channel(i) * wa + b.Channel(i) * wb
  {
    Rgba(a.r * wa + b.r * wb, a.g * wa + b.g * wb, a.b * wa + b.b * wb, a.a * wa + b.a * wb)
  }

  /** The lower control-point index of `x`: `floor(x * (k - 1))`. */
  function LowIndex(k: nat, x: real): int {
    (x * (k - 1) as real).Floor
  }

  /** The fractional part of `x * (k - 1)`, the weight of the interpolation. */
  function Frac(k: nat, x: real): real {
    x * (k - 1) as real - LowIndex(k, x) as real
  }

  lemma FracInUnit(k: nat, x: real)
    ensures 0.0 <= Frac(k, x) < 1.0
  {
  }

  /** The upper control-point index: `min(y0 + 1, k - 1)`. */
  function HighIndex(k: nat, y0: int): int {
    if y0 + 1 < k - 1 then y0 + 1 else k - 1
  }

  /** `v` lies between `a` and `b`, whichever is larger. */
  predicate Between(v: real, a: real, b: real) {
    (a <= v <= b) || (b <= v <= a)
  }

  /** `interpColor(scale)(x)` as written: `y0 = floor(y)`, `y1 = min(y0 + 1, k - 1)`,
      `frac = y % 1`, and `scale[y0]` is weighted by `frac`, `scale[y1]` by `1 - frac`.
      `None` is the TypeError of reading a channel of a missing control point, which
      happens for NaN and for any `x` outside the table. */
  function InterpColor(scale: seq<Rgba>, x: Num): (r: Option<Rgba>)
    ensures r.Some? <==> x.Fin? && 0 <= LowIndex(|scale|, x.r) < |scale|
  {
    if x.NaN? then None
    else
      var k := |scale|;
      var y0 := LowIndex(k, x.r);
      if y0 < 0 || y0 >= k then None
      else
        var frac := Frac(k, x.r);
        var y1 := HighIndex(k, y0);
        Some(Mix(scale[y0], frac, scale[y1], 1.0 - frac))
  }

  lemma MulNonNeg(a: real, b: real)
    requires a >= 0.0 && b >= 0.0
    ensures a * b >= 0.0
  {
  }

  lemma LowIndexOnUnit(k: nat, x: real)
    requires k >= 1 && 0.0 <= x <= 1.0
    ensures 0 <= LowIndex(k, x) <= k - 1
  {
    var kk := (k - 1) as real;
    var y := x * kk;
    MulNonNeg(x, kk);
    MulNonNeg(1.0 - x, kk);
    assert kk - y == (1.0 - x) * kk;
    assert 0.0 <= y <= kk;
    assert kk.Floor == k - 1;
  }

  /** On [0, 1] with at least one control point, both indices are valid, so a colour
      is produced. */
  lemma InterpDefinedOnUnit(scale: seq<Rgba>, x: real)
    requires |scale| >= 1 && 0.0 <= x <= 1.0
    ensures InterpColor(scale, Fin(x)).Some?
  {
    LowIndexOnUnit(|scale|, x);
  }

  /** A convex combination of two reals lies between them. */
  lemma ConvexBetween(a: real, b: real, w: real)
    requires 0.0 <= w <= 1.0
    ensures Between(a * w + b * (1.0 - w), a, b)
  {
    var v := a * w + b * (1.0 - w);
    assert v - a == (b - a) * (1.0 - w);
    assert v - b == (a - b) * w;
    if a <= b {
      MulNonNeg(b - a, 1.0 - w);
      MulNonNeg(b - a, w);
      assert (a - b) * w == -((b - a) * w);
    } else {
      MulNonNeg(a - b, w);
      MulNonNeg(a - b, 1.0 - w);
      assert (b - a) * (1.0 - w) == -((a - b) * (1.0 - w));
    }
  }

  /** The two weights lie in [0, 1] and sum to one, so every channel of the result lies
      between the channels of the two control points it mixes. */
  lemma InterpBetweenNeighbours(scale: seq<Rgba>, x: real, i: nat)
    requires |scale| >= 1 && 0.0 <= x <= 1.0 && i < 4
    ensures InterpColor(scale, Fin(x)).Some?
    ensures 0 <= LowIndex(|scale|, x) < |scale|
    ensures 0 <= HighIndex(|scale|, LowIndex(|scale|, x)) < |scale|
    ensures Between(InterpColor(scale, Fin(x)).value.Channel(i),
                    scale[LowIndex(|scale|, x)].Channel(i),
                    scale[HighIndex(|scale|, LowIndex(|scale|, x))].Channel(i))
  {
    LowIndexOnUnit(|scale|, x);
    var k := |scale|;
    var y0 := LowIndex(k, x);
    var frac := Frac(k, x);
    FracInUnit(k, x);
    var y1 := HighIndex(k, y0);
    var c := Mix(scale[y0], frac, scale[y1], 1.0 - frac);
    assert InterpColor(scale, Fin(x)) == Some(c);
    var lo, hi := scale[y0].Channel(i), scale[y1].Channel(i);
    assert c.Channel(i) == lo * frac + hi * (1.0 - frac);
    ConvexBetween(lo, hi, frac);
  }

  /** `(j / d) * d == j`, and the floor of an integer is itself. */
  lemma KnotIndex(k: nat, j: nat)
    requires k >= 2 && j <= k - 1
    ensures LowIndex(k, j as real / (k - 1) as real) == j
    ensures Frac(k, j as real / (k - 1) as real) == 0.0
  {
    var d := (k - 1) as real;
    var x := j as real / d;
    assert x * d == j as real;
    assert (j as real).Floor == j;
  }

  /** At `x = 1` the result is exactly the last control point. */
  lemma InterpAtOne(scale: seq<Rgba>)
    requires |scale| >= 1
    ensures InterpColor(scale, Fin(1.0)) == Some(scale[|scale| - 1])
  {
    var k := |scale|;
    assert LowIndex(k, 1.0) == k - 1;
    var c := scale[k - 1];
    assert Mix(c, 0.0, c, 1.0) == c;
  }

  /** The swapped weights: the knot `j / (k - 1)` of an interior control point `j`
      yields the NEXT control point, so `x = 0` yields `scale[1]`, not `scale[0]`. */
  lemma InterpKnotShift(scale: seq<Rgba>, j: nat)
    requires |scale| >= 2 && j < |scale| - 1
    ensures InterpColor(scale, Fin(j as real / (|scale| - 1) as real)) == Some(scale[j + 1])
  {
    var k := |scale|;
    KnotIndex(k, j);
    assert Mix(scale[j], 0.0, scale[j + 1], 1.0) == scale[j + 1];
  }

  /** `x = 0` yields the second control point. */
  lemma InterpAtZero(scale: seq<Rgba>)
    requires |scale| >= 2
    ensures InterpColor(scale, Fin(0.0)) == Some(scale[1])
  {
    InterpKnotShift(scale, 0);
    assert 0 as real / (|scale| - 1) as real == 0.0;
  }

  /** The interpolation with the weights the other way round: `scale[y0]` weighted by
      `1 - frac` and `scale[y1]` by `frac`. */
  function InterpColorIntended(scale: seq<Rgba>, x: Num): (r: Option<Rgba>)
    ensures r.Some? <==> x.Fin? && 0 <= LowIndex(|scale|, x.r) < |scale|
  {
    if x.NaN? then None
    else
      var k := |scale|;
      var y0 := LowIndex(k, x.r);
      if y0 < 0 || y0 >= k then None
      else
        var frac := Frac(k, x.r);
        var y1 := HighIndex(k, y0);
        Some(Mix(scale[y0], 1.0 - frac, scale[y1], frac))
  }

  /** With the intended weights every knot `j / (k - 1)` yields control point `j`, in
      particular `x = 0` the first and `x = 1` the last. */
  lemma InterpIntendedHitsKnots(scale: seq<Rgba>, j: nat)
    requires |scale| >= 2 && j <= |scale| - 1
    ensures InterpColorIntended(scale, Fin(j as real / (|scale| - 1) as real)) == Some(scale[j])
  {
    var k := |scale|;
    KnotIndex(k, j);
    var y1 := if j + 1 < k - 1 then j + 1 else k - 1;
    assert Mix(scale[j], 1.0, scale[y1], 0.0) == scale[j];
  }

  // ---------------------------------------------------------------------------
  // Colour array of `loadScene`

  /** The colour of each value after normalisation, flattened into four channels per
      value; `None` when any colour throws. */
  function ColorsFrom(scale: seq<Rgba>, data: seq<Num>, mn: Num, mx: Num): (r: Option<seq<real>>)
    ensures r.Some? <==> forall i :: 0 <= i < |data| ==> InterpColor(scale, Normalize(data[i], mn, mx)).Some?
    ensures r.Some? ==> |r.value| == 4 * |data|
    ensures r.Some? ==> forall i, c :: 0 <= i < |data| && 0 <= c < 4 ==>
              r.value[4 * i + c] == InterpColor(scale, Normalize(data[i], mn, mx)).value.Channel(c)
  {
    if |data| == 0 then Some([])
    else
      var head := InterpColor(scale, Normalize(data[0], mn, mx));
      var rest := ColorsFrom(scale, data[1..], mn, mx);
      assert forall i :: 1 <= i < |data| ==> data[i] == data[1..][i - 1];
      if head.None? || rest.None? then None
      else
        var r := head.value.Channels() + rest.value;
        Some(r)
  }

  /** The data range of `loadScene`: `minMax(data) ?? [0, 0]`. */
  function DataRange(data: seq<Num>): (Num, Num) {
    MinMaxOf(data).GetOr((Fin(0.0), Fin(0.0)))
  }

  /** A map whose values are all equal (and finite) has no colour array: the
      normalisation divides zero by zero and the lookup of a NaN control point throws. */
  lemma ConstantMapThrows(scale: seq<Rgba>, data: seq<Num>)
    requires |data| > 0 && AllFinite(data)
    requires forall i :: 0 <= i < |data| ==> data[i] == data[0]
    ensures var (mn, mx) := DataRange(data); ColorsFrom(scale, data, mn, mx).None?
  {
    var (mn, mx) := DataRange(data);
    assert mn in data && mx in data;
    assert Normalize(data[0], mn, mx) == NaN;
  }

  /** For a finite map with a proper range and a non-empty table, the colour array
      exists and has four channels per value, in map order. */
  lemma ColorsDefined(scale: seq<Rgba>, data: seq<Num>)
    requires |scale| >= 1 && |data| > 0 && AllFinite(data)
    ensures var (mn, mx) := DataRange(data);
      mn.r < mx.r ==> ColorsFrom(scale, data, mn, mx).Some?
  {
    var (mn, mx) := DataRange(data);
    if mn.r < mx.r {
      forall i | 0 <= i < |data| ensures InterpColor(scale, Normalize(data[i], mn, mx)).Some? {
        NormalizeInRange(data[i], mn, mx);
        InterpDefinedOnUnit(scale, Normalize(data[i], mn, mx).r);
      }
    }
  }

  // ---------------------------------------------------------------------------
  // loadScene

  datatype JsError = TypeError | RangeError

  /** The mesh object a load adds to its new scene. */
  datatype SceneMesh = SceneMesh(
    positions: seq<Num>,
    index: seq<u32>,
    colors: Option<seq<real>>,
    vertexColors: bool)

  datatype LoadOutcome = Loaded(mesh: SceneMesh) | Threw(error: JsError)

  /** `loadScene(mesh, map)`: colours (four channels per value) when a map is given,
      positions from the vertex buffer, and the index read from the face buffer, which
      throws a RangeError unless its length is a multiple of four. */
  function LoadScene(mesh: MeshPayload, dataMap: Option<F32Buffer>, scale: seq<Rgba>): (r: LoadOutcome)
    ensures r.Loaded? ==> r.mesh.positions == mesh.vertices.values
    ensures r.Loaded? ==> (r.mesh.vertexColors <==> dataMap.Some?)
    ensures r.Loaded? ==> (r.mesh.colors.Some? <==> dataMap.Some?)
    ensures r.Loaded? && dataMap.Some? ==> |r.mesh.colors.value| == 4 * |dataMap.value.values|
    ensures r == Threw(RangeError) <==> (r != Threw(TypeError) && |mesh.faces| % 4 != 0)
    ensures r.Loaded? ==> Some(r.mesh.index) == DecodeU32(mesh.faces)
    ensures r == Threw(TypeError) ==> dataMap.Some?
    // the colours come from the whole map's range; a value whose colour cannot be
    // looked up throws the TypeError before the faces are read
    ensures r == Threw(TypeError) <==>
      dataMap.Some? && ColorsFrom(scale, dataMap.value.values, DataRange(dataMap.value.values).0,
                                  DataRange(dataMap.value.values).1).None?
    ensures r.Loaded? && dataMap.Some? ==>
      r.mesh.colors == ColorsFrom(scale, dataMap.value.values, DataRange(dataMap.value.values).0,
                                  DataRange(dataMap.value.values).1)
  {
    var colors :=
      if dataMap.Some? then
        var (mn, mx) := DataRange(dataMap.value.values);
        ColorsFrom(scale, dataMap.value.values, mn, mx)
      else None;
    if dataMap.Some? && colors.None? then Threw(TypeError)
    else
      match DecodeU32(mesh.faces)
      case None => Threw(RangeError)
      case Some(index) => Loaded(SceneMesh(mesh.vertices.values, index, colors, dataMap.Some?))
  }

  /** A finite map that is not constant, on a non-empty colour table, never makes a
      load throw its TypeError: whether the load succeeds depends only on the faces. */
  lemma ProperMapLoads(mesh: MeshPayload, data: seq<Num>, scale: seq<Rgba>)
    requires |scale| >= 1 && |data| > 0 && AllFinite(data)
    requires DataRange(data).0.r < DataRange(data).1.r
    ensures LoadScene(mesh, Some(F32Buffer(data)), scale) != Threw(TypeError)
    ensures LoadScene(mesh, Some(F32Buffer(data)), scale).Loaded? <==> |mesh.faces| % 4 == 0
  {
    ColorsDefined(scale, data);
  }

  /** A face buffer written by the host (`new Uint32Array(faces).buffer`) is read back
      as exactly the original indices. */
  lemma LoadSceneReadsFacesBack(vertices: F32Buffer, faces: seq<u32>, scale: seq<Rgba>)
    ensures LoadScene(MeshPayload(vertices, EncodeU32(faces)), None, scale)
            == Loaded(SceneMesh(vertices.values, faces, None, false))
  {
    DecodeEncode(faces);
  }
}

=== FILE: surface_extract_host.dfy ===
/** The host side of the extraction: it builds the script's command line, runs it, and
    decides from the exit status, the parse of the output and the envelope's status
    what to return. The interpreter lookup and the process are parameters: the caller
    supplies the interpreter (if any) and what the process produced. */
module SurfaceExtractHost {
  import opened Wrappers
  import opened JsStrings
  import opened Json
  import opened Effects
  import opened Logging
  import Py = SurfaceExtractPy
  import Numbers

  /** What the process capture resolves with: the exit code (`None` when the process
      was killed by a signal) and the captured standard output. */
  datatype ProcessOutput = ProcessOutput(code: Option<int>, message: Stdout)

  /** The settled promise: a returned value, or a rejection (a TypeError thrown while
      reading the parsed output). */
  datatype HostOutcome = Returned(v: JsValue) | Rejected

  /** Which way the decision went. */
  datatype Branch = NoInterpreter | NonZeroExit | Unparsable | ErrorStatus | Content

  datatype ExtractResult = ExtractResult(outcome: HostOutcome, out: Output, effects: seq<Effect>, branch: Branch)

  const NoEnvironmentText: string := "Python environment not found."

  /** The command line: the script, then `--mesh` with the mesh path if one is given,
      then `--map` with the map path if one is given. */
  function Args(pyPath: string, fileMesh: Option<string>, fileMap: Option<string>): (args: seq<string>)
    ensures |args| == 1 + (if fileMesh.Some? then 2 else 0) + (if fileMap.Some? then 2 else 0)
    ensures args[0] == pyPath
  {
    [pyPath]
      + (if fileMesh.Some? then ["--mesh", fileMesh.value] else [])
      + (if fileMap.Some? then ["--map", fileMap.value] else [])
  }

  /** The script reads back exactly the paths the host passed, whenever neither begins
      with '-'. */
  lemma ArgsRoundTrip(pyPath: string, fileMesh: Option<string>, fileMap: Option<string>)
    requires fileMesh.Some? ==> !StartsWith(fileMesh.value, "-")
    requires fileMap.Some? ==> !StartsWith(fileMap.value, "-")
    ensures Py.ParseArgs(Args(pyPath, fileMesh, fileMap)[1..], None, None) == Some((fileMesh, fileMap))
  {
    var argv := Args(pyPath, fileMesh, fileMap)[1..];
    var tail := if fileMap.Some? then ["--map", fileMap.value] else [];
    assert tail == [] ==> Py.ParseArgs(tail, fileMesh, None) == Some((fileMesh, None));
    if fileMap.Some? {
      assert tail[2..] == [];
      assert Py.ParseArgs(tail, fileMesh, None) == Some((fileMesh, fileMap));
    }
    if fileMesh.Some? {
      var argvMesh := ["--mesh", fileMesh.value] + tail;
      assert argv == argvMesh;
      assert argvMesh[2..] == tail;
    } else {
      assert argv == tail;
    }
  }

  /** The part of `surfaceExtract` after a successful parse: `msg.status === "ERROR"`
      logs the error (reading `msg.content.exception` and `msg.content.message`) and
      returns undefined; anything else returns `msg.content`. Reading a property of a
      parsed `null` rejects. */
  function DecideParsed(msg: Json, o: Output, choice: Option<string>): (r: ExtractResult)
    ensures r.branch == ErrorStatus <==> Prop(Val(msg), "status") == Some(Val(JStr("ERROR")))
    ensures r.branch == ErrorStatus || r.branch == Content
    ensures r.branch == ErrorStatus ==>
      (r.outcome == Rejected <==> Prop(Val(msg), "content") == Some(Undefined) || Prop(Val(msg), "content") == Some(Val(JNull)))
    ensures r.branch == ErrorStatus && r.outcome != Rejected ==>
      var content := Prop(Val(msg), "content").value;
      r.outcome == Returned(Undefined) && Notifications(r.effects) == 1
      && r.out.text == o.text + ErrorLine(JsText(Prop(content, "exception").value), JsText(Prop(content, "message").value))
    ensures r.branch == Content ==> r.out == o && r.effects == []
    ensures r.branch == Content ==> (r.outcome == Rejected <==> msg == JNull)
    ensures r.branch == Content && msg != JNull ==> r.outcome == Returned(Prop(Val(msg), "content").value)
    ensures Spawns(r.effects) == 0
    ensures o.text <= r.out.text
  {
    match Prop(Val(msg), "status")
    case None => ExtractResult(Rejected, o, [], Content)
    case Some(status) =>
      if status == Val(JStr("ERROR")) then
        var content := Prop(Val(msg), "content").value;
        var log := LogPythonException(o, content, choice);
        LogEffectsStartNothing(o, content, choice);
        ExtractResult(if log.threw then Rejected else Returned(Undefined), log.out, log.effects, ErrorStatus)
      else
        ExtractResult(Returned(Prop(Val(msg), "content").value), o, [], Content)
  }

  /** Logging starts no process. */
  lemma LogEffectsStartNothing(o: Output, content: JsValue, choice: Option<string>)
    ensures Spawns(LogPythonException(o, content, choice).effects) == 0
  {
    var e := LogPythonException(o, content, choice).effects;
    assert forall i :: 0 <= i < |e| ==> !e[i].Spawn?;
  }

  /** `surfaceExtract(extensionUri, fileMesh?, fileMap?)`. `interpreter` is the virtual
      environment's interpreter if there is one, `pyPath` the script's path, `proc` what
      the process produced, and `choice` the user's answer to a notification. */
  function SurfaceExtract(interpreter: Option<string>, pyPath: string, fileMesh: Option<string>,
                          fileMap: Option<string>, proc: ProcessOutput, o: Output,
                          choice: Option<string>): (r: ExtractResult)
    // no interpreter: one notification, nothing started
    ensures interpreter.None? <==> r.branch == NoInterpreter
    ensures interpreter.None? ==>
      r.outcome == Returned(Undefined) && r.out == o && r.effects == [Notify(NoEnvironmentText, [])]
    // otherwise exactly one process, with the argument list, started first
    ensures interpreter.Some? ==>
      |r.effects| > 0 && r.effects[0] == Spawn(interpreter.value, Args(pyPath, fileMesh, fileMap))
      && Spawns(r.effects) == 1
    // a non-zero or missing exit code returns undefined without parsing
    ensures interpreter.Some? ==> (r.branch == NonZeroExit <==> proc.code != Some(0))
    ensures r.branch == NonZeroExit ==> r.outcome == Returned(Undefined) && r.out == o && Notifications(r.effects) == 0
    // unparseable output returns undefined
    ensures r.branch == Unparsable <==> interpreter.Some? && proc.code == Some(0) && JsonParse(proc.message).None?
    ensures r.branch == Unparsable ==> r.outcome == Returned(Undefined) && r.out == o && Notifications(r.effects) == 0
    // a parsed envelope is decided on its status
    ensures interpreter.Some? && proc.code == Some(0) && JsonParse(proc.message).Some? ==>
      var d := DecideParsed(JsonParse(proc.message).value, o, choice);
      r.branch == d.branch && r.outcome == d.outcome && r.out == d.out && r.effects[1..] == d.effects
    ensures o.text <= r.out.text
  {
    if interpreter.None? then
      ExtractResult(Returned(Undefined), o, [Notify(NoEnvironmentText, [])], NoInterpreter)
    else
      var spawn := [Spawn(interpreter.value, Args(pyPath, fileMesh, fileMap))];
      if proc.code != Some(0) then
        ExtractResult(Returned(Undefined), o, spawn + [ConsoleError("non-zero exit code")], NonZeroExit)
      else
        match JsonParse(proc.message)
        case None => ExtractResult(Returned(Undefined), o, spawn + [ConsoleError("parse error")], Unparsable)
        case Some(msg) =>
          var d := DecideParsed(msg, o, choice);
          SpawnsAppend(spawn, d.effects);
          ExtractResult(d.outcome, d.out, spawn + d.effects, d.branch)
  }

  /** `data?.key ? data.key : null`. */
  function TruthyField(data: JsValue, key: string): (r: JsValue)
    ensures Truthy(r) || r == Val(JNull)
    ensures Prop(data, key).Some? && Truthy(Prop(data, key).value) ==> r == Prop(data, key).value
    ensures Truthy(r) ==> Prop(data, key) == Some(r)
  {
    match Prop(data, key)
    case None => Val(JNull)
    case Some(x) => if Truthy(x) then x else Val(JNull)
  }

  /** `meshExtract(extensionUri, uri)`: extraction with only a mesh path; the mesh of the
      result when truthy, otherwise null. */
  function MeshExtract(interpreter: Option<string>, pyPath: string, uri: string, proc: ProcessOutput,
                       o: Output, choice: Option<string>): (r: (HostOutcome, Output, seq<Effect>))
    ensures interpreter.Some? ==> |r.2| > 0 && r.2[0] == Spawn(interpreter.value, [pyPath, "--mesh", uri])
    ensures r.0.Returned? ==> Truthy(r.0.v) || r.0.v == Val(JNull)
    ensures var x := SurfaceExtract(interpreter, pyPath, Some(uri), None, proc, o, choice);
      (r.0.Rejected? <==> x.outcome.Rejected?)
      && (x.outcome.Returned? ==> r.0.v == TruthyField(x.outcome.v, "mesh"))
      && r.1 == x.out && r.2 == x.effects
  {
    var x := SurfaceExtract(interpreter, pyPath, Some(uri), None, proc, o, choice);
    (if x.outcome.Rejected? then Rejected else Returned(TruthyField(x.outcome.v, "mesh")), x.out, x.effects)
  }

  /** `mapExtract(extensionUri, uri)`: the same with only a map path. */
  function MapExtract(interpreter: Option<string>, pyPath: string, uri: string, proc: ProcessOutput,
                      o: Output, choice: Option<string>): (r: (HostOutcome, Output, seq<Effect>))
    ensures interpreter.Some? ==> |r.2| > 0 && r.2[0] == Spawn(interpreter.value, [pyPath, "--map", uri])
    ensures r.0.Returned? ==> Truthy(r.0.v) || r.0.v == Val(JNull)
    ensures var x := SurfaceExtract(interpreter, pyPath, None, Some(uri), proc, o, choice);
      (r.0.Rejected? <==> x.outcome.Rejected?)
      && (x.outcome.Returned? ==> r.0.v == TruthyField(x.outcome.v, "map"))
      && r.1 == x.out && r.2 == x.effects
  {
    var x := SurfaceExtract(interpreter, pyPath, None, Some(uri), proc, o, choice);
    (if x.outcome.Rejected? then Rejected else Returned(TruthyField(x.outcome.v, "map")), x.out, x.effects)
  }

  // ---------------------------------------------------------------------------
  // Host and script together

  /** What the process produces when it runs the script on the host's arguments. */
  function ScriptProcess(pyPath: string, fileMesh: Option<string>, fileMap: Option<string>, env: Py.Env): ProcessOutput {
    var run := Py.Main(Args(pyPath, fileMesh, fileMap)[1..], env);
    ProcessOutput(Some(run.exitCode), Printed(run.stdout))
  }

  /** Every exception in the script makes it exit with status 1, which the host discards
      before parsing: such errors never reach the output channel or a notification. */
  lemma ScriptExceptionsAreDiscarded(interpreter: string, pyPath: string, fileMesh: Option<string>,
                                     fileMap: Option<string>, env: Py.Env, o: Output, choice: Option<string>)
    requires fileMesh.Some? ==> !StartsWith(fileMesh.value, "-")
    requires fileMap.Some? ==> !StartsWith(fileMap.value, "-")
    requires Py.Extract(fileMesh, fileMap, env).Raised?
    ensures var r := SurfaceExtract(Some(interpreter), pyPath, fileMesh, fileMap,
                                    ScriptProcess(pyPath, fileMesh, fileMap, env), o, choice);
      r.branch == NonZeroExit && r.outcome == Returned(Undefined) && r.out == o
  {
    ArgsRoundTrip(pyPath, fileMesh, fileMap);
  }

  /** The process output of a script run on paths that do not begin with '-': the run
      on exactly those paths. */
  lemma ScriptOutput(pyPath: string, fileMesh: Option<string>, fileMap: Option<string>, env: Py.Env)
    requires fileMesh.Some? ==> !StartsWith(fileMesh.value, "-")
    requires fileMap.Some? ==> !StartsWith(fileMap.value, "-")
    ensures var run := Py.Run(fileMesh, fileMap, env);
      ScriptProcess(pyPath, fileMesh, fileMap, env) == ProcessOutput(Some(run.exitCode), Printed(run.stdout))
  {
    ArgsRoundTrip(pyPath, fileMesh, fileMap);
  }

  /** An OK envelope has status "OK", never "ERROR", and its content. */
  lemma OkEnvelope(content: Json)
    ensures var doc := Py.Envelope("OK", content);
      Prop(Val(doc), "status") == Some(Val(JStr("OK")))
      && Prop(Val(doc), "status") != Some(Val(JStr("ERROR")))
      && Prop(Val(doc), "content") == Some(Val(content))
  {
    var doc := Py.Envelope("OK", content);
    assert doc.fields[1].0 != "status" by { assert doc.fields[1].0[0] != "status"[0]; }
    assert doc.fields[..1] == [("status", JStr("OK"))];
    assert LookupLast(doc.fields, "status") == Val(JStr("OK"));
    assert JStr("OK") != JStr("ERROR") by { assert |"OK"| != |"ERROR"|; }
  }

  /** The host's ERROR branch is reached only when the script exited with status 0
      through its serialisation fallback. */
  lemma ErrorBranchOnlyAfterSerialisationFailure(interpreter: string, pyPath: string, fileMesh: Option<string>,
                                                fileMap: Option<string>, env: Py.Env, o: Output, choice: Option<string>)
    requires fileMesh.Some? ==> !StartsWith(fileMesh.value, "-")
    requires fileMap.Some? ==> !StartsWith(fileMap.value, "-")
    ensures var r := SurfaceExtract(Some(interpreter), pyPath, fileMesh, fileMap,
                                    ScriptProcess(pyPath, fileMesh, fileMap, env), o, choice);
      r.branch == ErrorStatus ==>
        var x := Py.Extract(fileMesh, fileMap, env);
        x.Ok? && !Py.Serializable(x.value)
  {
    ScriptOutput(pyPath, fileMesh, fileMap, env);
    ErrorBranchOfRun(interpreter, pyPath, fileMesh, fileMap, env, ScriptProcess(pyPath, fileMesh, fileMap, env), o, choice);
  }

  /** The same, for the process output that prints the run's documents. */
  lemma ErrorBranchOfRun(interpreter: string, pyPath: string, fileMesh: Option<string>, fileMap: Option<string>,
                         env: Py.Env, proc: ProcessOutput, o: Output, choice: Option<string>)
    requires var run := Py.Run(fileMesh, fileMap, env);
      proc == ProcessOutput(Some(run.exitCode), Printed(run.stdout))
    ensures SurfaceExtract(Some(interpreter), pyPath, fileMesh, fileMap, proc, o, choice).branch == ErrorStatus ==>
      var x := Py.Extract(fileMesh, fileMap, env);
      x.Ok? && !Py.Serializable(x.value)
  {
    var x := Py.Extract(fileMesh, fileMap, env);
    var run := Py.Run(fileMesh, fileMap, env);
    Py.ErrorOnZeroExitIsSerialisation(fileMesh, fileMap, env);
    if run.exitCode == 0 && x.Ok? && Py.Serializable(x.value) {
      OkEnvelope(Py.ToJson(x.value).value);
    }
  }

  /** A curvature file named `stem + "curv"` is read by the morphometry reader. */
  lemma CurvMapLoads(stem: string, env: Py.Env, values: seq<Numbers.Num>)
    requires forall i :: 0 <= i < |stem| ==> stem[i] != '/'
    requires env.present(stem + "curv") && env.readData(stem + "curv", Py.MorphReader) == Py.Ok(Py.PArray(values))
    ensures Py.LoadSurfData(stem + "curv", env) == Py.Ok(Py.PArray(values))
  {
    var name := stem + "curv";
    assert forall i :: 0 <= i < |name| ==> name[i] != '/' by {
      forall i | 0 <= i < |name| ensures name[i] != '/' {
        if i >= |stem| { assert name[i] == "curv"[i - |stem|]; }
      }
    }
    Py.FileNameOfPlainName(name);
    Py.DataSuffixWithoutDot(stem);
  }

  /** A map read as an array with a NaN value is printed with the non-standard `NaN`
      token, so the host cannot parse the output and returns undefined. */
  lemma NaNMapUnparsableAt(interpreter: string, pyPath: string, mapPath: string, env: Py.Env,
                           values: seq<Numbers.Num>, o: Output, choice: Option<string>)
    requires !StartsWith(mapPath, "-")
    requires Py.LoadSurfData(mapPath, env) == Py.Ok(Py.PArray(values))
    requires !Numbers.AllFinite(values)
    ensures var r := SurfaceExtract(Some(interpreter), pyPath, None, Some(mapPath),
                                    ScriptProcess(pyPath, None, Some(mapPath), env), o, choice);
      r.branch == Unparsable && r.outcome == Returned(Undefined)
  {
    ScriptOutput(pyPath, None, Some(mapPath), env);
    Py.MapOnlyExtract(mapPath, env, values);
    NonStandardOutputUnparsable(interpreter, pyPath, None, Some(mapPath), ScriptProcess(pyPath, None, Some(mapPath), env),
                                o, choice, JObj([("mesh", JNull), ("map", Py.ToJson(Py.PArray(values)).value)]));
  }

  /** A name that does not start with a dash does not once something is appended. */
  lemma NoDashAhead(stem: string, suffix: string)
    requires |stem| > 0 && stem[0] != '-'
    ensures !StartsWith(stem + suffix, "-")
  {
    assert (stem + suffix)[0] == stem[0];
  }

  /** An exit status of 0 with one OK envelope whose content is not standard JSON: the
      host cannot parse the output and returns undefined. */
  lemma NonStandardOutputUnparsable(interpreter: string, pyPath: string, fileMesh: Option<string>,
                                    fileMap: Option<string>, proc: ProcessOutput, o: Output,
                                    choice: Option<string>, content: Json)
    requires proc == ProcessOutput(Some(0), Printed([Py.Envelope("OK", content)])) && !Standard(content)
    ensures var r := SurfaceExtract(Some(interpreter), pyPath, fileMesh, fileMap, proc, o, choice);
      r.branch == Unparsable && r.outcome == Returned(Undefined)
  {
    var doc := Py.Envelope("OK", content);
    assert !Standard(doc) by { assert doc.fields[1].1 == content; }
  }

  /** A curvature map (a file named `stem + "curv"`) with a NaN value never reaches the
      view: the host cannot parse what the script prints and returns undefined. */
  lemma NaNMapIsUnparsable(interpreter: string, pyPath: string, stem: string, mapPath: string, env: Py.Env,
                           values: seq<Numbers.Num>, o: Output, choice: Option<string>)
    requires mapPath == stem + "curv"
    requires forall i :: 0 <= i < |stem| ==> stem[i] != '/'
    requires |stem| > 0 && stem[0] != '-'
    requires env.present(mapPath) && env.readData(mapPath, Py.MorphReader) == Py.Ok(Py.PArray(values))
    requires !Numbers.AllFinite(values)
    ensures var r := SurfaceExtract(Some(interpreter), pyPath, None, Some(mapPath),
                                    ScriptProcess(pyPath, None, Some(mapPath), env), o, choice);
      r.branch == Unparsable && r.outcome == Returned(Undefined)
  {
    CurvMapLoads(stem, env, values);
    NoDashAhead(stem, "curv");
    NaNMapUnparsableAt(interpreter, pyPath, mapPath, env, values, o, choice);
  }

  /** An exit status of 0 with one OK envelope of standard content: the host returns
      the content unchanged, after starting one process and logging nothing. */
  lemma OkOutputDecided(interpreter: string, pyPath: string, fileMesh: Option<string>, fileMap: Option<string>,
                        o: Output, choice: Option<string>, content: Json)
    requires Standard(content)
    ensures SurfaceExtract(Some(interpreter), pyPath, fileMesh, fileMap,
                           ProcessOutput(Some(0), Printed([Py.Envelope("OK", content)])), o, choice)
            == ExtractResult(Returned(Val(content)), o, [Spawn(interpreter, Args(pyPath, fileMesh, fileMap))], Content)
  {
    var doc := Py.Envelope("OK", content);
    assert Standard(doc) by { assert doc.fields[1].1 == content; }
    OkEnvelope(content);
  }

  /** A finite map the script reads reaches the view intact: `mapExtract` returns the
      array exactly as the script printed it, and nothing is logged. */
  lemma MapExtractDeliversFiniteMap(interpreter: string, pyPath: string, mapPath: string, env: Py.Env,
                                    values: seq<Numbers.Num>, o: Output, choice: Option<string>)
    requires !StartsWith(mapPath, "-")
    requires Py.LoadSurfData(mapPath, env) == Py.Ok(Py.PArray(values))
    requires Numbers.AllFinite(values)
    ensures MapExtract(Some(interpreter), pyPath, mapPath, ScriptProcess(pyPath, None, Some(mapPath), env), o, choice)
            == (Returned(Val(Py.ToJson(Py.PArray(values)).value)), o, [Spawn(interpreter, [pyPath, "--map", mapPath])])
  {
    ScriptOutput(pyPath, None, Some(mapPath), env);
    Py.MapOnlyExtract(mapPath, env, values);
    MapExtractOfOk(interpreter, pyPath, mapPath, ScriptProcess(pyPath, None, Some(mapPath), env), o, choice,
                   Py.ToJson(Py.PArray(values)).value);
  }

  /** `mapExtract` on an OK envelope holding a standard array as its map. */
  lemma MapExtractOfOk(interpreter: string, pyPath: string, mapPath: string, proc: ProcessOutput,
                       o: Output, choice: Option<string>, arr: Json)
    requires proc == ProcessOutput(Some(0), Printed([Py.Envelope("OK", JObj([("mesh", JNull), ("map", arr)]))]))
    requires arr.JArr? && Standard(JObj([("mesh", JNull), ("map", arr)]))
    ensures MapExtract(Some(interpreter), pyPath, mapPath, proc, o, choice)
            == (Returned(Val(arr)), o, [Spawn(interpreter, [pyPath, "--map", mapPath])])
  {
    OkOutputDecided(interpreter, pyPath, None, Some(mapPath), o, choice, JObj([("mesh", JNull), ("map", arr)]));
    MapField(arr);
  }

  /** A mesh with finite coordinates reaches the view intact: `meshExtract` returns the
      flattened vertices and faces exactly as the script printed them. */
  lemma MeshExtractDeliversFiniteMesh(interpreter: string, pyPath: string, meshPath: string, env: Py.Env,
                                      s: Py.Surface, o: Output, choice: Option<string>)
    requires !StartsWith(meshPath, "-")
    requires Py.LoadSurfMesh(meshPath, env) == Py.Ok(s)
    requires Py.FiniteCoords(s.coords)
    ensures MeshExtract(Some(interpreter), pyPath, meshPath, ScriptProcess(pyPath, Some(meshPath), None, env), o, choice)
            == (Returned(Val(Py.ToJson(Py.MeshValue(Some(s))).value)), o, [Spawn(interpreter, [pyPath, "--mesh", meshPath])])
  {
    MeshScriptOutput(pyPath, meshPath, env, s);
    MeshExtractOfOk(interpreter, pyPath, meshPath, ScriptProcess(pyPath, Some(meshPath), None, env), o, choice,
                    Py.ToJson(Py.MeshValue(Some(s))).value);
  }

  /** What the process produces for a mesh that loads: exit status 0 and the OK
      envelope of the mesh, standard JSON when the coordinates are finite. */
  lemma MeshScriptOutput(pyPath: string, meshPath: string, env: Py.Env, s: Py.Surface)
    requires !StartsWith(meshPath, "-")
    requires Py.LoadSurfMesh(meshPath, env) == Py.Ok(s)
    ensures var content := JObj([("mesh", Py.ToJson(Py.MeshValue(Some(s))).value), ("map", JNull)]);
      ScriptProcess(pyPath, Some(meshPath), None, env) == ProcessOutput(Some(0), Printed([Py.Envelope("OK", content)]))
      && (Py.FiniteCoords(s.coords) ==> Standard(content))
  {
    ScriptOutput(pyPath, Some(meshPath), None, env);
    Py.MeshOnlyExtract(meshPath, env, s);
  }

  /** `meshExtract` on an OK envelope holding a standard object as its mesh. */
  lemma MeshExtractOfOk(interpreter: string, pyPath: string, meshPath: string, proc: ProcessOutput,
                        o: Output, choice: Option<string>, mesh: Json)
    requires proc == ProcessOutput(Some(0), Printed([Py.Envelope("OK", JObj([("mesh", mesh), ("map", JNull)]))]))
    requires mesh.JObj? && Standard(JObj([("mesh", mesh), ("map", JNull)]))
    ensures MeshExtract(Some(interpreter), pyPath, meshPath, proc, o, choice)
            == (Returned(Val(mesh)), o, [Spawn(interpreter, [pyPath, "--mesh", meshPath])])
  {
    OkOutputDecided(interpreter, pyPath, Some(meshPath), None, o, choice, JObj([("mesh", mesh), ("map", JNull)]));
    MeshField(mesh);
  }

  /** The mesh field of the data printed for a mesh-only extraction. */
  lemma MeshField(mesh: Json)
    requires mesh.JObj?
    ensures TruthyField(Val(JObj([("mesh", mesh), ("map", JNull)])), "mesh") == Val(mesh)
  {
    var content := JObj([("mesh", mesh), ("map", JNull)]);
    assert content.fields[1].0 != "mesh" by { assert content.fields[1].0[1] != "mesh"[1]; }
    assert content.fields[..1] == [("mesh", mesh)];
    assert LookupLast(content.fields, "mesh") == Val(mesh);
  }

  /** The map field of the data printed for a map-only extraction. */
  lemma MapField(arr: Json)
    requires arr.JArr?
    ensures TruthyField(Val(JObj([("mesh", JNull), ("map", arr)])), "map") == Val(arr)
  {
  }

  /** Content that is itself an array has no mesh, but its `map` is the inherited
      `Array.prototype.map`: truthy, and read as one NaN by a typed array. */
  lemma ArrayContentFields(items: seq<Json>)
    ensures TruthyField(Val(JArr(items)), "map") == ArrayMap
    ensures NumbersOf(TruthyField(Val(JArr(items)), "map")) == [Numbers.NaN]
    ensures TruthyField(Val(JArr(items)), "mesh") == Val(JNull)
  {
  }

  /** What a handler of the host needs from outside: the interpreter, the script's
      path, what the process produced, the user's answer to a notification, and the
      page `buildHtml` renders for the extension. */
  datatype LoadEnv = LoadEnv(interpreter: Option<string>, pyPath: string, proc: ProcessOutput,
                             choice: Option<string>, page: string)
}

=== FILE: surface_extract_py.dfy ===
/** The Python extraction script: it loads a mesh and/or a map, chosen by file-name
    suffix, and prints exactly one `{status, content}` envelope. The nibabel and numpy
    readers and the file system are parameters; only the dispatch, the envelope and
    the exception path are modelled. */
module SurfaceExtractPy {
  import opened Wrappers
  import opened Numbers
  import opened JsStrings
  import opened Json

  /** A raised exception: its class name and `str(exception)`. */
  datatype PyException = PyException(cls: string, message: string)

  datatype PyResult<T> = Ok(value: T) | Raised(exc: PyException)

  /** The Python values the script may hand to the JSON encoder. */
  datatype PyValue =
    | PNone
    | PBool(b: bool)
    | PInt(i: int)
    | PFloat(x: Num)
    | PStr(s: string)
    | PList(items: seq<PyValue>)
    | PDict(entries: seq<(string, PyValue)>)
    | PArray(values: seq<Num>)      // a numpy array, encoded through `tolist()`
    | POpaque(typeName: string)     // any object the encoder cannot serialise

  /** `type(v)` as `str` shows it. */
  function TypeName(v: PyValue): string {
    match v
    case PNone => "<class 'NoneType'>"
    case PBool(_) => "<class 'bool'>"
    case PInt(_) => "<class 'int'>"
    case PFloat(_) => "<class 'float'>"
    case PStr(_) => "<class 'str'>"
    case PList(_) => "<class 'list'>"
    case PDict(_) => "<class 'dict'>"
    case PArray(_) => "<class 'numpy.ndarray'>"
    case POpaque(t) => "<class '" + t + "'>"
  }

  /** Whether the encoder with the numpy fallback can serialise `v`: everything but an
      opaque object, at any depth. */
  predicate Serializable(v: PyValue)
    decreases v
  {
    match v
    case POpaque(_) => false
    case PList(items) => forall i :: 0 <= i < |items| ==> Serializable(items[i])
    case PDict(entries) => forall i :: 0 <= i < |entries| ==> Serializable(entries[i].1)
    case _ => true
  }

  /** A float as the encoder writes it: NaN becomes the non-standard `NaN` token. */
  function NumJson(x: Num): (j: Json)
    ensures Standard(j) <==> x.Fin?
  {
    if x.Fin? then JNum(x.r) else JNonFinite
  }

  /** `json.dumps(v, cls=NumpyEncoder)` as a document; `None` is the TypeError raised for
      an object it cannot serialise. */
  function ToJson(v: PyValue): (r: Option<Json>)
    ensures r.Some? <==> Serializable(v)
    decreases v
  {
    match v
    case PNone => Some(JNull)
    case PBool(b) => Some(JBool(b))
    case PInt(i) => Some(JNum(i as real))
    case PFloat(x) => Some(NumJson(x))
    case PStr(s) => Some(JStr(s))
    case PArray(values) => Some(JArr(seq(|values|, i requires 0 <= i < |values| => NumJson(values[i]))))
    case POpaque(_) => None
    case PList(items) =>
      if forall i :: 0 <= i < |items| ==> ToJson(items[i]).Some? then
        Some(JArr(seq(|items|, i requires 0 <= i < |items| => ToJson(items[i]).value)))
      else None
    case PDict(entries) =>
      if forall i :: 0 <= i < |entries| ==> ToJson(entries[i].1).Some? then
        Some(JObj(seq(|entries|, i requires 0 <= i < |entries| => (entries[i].0, ToJson(entries[i].1).value))))
      else None
  }

  /** A numpy array is written as a standard document exactly when all its values are
      finite; a single NaN makes the document non-standard. */
  lemma ArrayStandardIffFinite(values: seq<Num>)
    ensures Standard(ToJson(PArray(values)).value) <==> AllFinite(values)
  {
    var j := ToJson(PArray(values)).value;
    if !AllFinite(values) {
      var i :| 0 <= i < |values| && values[i].NaN?;
      assert j.items[i] == JNonFinite;
    }
  }

  /** `{"status": status, "content": content}`. */
  function Envelope(status: string, content: Json): Json {
    JObj([("status", JStr(status)), ("content", content)])
  }

  /** `{"exception": class name, "message": str(exception)}`. */
  function ErrorContent(e: PyException): Json {
    JObj([("exception", JStr(e.cls)), ("message", JStr(e.message))])
  }

  /** The TypeError the script reports for data it cannot serialise. */
  function NotSerializable(v: PyValue): PyException {
    PyException("TypeError", "Data type " + TypeName(v) + " is not json serializable.")
  }

  /** The argument of `print_as_json`: data, or an exception. */
  datatype PrintArg = Data(v: PyValue) | Exc(e: PyException)

  /** `print_as_json(arg)`: the documents it prints. An exception gives an ERROR
      envelope; data gives an OK envelope, or, when encoding raises TypeError, the
      ERROR envelope of one recursive call on that TypeError. */
  function PrintAsJson(arg: PrintArg): (printed: seq<Json>)
    ensures |printed| == 1
    ensures arg.Exc? ==> printed[0] == Envelope("ERROR", ErrorContent(arg.e))
    ensures arg.Data? && Serializable(arg.v) ==> printed[0] == Envelope("OK", ToJson(arg.v).value)
    ensures arg.Data? && !Serializable(arg.v) ==>
      printed[0] == Envelope("ERROR", ErrorContent(NotSerializable(arg.v)))
    decreases if arg.Exc? then 0 else 1
  {
    match arg
    case Exc(e) => [Envelope("ERROR", ErrorContent(e))]
    case Data(v) =>
      match ToJson(v)
      case Some(j) => [Envelope("OK", j)]
      case None => PrintAsJson(Exc(NotSerializable(v)))
  }

  /** Every ERROR envelope is standard JSON, so it always reaches the host intact. */
  lemma ErrorEnvelopeIsStandard(e: PyException)
    ensures Standard(Envelope("ERROR", ErrorContent(e)))
  {
    var c := ErrorContent(e);
    assert Standard(c) by {
      assert forall i :: 0 <= i < |c.fields| ==> c.fields[i].1.JStr?;
    }
    var env := Envelope("ERROR", c);
    assert forall i :: 0 <= i < |env.fields| ==> Standard(env.fields[i].1);
  }

  // ---------------------------------------------------------------------------
  // Loaders

  datatype Vec3 = Vec3(x: Num, y: Num, z: Num)
  datatype Tri = Tri(a: int, b: int, c: int)

  /** What the FreeSurfer geometry reader returns: coordinates, faces, and the `cras`
      entry of its header when present. */
  datatype Geometry = Geometry(coords: seq<Vec3>, faces: seq<Tri>, cras: Option<Vec3>)

  datatype Surface = Surface(coords: seq<Vec3>, faces: seq<Tri>)

  /** The map readers, in the order the script tries them. */
  datatype DataReader = VolumeReader | MorphReader | AnnotReader | LabelReader | GiftiReader | GiftiGzReader

  /** The file system and the readers: `present(p)` is `Path(p).exists()`. */
  datatype Env = Env(
    present: string -> bool,
    readGeometry: string -> PyResult<Geometry>,
    readGifti: (string, bool) -> PyResult<Surface>,
    readData: (string, DataReader) -> PyResult<PyValue>)

  /** Where the last segment of a path starts: just after its last '/', or 0. */
  function SegmentStart(path: string): (k: nat)
    ensures k <= |path| && (k == 0 || path[k - 1] == '/')
    ensures forall i :: k <= i < |path| ==> path[i] != '/'
    decreases |path|
  {
    if |path| == 0 || path[|path| - 1] == '/' then |path| else SegmentStart(path[..|path| - 1])
  }

  /** `Path(path).name` on POSIX: pathlib drops empty and `.` segments when it parses a
      path, so the name is the last remaining segment, and "" when none remains. */
  function FileName(path: string): (name: string)
    ensures forall i :: 0 <= i < |name| ==> name[i] != '/'
    ensures name != "."
    // a path that ends in a segment other than `.` is named by that whole segment
    ensures |path| > 0 && path[|path| - 1] != '/' && path != "." && !EndsWith(path, "/.") ==>
      |name| > 0 && EndsWith(path, name) && (|name| == |path| || path[|path| - |name| - 1] == '/')
    decreases |path|
  {
    if |path| == 0 then ""
    else if path[|path| - 1] == '/' then FileName(path[..|path| - 1])
    else
      var k := SegmentStart(path);
      if path[k..] == "." then
        assert path == "." || EndsWith(path, "/.") by {
          if k > 0 { assert path[|path| - 2..] == [path[k - 1]] + path[k..]; }
        }
        FileName(path[..k])
      else
        var name := path[k..];
        assert |name| > 0 && path[|path| - |name|..] == name;
        name
  }

  /** A trailing '/' does not change the name. */
  lemma FileNameIgnoresTrailingSlash(path: string)
    ensures FileName(path + "/") == FileName(path)
  {
    assert (path + "/")[..|path|] == path;
  }

  /** A trailing `.` segment does not change the name either. */
  lemma FileNameIgnoresDotSegment(path: string)
    ensures FileName(path + "/.") == FileName(path)
  {
    var p := path + "/.";
    assert p[..|p| - 1] == path + "/";
    assert SegmentStart(p) == |p| - 1 by { assert p[..|p| - 1][|p| - 2] == '/'; }
    assert p[|p| - 1..] == ".";
    FileNameIgnoresTrailingSlash(path);
  }

  /** "lh.pial/" is named "lh.pial", as pathlib names it. */
  lemma FileNameOfDirectoryForm()
    ensures FileName("lh.pial/") == "lh.pial"
  {
    FileNameIgnoresTrailingSlash("lh.pial");
    assert "lh.pial" + "/" == "lh.pial/";
    FileNameOfPlainName("lh.pial");
  }

  /** A path without '/', other than `.`, is its own name. */
  lemma FileNameOfPlainName(path: string)
    requires forall i :: 0 <= i < |path| ==> path[i] != '/'
    requires path != "."
    ensures FileName(path) == path
  {
    if |path| >= 2 {
      assert path[|path| - 2..][0] != '/';
    }
  }

  /** Names whose last characters differ do not end with one another. */
  lemma LastCharDiffers(name: string, suffix: string, k: nat)
    requires 0 < k <= |suffix| && k <= |name| && name[|name| - k] != suffix[|suffix| - k]
    ensures !EndsWith(name, suffix)
  {
  }

  const FreeSurferMeshSuffixes: seq<string> := [".orig", ".pial", ".white", ".sphere", ".inflated"]

  predicate EndsWithAny(name: string, suffixes: seq<string>) {
    exists i :: 0 <= i < |suffixes| && EndsWith(name, suffixes[i])
  }

  const FileMissing: PyException := PyException("ValueError", "File does not exist.")
  const Unsupported: PyException := PyException("ValueError", "Not a supported file format.")

  /** Adds `d` to every vertex (numpy broadcasting of `coords += cras`). */
  function Translate(coords: seq<Vec3>, d: Vec3): (r: seq<Vec3>)
    ensures |r| == |coords|
    ensures forall i :: 0 <= i < |r| ==>
      r[i] == Vec3(Add(coords[i].x, d.x), Add(coords[i].y, d.y), Add(coords[i].z, d.z))
  {
    seq(|coords|, i requires 0 <= i < |coords| =>
      Vec3(Add(coords[i].x, d.x), Add(coords[i].y, d.y), Add(coords[i].z, d.z)))
  }

  /** `load_surf_mesh(path)`: a FreeSurfer surface (translated by its `cras`) for the
      five FreeSurfer suffixes, otherwise a GIfTI surface for `.gii` and `.gii.gz`,
      otherwise a ValueError; a missing file is a ValueError before any of these. */
  function LoadSurfMesh(path: string, env: Env): (r: PyResult<Surface>)
    ensures !env.present(path) ==> r == Raised(FileMissing)
    ensures env.present(path) && !EndsWithAny(FileName(path), FreeSurferMeshSuffixes)
            && !EndsWith(FileName(path), ".gii") && !EndsWith(FileName(path), ".gii.gz")
            ==> r == Raised(Unsupported)
    ensures env.present(path) && EndsWithAny(FileName(path), FreeSurferMeshSuffixes) ==>
      match env.readGeometry(path)
      case Raised(e) => r == Raised(e)
      case Ok(g) =>
        (r.Ok? && r.value.faces == g.faces
         && (g.cras.None? ==> r.value.coords == g.coords)
         && (g.cras.Some? ==> r.value.coords == Translate(g.coords, g.cras.value)))
    ensures env.present(path) && !EndsWithAny(FileName(path), FreeSurferMeshSuffixes)
            && (EndsWith(FileName(path), ".gii") || EndsWith(FileName(path), ".gii.gz"))
            ==> r == env.readGifti(path, EndsWith(FileName(path), ".gii.gz"))
  {
    if !env.present(path) then Raised(FileMissing)
    else
      var name := FileName(path);
      if EndsWithAny(name, FreeSurferMeshSuffixes) then
        match env.readGeometry(path)
        case Raised(e) => Raised(e)
        case Ok(g) =>
          var coords := if g.cras.Some? then Translate(g.coords, g.cras.value) else g.coords;
          Ok(Surface(coords, g.faces))
      else if EndsWith(name, ".gii") || EndsWith(name, ".gii.gz") then
        env.readGifti(path, EndsWith(name, ".gii.gz"))
      else Raised(Unsupported)
  }

  /** The mesh suffixes need their dot: a name such as "xpial" is not a FreeSurfer
      surface for the script, and is rejected. */
  lemma MeshSuffixNeedsDot(env: Env)
    requires env.present("xpial")
    ensures LoadSurfMesh("xpial", env) == Raised(Unsupported)
  {
    FileNameOfPlainName("xpial");
    XpialMatchesNoMeshSuffix();
  }

  /** "xpial" ends in none of the mesh suffixes. */
  lemma XpialMatchesNoMeshSuffix()
    ensures !EndsWithAny("xpial", FreeSurferMeshSuffixes)
    ensures !EndsWith("xpial", ".gii") && !EndsWith("xpial", ".gii.gz")
  {
    var name := "xpial";
    forall i | 0 <= i < |FreeSurferMeshSuffixes| ensures !EndsWith(name, FreeSurferMeshSuffixes[i]) {
      var s := FreeSurferMeshSuffixes[i];
      if |s| <= |name| {
        assert name[|name| - |s|] != s[0];
      }
    }
  }

  /** The reader `load_surf_data` picks: the first group of suffixes (no leading dot)
      that the name ends with. */
  function DataReaderFor(name: string): (r: Option<DataReader>)
    ensures r.None? <==>
      !EndsWith(name, "nii") && !EndsWith(name, "nii.gz") && !EndsWith(name, "mgz")
      && !EndsWith(name, "area") && !EndsWith(name, "curv") && !EndsWith(name, "sulc")
      && !EndsWith(name, "thickness") && !EndsWith(name, "annot") && !EndsWith(name, "label")
      && !EndsWith(name, "gii") && !EndsWith(name, "gii.gz")
  {
    if EndsWith(name, "nii") || EndsWith(name, "nii.gz") || EndsWith(name, "mgz") then Some(VolumeReader)
    else if EndsWith(name, "area") || EndsWith(name, "curv") || EndsWith(name, "sulc")
         || EndsWith(name, "thickness") then Some(MorphReader)
    else if EndsWith(name, "annot") then Some(AnnotReader)
    else if EndsWith(name, "label") then Some(LabelReader)
    else if EndsWith(name, "gii") then Some(GiftiReader)
    else if EndsWith(name, "gii.gz") then Some(GiftiGzReader)
    else None
  }

  lemma EndsWithConcat(p: string, s: string)
    ensures EndsWith(p + s, s)
  {
    assert (p + s)[|p + s| - |s|..] == s;
  }

  /** Suffixes are matched without a dot: any name ending in "curv", such as "lh.curv"
      or "precurv", is read as morphometry data unless it also ends in a volume suffix,
      which cannot happen. */
  lemma DataSuffixWithoutDot(p: string)
    ensures DataReaderFor(p + "curv") == Some(MorphReader)
    ensures DataReaderFor(p + "nii.gz") == Some(VolumeReader)
    ensures DataReaderFor(p + "gii.gz") == Some(GiftiGzReader)
  {
    EndsWithConcat(p, "curv");
    EndsWithConcat(p, "nii.gz");
    EndsWithConcat(p, "gii.gz");
    var a, b, c := p + "curv", p + "nii.gz", p + "gii.gz";
    assert !EndsWith(a, "nii") && !EndsWith(a, "mgz") by { assert a[|a| - 1] == 'v'; }
    assert !EndsWith(a, "nii.gz") by { assert a[|a| - 1] == 'v'; }
    assert c[|c| - 1] == 'z' && c[|c| - 6] == 'g';
    LastCharDiffers(c, "nii", 1);
    LastCharDiffers(c, "mgz", 3);
    LastCharDiffers(c, "area", 1);
    LastCharDiffers(c, "curv", 1);
    LastCharDiffers(c, "sulc", 1);
    LastCharDiffers(c, "thickness", 1);
    LastCharDiffers(c, "annot", 1);
    LastCharDiffers(c, "label", 1);
    LastCharDiffers(c, "gii", 1);
    LastCharDiffers(c, "nii.gz", 6);
  }

  /** A FreeSurfer ".volume" map has no reader: its name ends in none of the suffixes. */
  lemma VolumeHasNoReader()
    ensures DataReaderFor("x.volume").None?
  {
    var n := "x.volume";
    assert n[|n| - 1] == 'e';
    LastCharDiffers(n, "nii", 1);
    LastCharDiffers(n, "nii.gz", 1);
    LastCharDiffers(n, "mgz", 1);
    LastCharDiffers(n, "area", 1);
    LastCharDiffers(n, "curv", 1);
    LastCharDiffers(n, "sulc", 1);
    LastCharDiffers(n, "thickness", 1);
    LastCharDiffers(n, "annot", 1);
    LastCharDiffers(n, "label", 1);
    LastCharDiffers(n, "gii", 1);
    LastCharDiffers(n, "gii.gz", 1);
  }

  const UnboundDataPart: PyException :=
    PyException("UnboundLocalError", "local variable 'data_part' referenced before assignment")

  /** `load_surf_data(path)`: a missing file is a ValueError; a name with no known
      suffix leaves `data_part` unassigned, and reading it raises UnboundLocalError. */
  function LoadSurfData(path: string, env: Env): (r: PyResult<PyValue>)
    ensures !env.present(path) ==> r == Raised(FileMissing)
    ensures env.present(path) && DataReaderFor(FileName(path)).None? ==> r == Raised(UnboundDataPart)
    ensures env.present(path) && DataReaderFor(FileName(path)).Some? ==>
      r == env.readData(path, DataReaderFor(FileName(path)).value)
  {
    if !env.present(path) then Raised(FileMissing)
    else
      match DataReaderFor(FileName(path))
      case None => Raised(UnboundDataPart)
      case Some(reader) => env.readData(path, reader)
  }

  // ---------------------------------------------------------------------------
  // extract and main

  /** The `IOError` raised for a supplied path that does not exist (Python reports the
      class as `OSError`). */
  function Missing(path: string): PyException {
    PyException("OSError", "File '" + path + "' does not exist.")
  }

  /** `coords.flatten()`: the coordinates of every vertex in turn, x, y, z. */
  function FlattenCoords(coords: seq<Vec3>): (r: seq<Num>)
    ensures |r| == 3 * |coords|
    ensures forall i :: 0 <= i < |coords| ==>
      r[3 * i] == coords[i].x && r[3 * i + 1] == coords[i].y && r[3 * i + 2] == coords[i].z
  {
    if |coords| == 0 then []
    else [coords[0].x, coords[0].y, coords[0].z] + FlattenCoords(coords[1..])
  }

  /** `faces.flatten()`: the three vertex indices of every face in turn. */
  function FlattenFaces(faces: seq<Tri>): (r: seq<Num>)
    ensures |r| == 3 * |faces|
    ensures forall i :: 0 <= i < |faces| ==>
      r[3 * i] == Fin(faces[i].a as real) && r[3 * i + 1] == Fin(faces[i].b as real)
      && r[3 * i + 2] == Fin(faces[i].c as real)
  {
    if |faces| == 0 then []
    else [Fin(faces[0].a as real), Fin(faces[0].b as real), Fin(faces[0].c as real)] + FlattenFaces(faces[1..])
  }

  /** The `mesh` entry: `None`, or the flattened vertices and faces. */
  function MeshValue(s: Option<Surface>): (r: PyValue)
    ensures Serializable(r)
    ensures s.Some? ==> ToJson(r).value.JObj?
  {
    match s
    case None => PNone
    case Some(surf) => PDict([("vertices", PArray(FlattenCoords(surf.coords))), ("faces", PArray(FlattenFaces(surf.faces)))])
  }

  /** `extract(mesh, map)`: first every supplied path must exist (an IOError otherwise),
      then the mesh and the map are loaded and returned as `{"mesh": …, "map": …}`. */
  function Extract(meshPath: Option<string>, mapPath: Option<string>, env: Env): (r: PyResult<PyValue>)
    ensures meshPath.Some? && !env.present(meshPath.value) ==> r == Raised(Missing(meshPath.value))
    ensures (meshPath.None? || env.present(meshPath.value)) && mapPath.Some? && !env.present(mapPath.value)
            ==> r == Raised(Missing(mapPath.value))
    ensures r.Ok? ==>
      r.value.PDict? && |r.value.entries| == 2
      && r.value.entries[0].0 == "mesh" && r.value.entries[1].0 == "map"
      && (r.value.entries[0].1 == PNone <==> meshPath.None?)
      && (mapPath.None? ==> r.value.entries[1].1 == PNone)
      && (mapPath.Some? ==> Ok(r.value.entries[1].1) == LoadSurfData(mapPath.value, env))
    // the loaders' exceptions propagate, the mesh's first
    ensures meshPath.Some? && env.present(meshPath.value) && (mapPath.None? || env.present(mapPath.value))
            && LoadSurfMesh(meshPath.value, env).Raised?
            ==> r == Raised(LoadSurfMesh(meshPath.value, env).exc)
    ensures (meshPath.None? || LoadSurfMesh(meshPath.value, env).Ok?) && mapPath.Some? && env.present(mapPath.value)
            && LoadSurfData(mapPath.value, env).Raised?
            ==> r == Raised(LoadSurfData(mapPath.value, env).exc)
    ensures r.Ok? <==> (meshPath.None? || LoadSurfMesh(meshPath.value, env).Ok?)
                       && (mapPath.None? || LoadSurfData(mapPath.value, env).Ok?)
    ensures r.Ok? && meshPath.Some? ==>
      r.value.entries[0].1 == MeshValue(Some(LoadSurfMesh(meshPath.value, env).value))
  {
    if meshPath.Some? && !env.present(meshPath.value) then Raised(Missing(meshPath.value))
    else if mapPath.Some? && !env.present(mapPath.value) then Raised(Missing(mapPath.value))
    else
      var mesh: PyResult<Option<Surface>> :=
        if meshPath.None? then Ok(None)
        else match LoadSurfMesh(meshPath.value, env)
          case Raised(e) => Raised(e)
          case Ok(s) => Ok(Some(s));
      if mesh.Raised? then Raised(mesh.exc)
      else
        var surfMap := if mapPath.None? then Ok(PNone) else LoadSurfData(mapPath.value, env);
        if surfMap.Raised? then Raised(surfMap.exc)
        else Ok(PDict([("mesh", MeshValue(mesh.value)), ("map", surfMap.value)]))
  }

  /** The data of a successful run is written as an object with the mesh first and the
      map second. */
  lemma ExtractedJson(m: PyValue, q: PyValue)
    requires Serializable(m) && Serializable(q)
    ensures ToJson(PDict([("mesh", m), ("map", q)])) == Some(JObj([("mesh", ToJson(m).value), ("map", ToJson(q).value)]))
  {
    var d := PDict([("mesh", m), ("map", q)]);
    assert forall i :: 0 <= i < |d.entries| ==> ToJson(d.entries[i].1).Some?;
    var fields := seq(|d.entries|, i requires 0 <= i < |d.entries| => (d.entries[i].0, ToJson(d.entries[i].1).value));
    assert fields == [("mesh", ToJson(m).value), ("map", ToJson(q).value)] by {
      assert fields[0] == ("mesh", ToJson(m).value) && fields[1] == ("map", ToJson(q).value);
    }
  }

  /** Extracting only a mesh that loads prints an OK envelope of that mesh and no map,
      which is standard JSON when the coordinates are finite. */
  lemma MeshOnlyExtract(meshPath: string, env: Env, s: Surface)
    requires LoadSurfMesh(meshPath, env) == Ok(s)
    ensures Extract(Some(meshPath), None, env) == Ok(PDict([("mesh", MeshValue(Some(s))), ("map", PNone)]))
    ensures Run(Some(meshPath), None, env)
            == ScriptRun([Envelope("OK", JObj([("mesh", ToJson(MeshValue(Some(s))).value), ("map", JNull)]))], 0)
    ensures FiniteCoords(s.coords) ==> Standard(JObj([("mesh", ToJson(MeshValue(Some(s))).value), ("map", JNull)]))
  {
    var x := Extract(Some(meshPath), None, env);
    var m := MeshValue(Some(s));
    assert x.value.entries == [("mesh", m), ("map", PNone)];
    ExtractedJson(m, PNone);
    if FiniteCoords(s.coords) {
      MeshValueStandard(s);
      var content := JObj([("mesh", ToJson(m).value), ("map", JNull)]);
      assert content.fields[0].1 == ToJson(m).value;
    }
  }

  /** Extracting only a map read as an array prints an OK envelope of no mesh and that
      array, which is standard JSON when the values are finite. */
  lemma MapOnlyExtract(mapPath: string, env: Env, values: seq<Num>)
    requires LoadSurfData(mapPath, env) == Ok(PArray(values))
    ensures Run(None, Some(mapPath), env)
            == ScriptRun([Envelope("OK", JObj([("mesh", JNull), ("map", ToJson(PArray(values)).value)]))], 0)
    ensures Standard(JObj([("mesh", JNull), ("map", ToJson(PArray(values)).value)])) <==> AllFinite(values)
  {
    var x := Extract(None, Some(mapPath), env);
    assert x.value.entries == [("mesh", PNone), ("map", PArray(values))];
    ExtractedJson(PNone, PArray(values));
    MapContentStandard(values);
  }

  /** The content of no mesh and an array is standard JSON exactly when the array's
      values are finite. */
  lemma MapContentStandard(values: seq<Num>)
    ensures Serializable(PArray(values))
    ensures Standard(JObj([("mesh", JNull), ("map", ToJson(PArray(values)).value)])) <==> AllFinite(values)
  {
    ArrayStandardIffFinite(values);
    var content := JObj([("mesh", JNull), ("map", ToJson(PArray(values)).value)]);
    assert content.fields[1].1 == ToJson(PArray(values)).value;
  }

  /** Vertex coordinates that are all finite. */
  predicate FiniteCoords(coords: seq<Vec3>) {
    forall i :: 0 <= i < |coords| ==> coords[i].x.Fin? && coords[i].y.Fin? && coords[i].z.Fin?
  }

  /** A mesh whose coordinates are finite is written as a standard document: the face
      indices are integers, so only a coordinate could be NaN. */
  lemma MeshValueStandard(s: Surface)
    requires FiniteCoords(s.coords)
    ensures Serializable(MeshValue(Some(s))) && Standard(ToJson(MeshValue(Some(s))).value)
  {
    var vs := FlattenCoords(s.coords);
    var fs := FlattenFaces(s.faces);
    assert AllFinite(vs) by {
      forall k | 0 <= k < |vs| ensures vs[k].Fin? {
        var i := k / 3;
        assert 0 <= i < |s.coords|;
        var c := s.coords[i];
        assert vs[3 * i] == c.x && vs[3 * i + 1] == c.y && vs[3 * i + 2] == c.z;
        assert k == 3 * i || k == 3 * i + 1 || k == 3 * i + 2;
      }
    }
    assert AllFinite(fs) by {
      forall k | 0 <= k < |fs| ensures fs[k].Fin? {
        var i := k / 3;
        assert 0 <= i < |s.faces|;
        assert fs[3 * i].Fin? && fs[3 * i + 1].Fin? && fs[3 * i + 2].Fin?;
        assert k == 3 * i || k == 3 * i + 1 || k == 3 * i + 2;
      }
    }
    ArrayStandardIffFinite(vs);
    ArrayStandardIffFinite(fs);
    var m := MeshValue(Some(s));
    var j := ToJson(m).value;
    assert j.fields[0].1 == ToJson(PArray(vs)).value;
    assert j.fields[1].1 == ToJson(PArray(fs)).value;
  }

  /** Extracting a FreeSurfer ".volume" map fails with the unassigned variable. */
  lemma VolumeMapFails(env: Env)
    requires env.present("x.volume")
    ensures Extract(None, Some("x.volume"), env) == Raised(UnboundDataPart)
  {
    VolumeHasNoReader();
    FileNameOfPlainName("x.volume");
  }

  /** Existence is checked before anything is loaded: two environments that agree on
      which files exist give the same IOError, whatever their readers do. */
  lemma ExtractChecksExistenceFirst(meshPath: Option<string>, mapPath: Option<string>, env1: Env, env2: Env)
    requires env1.present == env2.present
    requires (meshPath.Some? && !env1.present(meshPath.value)) || (mapPath.Some? && !env1.present(mapPath.value))
    ensures Extract(meshPath, mapPath, env1) == Extract(meshPath, mapPath, env2)
    ensures Extract(meshPath, mapPath, env1).Raised? && Extract(meshPath, mapPath, env1).exc.cls == "OSError"
  {
  }

  /** One run of the script: the documents it prints and its exit status. */
  datatype ScriptRun = ScriptRun(stdout: seq<Json>, exitCode: int)

  /** The script's entry point: `main()` in a `try`; on any exception the ERROR envelope
      is printed and the exception re-raised, so the interpreter exits with status 1. */
  function Run(meshPath: Option<string>, mapPath: Option<string>, env: Env): (r: ScriptRun)
    ensures |r.stdout| == 1
    ensures r.exitCode == 0 || r.exitCode == 1
    ensures r.exitCode == 0 <==> Extract(meshPath, mapPath, env).Ok?
    ensures r.exitCode != 0 ==>
      r.stdout[0] == Envelope("ERROR", ErrorContent(Extract(meshPath, mapPath, env).exc))
  {
    match Extract(meshPath, mapPath, env)
    case Raised(e) => ScriptRun(PrintAsJson(Exc(e)), 1)
    case Ok(v) => ScriptRun(PrintAsJson(Data(v)), 0)
  }

  /** The ERROR envelope of the serialisation fallback for the script's data, which is
      always a dict: a TypeError with the message
      "Data type <class 'dict'> is not json serializable.". */
  const DictNotSerializable: Json := Envelope("ERROR", ErrorContent(NotSerializable(PDict([]))))

  lemma DictFallback(v: PyValue)
    requires v.PDict?
    ensures !Serializable(v) ==> PrintAsJson(Data(v))[0] == DictNotSerializable
  {
    assert TypeName(v) == TypeName(PDict([]));
  }

  /** A run that exits with status 0 printed either the OK envelope of its data or, when
      that data could not be serialised, the TypeError envelope of the fallback; the
      latter is the only ERROR envelope a successful run can print. */
  lemma ErrorOnZeroExitIsSerialisation(meshPath: Option<string>, mapPath: Option<string>, env: Env)
    ensures var r := Run(meshPath, mapPath, env);
      var x := Extract(meshPath, mapPath, env);
      r.exitCode == 0 ==>
        x.Ok?
        && (Serializable(x.value) ==> r.stdout[0] == Envelope("OK", ToJson(x.value).value))
        && (!Serializable(x.value) ==> r.stdout[0] == DictNotSerializable)
  {
    var x := Extract(meshPath, mapPath, env);
    if x.Ok? {
      DictFallback(x.value);
      assert Run(meshPath, mapPath, env).stdout == PrintAsJson(Data(x.value));
    }
  }

  /** The mesh entry always serialises; when the map reader returns a numpy array (or no
      map is asked for) the run prints an OK envelope. */
  lemma NumericDataSerialises(meshPath: Option<string>, mapPath: Option<string>, env: Env)
    requires mapPath.Some? ==> forall r :: env.readData(mapPath.value, r).Ok? ==> env.readData(mapPath.value, r).value.PArray?
    ensures var x := Extract(meshPath, mapPath, env);
      x.Ok? ==> Serializable(x.value) && Run(meshPath, mapPath, env).stdout[0] == Envelope("OK", ToJson(x.value).value)
  {
    var x := Extract(meshPath, mapPath, env);
    if x.Ok? {
      var entries := x.value.entries;
      var m := entries[0].1;
      assert Serializable(m) by {
        if m.PDict? {
          assert forall i :: 0 <= i < |m.entries| ==> m.entries[i].1.PArray?;
        }
      }
      assert Serializable(entries[1].1) by {
        if mapPath.Some? {
          var path := mapPath.value;
          assert Ok(entries[1].1) == LoadSurfData(path, env);
          assert env.present(path) && DataReaderFor(FileName(path)).Some?;
          assert entries[1].1.PArray?;
        }
      }
      assert forall i :: 0 <= i < |entries| ==> Serializable(entries[i].1);
      assert Serializable(x.value);
      assert Run(meshPath, mapPath, env).stdout == PrintAsJson(Data(x.value));
    }
  }

  // ---------------------------------------------------------------------------
  // Command line

  /** The two options of the script's argument parser, in the forms `--mesh P`,
      `--mesh=P`, `--map Q` and `--map=Q`; a repeated option keeps the last value.
      `None` is a usage error. A separate value that begins with '-' is read as an
      option, so it is a usage error too; after '=' any text is the value. */
  function ParseArgs(argv: seq<string>, mesh: Option<string>, surfMap: Option<string>): Option<(Option<string>, Option<string>)>
    decreases |argv|
  {
    if |argv| == 0 then Some((mesh, surfMap))
    else if |argv| >= 2 && (argv[0] == "--mesh" || argv[0] == "--map") && !StartsWith(argv[1], "-") then
      ParseArgs(argv[2..],
                if argv[0] == "--mesh" then Some(argv[1]) else mesh,
                if argv[0] == "--map" then Some(argv[1]) else surfMap)
    else
      match EqualsForm(argv[0])
      case Some((isMesh, value)) =>
        ParseArgs(argv[1..], if isMesh then Some(value) else mesh, if isMesh then surfMap else Some(value))
      case None => None
  }

  /** An option with its value after '=': whether it is `--mesh`, and the value. */
  function EqualsForm(arg: string): Option<(bool, string)> {
    if StartsWith(arg, MeshEquals) then Some((true, arg[|MeshEquals|..]))
    else if StartsWith(arg, MapEquals) then Some((false, arg[|MapEquals|..]))
    else None
  }

  const MeshEquals: string := "--mesh="
  const MapEquals: string := "--map="

  /** `--mesh=P --map=Q` reads the same paths as `--mesh P --map Q`, and the `=` form
      also accepts a path that begins with '-'. */
  lemma {:induction false} EqualsFormsAgree(p: string, q: string)
    ensures ParseArgs([MeshEquals + p, MapEquals + q], None, None) == Some((Some(p), Some(q)))
    ensures !StartsWith(p, "-") && !StartsWith(q, "-") ==>
      ParseArgs(["--mesh", p, "--map", q], None, None) == Some((Some(p), Some(q)))
  {
    var argv := [MeshEquals + p, MapEquals + q];
    assert StartsWith(argv[0], MeshEquals) && argv[0][|MeshEquals|..] == p;
    assert argv[0] != "--mesh" && argv[0] != "--map";
    assert argv[1..] == [MapEquals + q];
    assert StartsWith(argv[1], MapEquals) && argv[1][|MapEquals|..] == q;
    assert !StartsWith(argv[1], MeshEquals) by { assert argv[1][5] != MeshEquals[5]; }
    assert argv[1] != "--mesh" && argv[1] != "--map" by { assert argv[1][3] == 'a' && |argv[1]| >= 6; }
    assert ParseArgs(argv[1..], Some(p), None) == ParseArgs([], Some(p), Some(q)) by {
      assert argv[1..][1..] == [];
    }
    var plain := ["--mesh", p, "--map", q];
    assert plain[2..] == ["--map", q] && plain[2..][2..] == [];
  }

  /** The interpreter running the script with command-line arguments `argv`: a usage
      error prints nothing and exits with status 2. */
  function Main(argv: seq<string>, env: Env): (r: ScriptRun)
    ensures ParseArgs(argv, None, None).None? ==> r == ScriptRun([], 2)
    ensures ParseArgs(argv, None, None).Some? ==>
      var (m, q) := ParseArgs(argv, None, None).value; r == Run(m, q, env)
  {
    match ParseArgs(argv, None, None)
    case None => ScriptRun([], 2)
    case Some((m, q)) => Run(m, q, env)
  }
}

=== FILE: surface_viewer.dfy ===
/** The older surface viewer's document: the viewer state (the mesh and map paths), the
    one-time setup of its view, the SET_STATE message built from one extraction of both
    paths, and the handling of the view's messages. Every handler is one atomic step. */
module SurfaceViewer {
  import opened Wrappers
  import opened Json
  import opened Effects
  import opened Logging
  import opened Buffers
  import opened WebviewMessages
  import opened SurfaceExtractHost
  import Py = SurfaceExtractPy
  import opened JsStrings

  /** `path.basename(p)` on POSIX: the last segment once trailing '/' are removed.
      Unlike pathlib it keeps a `.` segment. */
  function Basename(p: string): (name: string)
    ensures forall i :: 0 <= i < |name| ==> name[i] != '/'
    // a path that does not end in '/' is named by its whole last segment
    ensures |p| > 0 && p[|p| - 1] != '/' ==>
      |name| > 0 && EndsWith(p, name) && (|name| == |p| || p[|p| - |name| - 1] == '/')
    decreases |p|
  {
    if |p| > 0 && p[|p| - 1] == '/' then Basename(p[..|p| - 1]) else p[Py.SegmentStart(p)..]
  }

  /** A trailing '/' does not change the basename. */
  lemma BasenameIgnoresTrailingSlash(p: string)
    ensures Basename(p + "/") == Basename(p)
  {
    assert (p + "/")[..|p|] == p;
  }

  /** A file name without '/' is its own basename. */
  lemma BasenameOfPlainName(p: string)
    requires forall i :: 0 <= i < |p| ==> p[i] != '/'
    ensures Basename(p) == p
  {
  }

  /** The files shown: a mesh always, a map once one was chosen. */
  datatype ViewerState = ViewerState(pathMesh: string, pathMap: Option<string>)

  /** A `SurfaceDocument`: its file, the extension location it was opened with, the
      viewer state, whether its view was set up, the events of its view (absent before
      it is resolved), the output channel and what was done. */
  datatype SurfaceDocument = SurfaceDocument(
    uri: string,
    extensionUri: Option<string>,
    viewerState: ViewerState,
    viewerLoaded: bool,
    webview: Option<seq<PanelEvent>>,
    out: Output,
    effects: seq<Effect>)

  /** `openCustomDocument(uri)`: the document's own file is the mesh, there is no map,
      and the view is neither attached nor set up. */
  function OpenDocument(uri: string, extensionUri: Option<string>, out: Output): (d: SurfaceDocument)
    ensures d.viewerState.pathMesh == uri && d.viewerState.pathMap.None?
    ensures !d.viewerLoaded && d.webview.None?
    ensures d.uri == uri && d.out == out && d.effects == []
  {
    SurfaceDocument(uri, extensionUri, ViewerState(uri, None), false, None, out, [])
  }

  /** A dropdown entry for a file: its path, labelled with its basename. */
  function EntryFor(fsPath: string): SelectEntry {
    SelectEntry(fsPath, Basename(fsPath))
  }

  /** The SET_STATE message for an extraction result `surf`: each payload present iff
      the corresponding field is truthy; one mesh entry, and a map entry iff a map path
      is set. */
  function StateMessageOf(surf: JsValue, state: ViewerState): (m: BackendMessage)
    requires Truthy(surf)
    ensures m.data.mesh.Some? <==> Truthy(Prop(surf, "mesh").value)
    ensures m.data.values.Some? <==> Truthy(Prop(surf, "map").value)
    ensures m.data.mesh.Some? ==> m.data.mesh.value == MeshPayloadOf(Prop(surf, "mesh").value)
    ensures m.data.values.Some? ==> m.data.values.value.values == NumbersOf(Prop(surf, "map").value)
    ensures |m.selectMeshEntries| == 1 && m.selectMeshEntries[0].value == state.pathMesh
    ensures m.selectMeshEntries[0].caption == Basename(state.pathMesh)
    ensures |m.selectMapEntries| == (if state.pathMap.Some? then 1 else 0)
    ensures state.pathMap.Some? ==>
      m.selectMapEntries[0].value == state.pathMap.value && m.selectMapEntries[0].caption == Basename(state.pathMap.value)
  {
    var mesh := Prop(surf, "mesh").value;
    var values := Prop(surf, "map").value;
    SetState(
      SurfaceData(
        if Truthy(mesh) then Some(MeshPayloadOf(mesh)) else None,
        if Truthy(values) then Some(F32Buffer(NumbersOf(values))) else None),
      [EntryFor(state.pathMesh)],
      if state.pathMap.Some? then [EntryFor(state.pathMap.value)] else [])
  }

  /** `initWebview()`: without a view nothing happens; otherwise render the page and
      register the message handler. The view's earlier events stay as they were, and
      nothing but the view changes. */
  function InitWebview(d: SurfaceDocument, page: string): (r: SurfaceDocument)
    ensures d.webview.None? ==> r == d
    ensures d.webview.Some? ==> r.webview.Some? && |r.webview.value| == |d.webview.value| + 2
    ensures d.webview.Some? ==> r.webview.value[..|d.webview.value|] == d.webview.value
    // the page is set first, then the handler is registered
    ensures d.webview.Some? ==> r.webview.value[|d.webview.value|] == HtmlSet(page)
    ensures d.webview.Some? ==> r.webview.value[|d.webview.value| + 1] == HandlerRegistered
    ensures r.(webview := d.webview) == d
  {
    if d.webview.None? then d
    else d.(webview := Some(d.webview.value + [HtmlSet(page), HandlerRegistered]))
  }

  /** The result of `viewImage`: the document, and whether the awaited extraction
      rejected. */
  datatype Viewed = Viewed(doc: SurfaceDocument, rejected: bool)

  /** What `viewImage` posts for an extraction outcome: nothing for a rejection or a
      falsy result, otherwise the SET_STATE message. */
  function PostedFor(outcome: HostOutcome, state: ViewerState): seq<PanelEvent> {
    if outcome.Returned? && Truthy(outcome.v) then [Posted(StateMessageOf(outcome.v, state))] else []
  }

  /** `viewImage()`: without a view nothing happens; the view is set up on the first call
      only; both paths are extracted together; a truthy result is posted as SET_STATE. */
  function ViewImage(d: SurfaceDocument, env: LoadEnv): (r: Viewed)
    ensures d.webview.None? ==> r == Viewed(d, false)
    ensures d.webview.Some? ==>
      var x := SurfaceExtract(env.interpreter, env.pyPath, Some(d.viewerState.pathMesh), d.viewerState.pathMap,
                              env.proc, d.out, env.choice);
      var setup := if d.viewerLoaded then [] else [HtmlSet(env.page), HandlerRegistered];
      && r.doc.viewerLoaded
      && r.rejected == x.outcome.Rejected?
      && r.doc.webview == Some(d.webview.value + setup + PostedFor(x.outcome, d.viewerState))
      && r.doc.out == x.out && r.doc.effects == d.effects + x.effects
    ensures r.doc.viewerState == d.viewerState && r.doc.uri == d.uri
    ensures d.out.text <= r.doc.out.text
  {
    if d.webview.None? then Viewed(d, false)
    else
      var setup := if d.viewerLoaded then [] else [HtmlSet(env.page), HandlerRegistered];
      var d1 := if d.viewerLoaded then d else InitWebview(d, env.page).(viewerLoaded := true);
      assert d1.webview.value == d.webview.value + setup;
      var x := SurfaceExtract(env.interpreter, env.pyPath, Some(d.viewerState.pathMesh), d.viewerState.pathMap,
                              env.proc, d.out, env.choice);
      var events := d1.webview.value + PostedFor(x.outcome, d.viewerState);
      Viewed(d1.(webview := Some(events), out := x.out, effects := d1.effects + x.effects), x.outcome.Rejected?)
  }

  /** The view is set up at most once: once loaded, a further `viewImage` adds at most
      one event, and that a posted message. */
  lemma SetupAtMostOnce(d: SurfaceDocument, env: LoadEnv)
    requires d.viewerLoaded && d.webview.Some?
    ensures var r := ViewImage(d, env).doc;
      r.webview.Some? && |d.webview.value| <= |r.webview.value| <= |d.webview.value| + 1
      && r.webview.value[..|d.webview.value|] == d.webview.value
      && forall i :: |d.webview.value| <= i < |r.webview.value| ==> r.webview.value[i].Posted?
  {
  }

  /** An undefined extraction result, as every failure of the host or the script
      gives, posts nothing. */
  lemma UndefinedResultPostsNothing(d: SurfaceDocument, env: LoadEnv)
    requires d.webview.Some? && d.viewerLoaded
    requires SurfaceExtract(env.interpreter, env.pyPath, Some(d.viewerState.pathMesh), d.viewerState.pathMap,
                            env.proc, d.out, env.choice).outcome == Returned(Undefined)
    ensures ViewImage(d, env).doc.webview == d.webview
  {
    assert d.webview.value + [] + [] == d.webview.value;
  }

  /** `resolveCustomEditor(document, panel)`: the document takes the panel's view (a
      new one, with nothing shown), and views its image when the provider knows the
      extension's location. */
  function ResolveCustomEditor(providerUri: Option<string>, d: SurfaceDocument, env: LoadEnv): (r: Viewed)
    ensures r.doc.webview.Some?
    ensures providerUri.None? ==> r == Viewed(d.(webview := Some([])), false)
    ensures providerUri.Some? ==> r == ViewImage(d.(webview := Some([])), env)
  {
    var d1 := d.(webview := Some([]));
    if providerUri.Some? then ViewImage(d1, env) else Viewed(d1, false)
  }

  /** A second resolve of a document that was already set up leaves the new view
      without a page or a handler: the set-up flag belongs to the document. */
  lemma SecondResolveShowsNoPage(providerUri: Option<string>, d: SurfaceDocument, env: LoadEnv)
    requires d.viewerLoaded
    ensures var r := ResolveCustomEditor(providerUri, d, env).doc;
      forall i :: 0 <= i < |r.webview.value| ==> r.webview.value[i].Posted?
  {
  }

  /** Whether a view's message handler is registered. */
  predicate HandlerOn(d: SurfaceDocument) {
    d.webview.Some? && HandlerRegistered in d.webview.value
  }

  /** `receiveWebviewMessage(message)` on a view with its handler: a non-empty pick of
      a choose button replaces that path, leaving the other, and views again; the
      dropdown messages only log; an echo of a host message does nothing. */
  function ReceiveMessage(d: SurfaceDocument, message: HostInbound<BackendMessage>, pick: Pick, env: LoadEnv): (r: Viewed)
    ensures !HandlerOn(d) || message.Echo? ==> r == Viewed(d, false)
    ensures HandlerOn(d) && message == Frontend(ChooseMesh) ==>
      (Picked(pick).None? ==> r == Viewed(d, false))
      && (Picked(pick).Some? ==> r == ViewImage(d.(viewerState := d.viewerState.(pathMesh := Picked(pick).value)), env))
    ensures HandlerOn(d) && message == Frontend(ChooseMap) ==>
      (Picked(pick).None? ==> r == Viewed(d, false))
      && (Picked(pick).Some? ==> r == ViewImage(d.(viewerState := d.viewerState.(pathMap := Picked(pick))), env))
    ensures HandlerOn(d) && message.Frontend? && (message.f.SetMesh? || message.f.SetMap?) ==>
      !r.rejected && r.doc == d.(effects := d.effects + [ConsoleLog(if message.f.SetMesh? then "Set mesh: " + message.f.path else "Set map: " + message.f.path)])
    ensures r.doc.uri == d.uri
  {
    if !HandlerOn(d) || message.Echo? then Viewed(d, false)
    else
      match message.f
      case ChooseMesh =>
        if Picked(pick).None? then Viewed(d, false)
        else ViewImage(d.(viewerState := d.viewerState.(pathMesh := Picked(pick).value)), env)
      case ChooseMap =>
        if Picked(pick).None? then Viewed(d, false)
        else ViewImage(d.(viewerState := d.viewerState.(pathMap := Picked(pick))), env)
      case SetMesh(path) => Viewed(d.(effects := d.effects + [ConsoleLog("Set mesh: " + path)]), false)
      case SetMap(path) => Viewed(d.(effects := d.effects + [ConsoleLog("Set map: " + path)]), false)
  }

  /** Choosing a map keeps the mesh, and choosing a mesh keeps the map. */
  lemma ChoosingKeepsTheOtherPath(d: SurfaceDocument, pick: Pick, env: LoadEnv)
    requires HandlerOn(d)
    ensures ReceiveMessage(d, Frontend(ChooseMap), pick, env).doc.viewerState.pathMesh == d.viewerState.pathMesh
    ensures ReceiveMessage(d, Frontend(ChooseMesh), pick, env).doc.viewerState.pathMap == d.viewerState.pathMap
  {
  }
}

=== FILE: view_controls.dfy ===
/** The controls both views share: the two dropdowns and two buttons, the order in which
    `window.onload` looks them up by id and installs their handlers, and the message each
    control sends. */
module ViewControls {
  import opened Wrappers
  import opened WebviewMessages

  /** A `<vscode-option>`: its value and its label. */
  datatype OptionElement = OptionElement(value: string, caption: string)

  /** One new option element per entry (`document.createElement`), in entry order. */
  function FreshOptions(entries: seq<SelectEntry>): (r: seq<OptionElement>)
    ensures |r| == |entries|
    ensures forall i :: 0 <= i < |r| ==> r[i] == OptionElement(entries[i].value, entries[i].caption)
  {
    seq(|entries|, i requires 0 <= i < |entries| => OptionElement(entries[i].value, entries[i].caption))
  }

  datatype Control = MeshDropdown | MapDropdown | MeshButton | MapButton

  /** The element id each control is looked up by. */
  function IdOf(c: Control): string {
    match c
    case MeshDropdown => "mesh-dropdown"
    case MapDropdown => "map-dropdown"
    case MeshButton => "button-select-mesh"
    case MapButton => "button-select-map"
  }

  /** The order in which `window.onload` assigns the handlers; a control missing from
      the page throws a TypeError there, and the handlers after it are never assigned. */
  const InstallOrder: seq<Control> := [MeshDropdown, MapDropdown, MeshButton, MapButton]

  function InstalledFrom(ids: set<string>, order: seq<Control>): (r: seq<Control>)
    ensures |r| <= |order| && r == order[..|r|]
    ensures forall i :: 0 <= i < |r| ==> IdOf(r[i]) in ids
    ensures |r| < |order| ==> IdOf(order[|r|]) !in ids
  {
    if |order| == 0 || IdOf(order[0]) !in ids then []
    else [order[0]] + InstalledFrom(ids, order[1..])
  }

  /** The controls whose handlers `window.onload` installs on a page with element ids
      `ids`: the longest prefix of the install order whose ids are all present. */
  function Installed(ids: set<string>): (r: seq<Control>)
    ensures |r| <= |InstallOrder| && r == InstallOrder[..|r|]
    ensures forall i :: 0 <= i < |r| ==> IdOf(r[i]) in ids
    ensures |r| < |InstallOrder| ==> IdOf(InstallOrder[|r|]) !in ids
  {
    InstalledFrom(ids, InstallOrder)
  }

  /** A user action on a control: a dropdown now showing `value`, or a button click. */
  datatype UiEvent = Changed(dropdown: Control, value: string) | Clicked(button: Control)

  function ControlOf(ev: UiEvent): Control {
    match ev
    case Changed(c, _) => c
    case Clicked(c) => c
  }

  /** The message a user action sends, if its control's handler is installed: a
      dropdown sends SET_MESH/SET_MAP with its value, a button CHOOSE_MESH/CHOOSE_MAP. */
  function OnUiEvent(installed: seq<Control>, ev: UiEvent): (r: Option<FrontendMessage>)
    ensures ControlOf(ev) !in installed ==> r.None?
  {
    if ControlOf(ev) !in installed then None
    else
      match ev
      case Changed(MeshDropdown, v) => Some(SetMesh(v))
      case Changed(MapDropdown, v) => Some(SetMap(v))
      case Clicked(MeshButton) => Some(ChooseMesh)
      case Clicked(MapButton) => Some(ChooseMap)
      case _ => None
  }

  /** The control that sends a message. */
  function SenderOf(m: FrontendMessage): Control {
    match m
    case SetMesh(_) => MeshDropdown
    case SetMap(_) => MapDropdown
    case ChooseMesh => MeshButton
    case ChooseMap => MapButton
  }

  /** The action that sends a message. */
  function EventFor(m: FrontendMessage): UiEvent {
    match m
    case SetMesh(v) => Changed(MeshDropdown, v)
    case SetMap(v) => Changed(MapDropdown, v)
    case ChooseMesh => Clicked(MeshButton)
    case ChooseMap => Clicked(MapButton)
  }

  /** A message is sent exactly by its own control, and only while that control's
      handler is installed; each installed control's action sends its message. */
  lemma SentByItsControl(installed: seq<Control>, ev: UiEvent, m: FrontendMessage)
    ensures OnUiEvent(installed, ev) == Some(m) ==> ControlOf(ev) == SenderOf(m) && SenderOf(m) in installed
    ensures SenderOf(m) in installed ==> OnUiEvent(installed, EventFor(m)) == Some(m)
  {
  }

  /** The element ids of the current view's page: its dropdowns and its mesh button are
      inside an HTML comment, and its one button is "button-select-file". */
  const CurrentPageIds: set<string> :=
    {"viewer-ui", "button-select-file", "dropdown-color", "viewer", "legend"}

  /** On the current page the first lookup already fails: no handler is installed, and
      no action on the page sends a message. */
  lemma CurrentPageWiresNothing(ev: UiEvent)
    ensures Installed(CurrentPageIds) == []
    ensures OnUiEvent(Installed(CurrentPageIds), ev).None?
  {
    assert IdOf(MeshDropdown) !in CurrentPageIds;
  }

  /** The element ids of the older view's page (its iframe is commented out). */
  const OlderPageIds: set<string> :=
    {"viewer-ui", "mesh-dropdown", "button-select-mesh", "map-dropdown", "button-select-map", "viewer"}

  /** On the older page every handler is installed, and every message is sent by its
      control. */
  lemma OlderPageWiresEveryControl(m: FrontendMessage)
    ensures Installed(OlderPageIds) == InstallOrder
    ensures OnUiEvent(Installed(OlderPageIds), EventFor(m)) == Some(m)
  {
    assert forall c :: IdOf(c) in OlderPageIds;
  }
}

=== FILE: viewer_client.dfy ===
/** The state of the second rendering view: the stored mesh, map and palette, the
    legend calls a model update makes, and the scene as the list of objects added to
    it. Rendering, camera, lights and resizing are not modelled. */
module ViewerClient {
  import opened Wrappers
  import opened Numbers
  import opened Buffers
  import opened ClientUtils

  /** Float32 vertex coordinates and uint32 face indices. */
  datatype SurfaceMesh = SurfaceMesh(vertices: seq<Num>, faces: seq<u32>)

  /** A palette interpolator: from a position to a colour string, in `#rrggbb` or
      `rgb(r, g, b)` notation. */
  type Scheme = Num -> string

  /** A call on the legend; `found` says whether the palette named an interpolator. */
  datatype LegendCall = LegendUpdate(min: Num, max: Num, palette: string, found: bool) | LegendRemove

  /** A mesh object added to the scene; `colors` has three components per map value. */
  datatype SceneObject = SceneObject(
    positions: seq<Num>,
    index: seq<u32>,
    colors: Option<seq<Num>>,
    vertexColors: bool)

  datatype Viewer = Viewer(
    mesh: Option<SurfaceMesh>,
    values: Option<seq<Num>>,
    colorMap: string,
    scene: seq<SceneObject>)

  const DefaultColorMap: string := "Viridis"

  /** A freshly constructed viewer: nothing stored, the default palette, an empty scene. */
  function Init(): (v: Viewer)
    ensures v.mesh.None? && v.values.None? && v.scene == []
    ensures v.colorMap == "Viridis"
  {
    Viewer(None, None, DefaultColorMap, [])
  }

  const Black: seq<Num> := [Fin(0.0), Fin(0.0), Fin(0.0)]

  /** `col(x)`: the parsed colour of the interpolator at `x`, black when parsing fails. */
  function Col(f: Scheme, x: Num): seq<Num> {
    AutoToRgb(f(x)).GetOr(Black)
  }

  /** The colour array: the colours of the normalised map values, flattened in map order. */
  function ColorArray(f: Scheme, values: seq<Num>, mn: Num, mx: Num): seq<Num> {
    Flatten(seq(|values|, i requires 0 <= i < |values| => Col(f, Normalize(values[i], mn, mx))))
  }

  /** When every colour string parses to three components, the colour array holds three
      components per map value, and component `c` of value `i` sits at `3*i + c`. */
  lemma ColorArrayThreePerValue(f: Scheme, values: seq<Num>, mn: Num, mx: Num)
    requires forall i :: 0 <= i < |values| ==> |Col(f, Normalize(values[i], mn, mx))| == 3
    ensures |ColorArray(f, values, mn, mx)| == 3 * |values|
    ensures forall i, c :: 0 <= i < |values| && 0 <= c < 3 ==>
              ColorArray(f, values, mn, mx)[3 * i + c] == Col(f, Normalize(values[i], mn, mx))[c]
  {
    var parts := seq(|values|, i requires 0 <= i < |values| => Col(f, Normalize(values[i], mn, mx)));
    FlattenUniformLength(parts, 3);
    forall i, c | 0 <= i < |values| && 0 <= c < 3
      ensures ColorArray(f, values, mn, mx)[3 * i + c] == Col(f, Normalize(values[i], mn, mx))[c]
    {
      FlattenUniformAt(parts, 3, i, c);
    }
  }

  /** A colour string that parses to nothing falls back to black. */
  lemma ColFallsBackToBlack(f: Scheme, x: Num)
    requires AutoToRgb(f(x)).None?
    ensures Col(f, x) == [Fin(0.0), Fin(0.0), Fin(0.0)]
  {
  }

  /** What `setModel` returns: the new state, the legend calls it made, and whether it
      threw (looking up a palette that has no interpolator throws when it is called). */
  datatype SetModelResult = SetModelResult(viewer: Viewer, legend: seq<LegendCall>, threw: bool)

  /** `setModel(mesh?, map?, colorMap?)`: store each argument that is given (an empty
      palette string counts as not given), then, if a mesh is stored, update or remove
      the legend and add one mesh object to the scene. */
  function SetModel(v: Viewer, meshU: Option<SurfaceMesh>, mapU: Option<seq<Num>>,
                    paletteU: Option<string>, schemes: map<string, Scheme>): (r: SetModelResult)
    // partial update of the three stored fields
    ensures meshU.Some? ==> r.viewer.mesh == meshU
    ensures meshU.None? ==> r.viewer.mesh == v.mesh
    ensures mapU.Some? ==> r.viewer.values == mapU
    ensures mapU.None? ==> r.viewer.values == v.values
    ensures paletteU.Some? && paletteU.value != "" ==> r.viewer.colorMap == paletteU.value
    ensures paletteU.None? || paletteU.value == "" ==> r.viewer.colorMap == v.colorMap
    // no mesh: stop after storing
    ensures r.viewer.mesh.None? ==> r.viewer.scene == v.scene && r.legend == [] && !r.threw
    // the scene only grows, by at most one object
    ensures v.scene <= r.viewer.scene && |r.viewer.scene| <= |v.scene| + 1
    ensures |r.viewer.scene| == |v.scene| + 1 <==> r.viewer.mesh.Some? && !r.threw
    // exactly one legend call once a mesh is stored
    ensures r.viewer.mesh.Some? ==> |r.legend| == 1
    ensures r.viewer.mesh.Some? ==> (r.legend[0] == LegendRemove <==> r.viewer.values.None?)
    ensures r.threw <==> r.viewer.mesh.Some? && r.viewer.values.Some? && r.viewer.colorMap !in schemes
    // the added object
    ensures |r.viewer.scene| == |v.scene| + 1 ==>
      var o := r.viewer.scene[|v.scene|];
      o.positions == r.viewer.mesh.value.vertices && o.index == r.viewer.mesh.value.faces
      && (o.vertexColors <==> r.viewer.values.Some?) && (o.colors.Some? <==> r.viewer.values.Some?)
    // its colours: the stored palette over the map's range, [0, 0] for an empty map
    ensures |r.viewer.scene| == |v.scene| + 1 && r.viewer.values.Some? ==>
      r.viewer.colorMap in schemes
      && var (mn, mx) := MinMaxOf(r.viewer.values.value).GetOr((Fin(0.0), Fin(0.0)));
         r.viewer.scene[|v.scene|].colors == Some(ColorArray(schemes[r.viewer.colorMap], r.viewer.values.value, mn, mx))
  {
    var mesh := if meshU.Some? then meshU else v.mesh;
    var values := if mapU.Some? then mapU else v.values;
    var colorMap := if paletteU.Some? && paletteU.value != "" then paletteU.value else v.colorMap;
    var stored := v.(mesh := mesh, values := values, colorMap := colorMap);
    if mesh.None? then SetModelResult(stored, [], false)
    else if values.Some? then
      var (mn, mx) := MinMaxOf(values.value).GetOr((Fin(0.0), Fin(0.0)));
      var legend := [LegendUpdate(mn, mx, colorMap, colorMap in schemes)];
      if colorMap !in schemes then SetModelResult(stored, legend, true)
      else
        var cols := ColorArray(schemes[colorMap], values.value, mn, mx);
        var o := SceneObject(mesh.value.vertices, mesh.value.faces, Some(cols), true);
        SetModelResult(stored.(scene := stored.scene + [o]), legend, false)
    else
      var o := SceneObject(mesh.value.vertices, mesh.value.faces, None, false);
      SetModelResult(stored.(scene := stored.scene + [o]), [LegendRemove], false)
  }

  /** The legend is told the data range: `minMax(map)`, or [0, 0] for an empty map. */
  lemma SetModelLegendRange(v: Viewer, meshU: Option<SurfaceMesh>, mapU: Option<seq<Num>>,
                            paletteU: Option<string>, schemes: map<string, Scheme>)
    ensures var r := SetModel(v, meshU, mapU, paletteU, schemes);
      r.viewer.mesh.Some? && r.viewer.values.Some? ==>
        r.legend[0].LegendUpdate?
        && (|r.viewer.values.value| == 0 ==> r.legend[0].min == Fin(0.0) && r.legend[0].max == Fin(0.0))
        && (|r.viewer.values.value| > 0 ==> Some((r.legend[0].min, r.legend[0].max)) == MinMaxOf(r.viewer.values.value))
  {
    var r := SetModel(v, meshU, mapU, paletteU, schemes);
    if r.viewer.mesh.Some? && r.viewer.values.Some? {
      var values := r.viewer.values.value;
      var range := MinMaxOf(values).GetOr((Fin(0.0), Fin(0.0)));
      assert r.legend[0] == LegendUpdate(range.0, range.1, r.viewer.colorMap, r.viewer.colorMap in schemes);
      if |values| > 0 {
        assert MinMaxOf(values) == Some(range);
      }
    }
  }

  /** `setModel` as the source calls it: the `Legend` class defines only `init`, so
      `legend.update` and `legend.remove` are undefined, and the first of them reached
      throws a TypeError once a mesh is stored. The fields are stored before that. */
  function SetModelAsWritten(v: Viewer, meshU: Option<SurfaceMesh>, mapU: Option<seq<Num>>,
                             paletteU: Option<string>, schemes: map<string, Scheme>): (r: SetModelResult)
    ensures meshU.Some? ==> r.viewer.mesh == meshU
    ensures meshU.None? ==> r.viewer.mesh == v.mesh
    ensures mapU.Some? ==> r.viewer.values == mapU
    ensures mapU.None? ==> r.viewer.values == v.values
    ensures paletteU.Some? && paletteU.value != "" ==> r.viewer.colorMap == paletteU.value
    ensures paletteU.None? || paletteU.value == "" ==> r.viewer.colorMap == v.colorMap
    // nothing is ever added to the scene and no legend call completes
    ensures r.viewer.scene == v.scene && r.legend == []
    ensures r.threw <==> r.viewer.mesh.Some?
  {
    var mesh := if meshU.Some? then meshU else v.mesh;
    var values := if mapU.Some? then mapU else v.values;
    var colorMap := if paletteU.Some? && paletteU.value != "" then paletteU.value else v.colorMap;
    SetModelResult(v.(mesh := mesh, values := values, colorMap := colorMap), [], mesh.Some?)
  }

  /** The two versions store the same fields, but once a mesh is stored the source
      throws and draws nothing, where the intended `setModel` adds one object (with no
      map stored, or with a palette the schemes know). */
  lemma MissingLegendMethodsAbortSetModel(v: Viewer, meshU: Option<SurfaceMesh>, mapU: Option<seq<Num>>,
                                          paletteU: Option<string>, schemes: map<string, Scheme>)
    ensures var w := SetModelAsWritten(v, meshU, mapU, paletteU, schemes);
      var r := SetModel(v, meshU, mapU, paletteU, schemes);
      w.viewer == r.viewer.(scene := v.scene)
      && (w.viewer.mesh.Some? && (w.viewer.values.None? || w.viewer.colorMap in schemes) ==>
            w.threw && |w.viewer.scene| == |v.scene| && !r.threw && |r.viewer.scene| == |v.scene| + 1)
  {
  }

  /** The map's length is never compared with the number of vertices: with a known
      palette any mesh and any map give a coloured object, whatever their sizes. */
  lemma SetModelIgnoresLengths(v: Viewer, m: SurfaceMesh, values: seq<Num>, palette: string,
                               schemes: map<string, Scheme>)
    requires palette != "" && palette in schemes
    ensures var r := SetModel(v, Some(m), Some(values), Some(palette), schemes);
      !r.threw && r.viewer.scene == v.scene + [r.viewer.scene[|v.scene|]]
      && r.viewer.scene[|v.scene|].vertexColors
  {
  }

  // ---------------------------------------------------------------------------
  // Serialisable state

  /** The plain-array form of a mesh. */
  datatype PlainMesh = PlainMesh(vertices: seq<Num>, faces: seq<int>)

  /** `{mesh?, map?}`; an absent field is `None`. The palette is not part of it. */
  datatype SerializableState = SerializableState(mesh: Option<PlainMesh>, values: Option<seq<Num>>)

  function FacesToPlain(faces: seq<u32>): (r: seq<int>)
    ensures |r| == |faces| && forall i :: 0 <= i < |faces| ==> r[i] == faces[i] as int
  {
    seq(|faces|, i requires 0 <= i < |faces| => faces[i] as int)
  }

  /** `new Uint32Array(numbers)`: every element converted by ToUint32. */
  function FacesFromPlain(faces: seq<int>): (r: seq<u32>)
    ensures |r| == |faces|
    ensures forall i :: 0 <= i < |faces| && 0 <= faces[i] < TwoTo32 ==> r[i] as int == faces[i]
  {
    seq(|faces|, i requires 0 <= i < |faces| => ToUint32(Fin(faces[i] as real)))
  }

  /** `getSerializableState()`: mesh and map as plain arrays, each absent iff not stored. */
  function GetSerializableState(v: Viewer): (s: SerializableState)
    ensures s.mesh.None? <==> v.mesh.None?
    ensures s.values == v.values
    ensures s.mesh.Some? ==>
      s.mesh.value.vertices == v.mesh.value.vertices
      && |s.mesh.value.faces| == |v.mesh.value.faces|
      && forall i :: 0 <= i < |v.mesh.value.faces| ==> s.mesh.value.faces[i] == v.mesh.value.faces[i] as int
  {
    SerializableState(
      if v.mesh.Some? then Some(PlainMesh(v.mesh.value.vertices, FacesToPlain(v.mesh.value.faces))) else None,
      v.values)
  }

  /** `setSerializableState(state)`: `setModel` with the typed-array forms and no palette. */
  function SetSerializableState(v: Viewer, s: SerializableState, schemes: map<string, Scheme>): (r: SetModelResult)
    ensures s.mesh.None? ==> r.viewer.mesh == v.mesh
    ensures s.values.None? ==> r.viewer.values == v.values
    ensures r.viewer.colorMap == v.colorMap
  {
    var meshU :=
      if s.mesh.Some? then Some(SurfaceMesh(s.mesh.value.vertices, FacesFromPlain(s.mesh.value.faces))) else None;
    SetModel(v, meshU, s.values, None, schemes)
  }

  /** Restoring the serialised state leaves mesh, map and palette as they were. */
  lemma {:induction false} SerializeRoundTrip(v: Viewer, schemes: map<string, Scheme>)
    ensures var r := SetSerializableState(v, GetSerializableState(v), schemes);
      r.viewer.mesh == v.mesh && r.viewer.values == v.values && r.viewer.colorMap == v.colorMap
  {
    var s := GetSerializableState(v);
    if v.mesh.Some? {
      var faces := v.mesh.value.faces;
      var back := FacesFromPlain(s.mesh.value.faces);
      assert back == faces;
    }
  }

  /** Restoring a serialised state into a freshly constructed viewer reproduces the
      mesh and map of the viewer it came from. */
  lemma RestoreIntoFreshViewer(v: Viewer, schemes: map<string, Scheme>)
    ensures var r := SetSerializableState(Init(), GetSerializableState(v), schemes);
      r.viewer.mesh == v.mesh && r.viewer.values == v.values
  {
    SerializeRoundTrip(v, schemes);
    var s := GetSerializableState(v);
    if v.mesh.Some? {
      assert FacesFromPlain(s.mesh.value.faces) == v.mesh.value.faces;
    }
  }
}

=== FILE: voxel_viewer.dfy ===
/** The volume viewer: it runs the viewer script on a file and shows the HTML it
    returns, logs the script's errors, and offers a refresh command. The interpreter
    lookup and the process are parameters, as for the surface extraction. */
module VoxelViewer {
  import opened Wrappers
  import opened Json
  import opened Effects
  import opened Logging
  import opened SurfaceExtractHost

  /** The command line of the viewer script. */
  function ViewArgs(pyPath: string, fsPath: string): (args: seq<string>)
    ensures |args| == 6 && args[0] == pyPath && args[5] == fsPath
  {
    [pyPath, "view", "--type", "img", "--file", fsPath]
  }

  /** The outcome of `viewImage`: the panel's HTML afterwards, the output channel, what
      was done, and whether the returned promise rejects. */
  datatype ViewResult = ViewResult(html: JsValue, out: Output, effects: seq<Effect>, rejected: bool)

  /** `msg.status === s` for a parsed, non-null message. */
  predicate HasStatus(msg: Json, s: string) {
    Prop(Val(msg), "status") == Some(Val(JStr(s)))
  }

  /** What logging an ERROR envelope's `content` leaves behind: for undefined or null
      content reading `exception` throws and nothing is logged; otherwise the channel
      gains the error line and exactly one notification is raised. */
  predicate ErrorLogged(o: Output, content: JsValue, out: Output, effects: seq<Effect>) {
    if content.Undefined? || content == Val(JNull) then out.text == o.text && Notifications(effects) == 0
    else
      out.text == o.text + ErrorLine(JsText(Prop(content, "exception").value), JsText(Prop(content, "message").value))
      && Notifications(effects) == 1
  }

  /** The non-zero exit path: everything runs inside a `try` whose `catch` reports to
      the console; an ERROR envelope is logged, the HTML is never set. */
  function OnFailure(proc: ProcessOutput, html: JsValue, o: Output, choice: Option<string>): (r: ViewResult)
    ensures r.html == html && !r.rejected
    ensures o.text <= r.out.text
    ensures (JsonParse(proc.message).None? || JsonParse(proc.message) == Some(JNull)) ==>
      r.out == o && Notifications(r.effects) == 0
    // an ERROR envelope is logged; any other document logs nothing
    ensures JsonParse(proc.message).Some? && HasStatus(JsonParse(proc.message).value, "ERROR") ==>
      ErrorLogged(o, Prop(Val(JsonParse(proc.message).value), "content").value, r.out, r.effects)
    ensures JsonParse(proc.message).Some? && !HasStatus(JsonParse(proc.message).value, "ERROR") ==>
      r.out == o && Notifications(r.effects) == 0
  {
    match JsonParse(proc.message)
    case None => ViewResult(html, o, [ConsoleError("non-zero exit code"), ConsoleError("parse error")], false)
    case Some(msg) =>
      if msg == JNull then
        ViewResult(html, o, [ConsoleError("non-zero exit code"), ConsoleError("TypeError")], false)
      else if HasStatus(msg, "ERROR") then
        var log := LogPythonException(o, Prop(Val(msg), "content").value, choice);
        if log.threw then
          var report := [ConsoleError("non-zero exit code"), ConsoleError("TypeError")];
          NotificationsAppend(log.effects, report);
          ViewResult(html, log.out, log.effects + report, false)
        else ViewResult(html, log.out, log.effects, false)
      else ViewResult(html, o, [], false)
  }

  /** `VoxelDocument.viewImage(panel)`: `html` is the panel's HTML before the call. */
  function ViewImage(interpreter: Option<string>, pyPath: string, fsPath: string, proc: ProcessOutput,
                     html: JsValue, o: Output, choice: Option<string>): (r: ViewResult)
    // no interpreter: a notification and nothing else
    ensures interpreter.None? ==>
      r == ViewResult(html, o, [Notify(NoEnvironmentText, [])], false)
    ensures interpreter.Some? ==> |r.effects| > 0 && r.effects[0] == Spawn(interpreter.value, ViewArgs(pyPath, fsPath))
    // a failed process never sets the HTML and never rejects
    ensures interpreter.Some? && proc.code != Some(0) ==> r.html == html && !r.rejected
    // a successful process with unparseable output changes nothing
    ensures interpreter.Some? && proc.code == Some(0) && JsonParse(proc.message).None? ==>
      r.html == html && r.out == o && !r.rejected
    // OK: the HTML becomes the content
    ensures interpreter.Some? && proc.code == Some(0) && JsonParse(proc.message).Some?
            && HasStatus(JsonParse(proc.message).value, "OK") ==>
      r.html == Prop(Val(JsonParse(proc.message).value), "content").value && r.out == o
    // ERROR: logged, the HTML unchanged
    ensures interpreter.Some? && proc.code == Some(0) && JsonParse(proc.message).Some?
            && HasStatus(JsonParse(proc.message).value, "ERROR") ==>
      r.html == html
      && (r.rejected <==> Prop(Val(JsonParse(proc.message).value), "content").value in {Undefined, Val(JNull)})
    // a `null` document: reading its status throws
    ensures interpreter.Some? && proc.code == Some(0) && JsonParse(proc.message) == Some(JNull) ==>
      r.html == html && r.out == o && r.rejected
    // on both exit paths an ERROR envelope is logged, and only an ERROR envelope is
    ensures interpreter.Some? && JsonParse(proc.message).Some? && HasStatus(JsonParse(proc.message).value, "ERROR") ==>
      ErrorLogged(o, Prop(Val(JsonParse(proc.message).value), "content").value, r.out, r.effects)
    ensures interpreter.Some? && JsonParse(proc.message).Some? && !HasStatus(JsonParse(proc.message).value, "ERROR") ==>
      r.out == o && Notifications(r.effects) == 0
    ensures o.text <= r.out.text
  {
    if interpreter.None? then ViewResult(html, o, [Notify(NoEnvironmentText, [])], false)
    else
      var spawn := [Spawn(interpreter.value, ViewArgs(pyPath, fsPath))];
      if proc.code != Some(0) then
        var f := OnFailure(proc, html, o, choice);
        NotificationsAppend(spawn, f.effects);
        f.(effects := spawn + f.effects)
      else
        match JsonParse(proc.message)
        case None => ViewResult(html, o, spawn + [ConsoleError("parse error")], false)
        case Some(msg) =>
          if msg == JNull then ViewResult(html, o, spawn, true)
          else if HasStatus(msg, "OK") then ViewResult(Prop(Val(msg), "content").value, o, spawn, false)
          else if HasStatus(msg, "ERROR") then
            var log := LogPythonException(o, Prop(Val(msg), "content").value, choice);
            NotificationsAppend(spawn, log.effects);
            ViewResult(html, log.out, spawn + log.effects, log.threw)
          else ViewResult(html, o, spawn, false)
  }

  /** The HTML changes only when the process succeeded and printed an OK envelope. */
  lemma HtmlSetOnlyOnOk(interpreter: Option<string>, pyPath: string, fsPath: string, proc: ProcessOutput,
                        html: JsValue, o: Output, choice: Option<string>)
    ensures ViewImage(interpreter, pyPath, fsPath, proc, html, o, choice).html != html ==>
      interpreter.Some? && proc.code == Some(0) && JsonParse(proc.message).Some?
      && HasStatus(JsonParse(proc.message).value, "OK")
  {
  }

  /** The provider: the document opened last, and the panel it was resolved into,
      represented by that panel's HTML. */
  datatype Provider = Provider(document: Option<string>, panel: Option<JsValue>)

  /** `resolveCustomEditor(document, panel)`: views the image in the new (empty) panel,
      then remembers the panel; when the view rejects, the assignment after the `await`
      never runs and the provider keeps the panel it had. */
  function Resolve(p: Provider, fsPath: string, interpreter: Option<string>, pyPath: string,
                   proc: ProcessOutput, o: Output, choice: Option<string>): (r: (Provider, ViewResult))
    ensures r.0.document == p.document
    ensures !r.1.rejected ==> r.0.panel == Some(r.1.html)
    ensures r.1.rejected ==> r.0.panel == p.panel
  {
    var v := ViewImage(interpreter, pyPath, fsPath, proc, Val(JStr("")), o, choice);
    (if v.rejected then p else p.(panel := Some(v.html)), v)
  }

  /** A script that prints `null` makes the new panel's view reject, so the provider
      keeps its previous panel and a later refresh goes there, not to the new one. */
  lemma NullOutputKeepsOldPanel(p: Provider, fsPath: string, interpreter: string, pyPath: string,
                                proc: ProcessOutput, o: Output, choice: Option<string>)
    requires proc.code == Some(0) && JsonParse(proc.message) == Some(JNull)
    ensures var r := Resolve(p, fsPath, Some(interpreter), pyPath, proc, o, choice);
      r.1.rejected && r.0 == p
  {
  }

  const RefreshingText: string := "Refreshing..."

  /** The refresh command: with a panel, set its HTML to "Refreshing..." and view the
      current document again; without a panel, nothing. */
  function Refresh(p: Provider, interpreter: Option<string>, pyPath: string,
                   proc: ProcessOutput, o: Output, choice: Option<string>): (r: (Provider, Output, seq<Effect>))
    ensures p.panel.None? ==> r == (p, o, [])
    ensures p.panel.Some? && p.document.None? ==> r.0.panel == Some(Val(JStr(RefreshingText))) && r.2 == []
    ensures p.panel.Some? && p.document.Some? ==>
      r.0.panel == Some(ViewImage(interpreter, pyPath, p.document.value, proc, Val(JStr(RefreshingText)), o, choice).html)
    ensures r.0.document == p.document && o.text <= r.1.text
  {
    if p.panel.None? then (p, o, [])
    else if p.document.None? then (p.(panel := Some(Val(JStr(RefreshingText)))), o, [])
    else
      var v := ViewImage(interpreter, pyPath, p.document.value, proc, Val(JStr(RefreshingText)), o, choice);
      (p.(panel := Some(v.html)), v.out, v.effects)
  }

  /** A refresh whose process fails leaves "Refreshing..." in the panel. */
  lemma FailedRefreshShowsRefreshing(p: Provider, interpreter: string, pyPath: string,
                                     proc: ProcessOutput, o: Output, choice: Option<string>)
    requires p.panel.Some? && proc.code != Some(0)
    ensures Refresh(p, Some(interpreter), pyPath, proc, o, choice).0.panel == Some(Val(JStr(RefreshingText)))
  {
  }
}

=== FILE: webview_messages.dfy ===
/** The messages exchanged between the host and the view: the current protocol (binary
    payloads) and the legacy one (an HTML document for an iframe). */
module WebviewMessages {
  import opened Wrappers
  import opened Numbers
  import opened Buffers
  import opened Json

  /** What a panel has been given, in order: posted messages, its html, and the
      registration of its message handler. */
  datatype PanelEvent = Posted(message: BackendMessage) | HtmlSet(html: string) | HandlerRegistered

  /** View to host: the buttons and dropdowns of the view. */
  datatype FrontendMessage = ChooseMesh | ChooseMap | SetMap(path: string) | SetMesh(path: string)

  datatype SelectEntry = SelectEntry(value: string, caption: string)

  /** A mesh payload: float32 vertex coordinates and little-endian uint32 face indices. */
  datatype MeshPayload = MeshPayload(vertices: F32Buffer, faces: seq<byte>)

  /** `null` mesh or map is `None`; `values` is the map. */
  datatype SurfaceData = SurfaceData(mesh: Option<MeshPayload>, values: Option<F32Buffer>)

  /** Host to view, current protocol. */
  datatype BackendMessage = SetState(
    data: SurfaceData,
    selectMeshEntries: seq<SelectEntry>,
    selectMapEntries: seq<SelectEntry>)

  /** Host to view, legacy protocol. */
  datatype LegacyBackendMessage = LegacySetState(
    iframeContents: string,
    selectMeshEntries: seq<SelectEntry>,
    selectMapEntries: seq<SelectEntry>)

  /** What a view's message listener receives: a host message, or any other value
      whose `command` is not SET_STATE. */
  datatype Inbound<M> = Backend(msg: M) | OtherCommand(command: string)

  /** What the host's message handler receives: a message of the view's controls, or
      a message the view echoed back. */
  datatype HostInbound<M> = Frontend(f: FrontendMessage) | Echo(e: Inbound<M>)

  /** The dialog answer of `showOpenDialog`: `None` when cancelled. */
  type Pick = Option<seq<string>>

  /** The first picked file of a non-empty pick. */
  function Picked(pick: Pick): Option<string> {
    if pick.Some? && |pick.value| > 0 then Some(pick.value[0]) else None
  }

  /** `new Uint32Array(xs)`: every number converted by ToUint32. */
  function Words(xs: seq<Num>): (ws: seq<u32>)
    ensures |ws| == |xs| && forall i :: 0 <= i < |xs| ==> ws[i] == ToUint32(xs[i])
  {
    seq(|xs|, i requires 0 <= i < |xs| => ToUint32(xs[i]))
  }

  /** `new Uint32Array(xs).buffer` for parsed numbers. */
  function FaceBytes(faces: JsValue): (bs: seq<byte>)
    ensures |bs| == 4 * |NumbersOf(faces)|
  {
    EncodeU32(Words(NumbersOf(faces)))
  }

  /** The binary mesh payload built from an extracted mesh: float32 vertices and uint32
      faces, four bytes per element. */
  function MeshPayloadOf(mesh: JsValue): (p: MeshPayload)
    requires Prop(mesh, "vertices").Some?
    ensures p.vertices.ByteLength() == 4 * |NumbersOf(Prop(mesh, "vertices").value)|
    ensures |p.faces| == 4 * |NumbersOf(Prop(mesh, "faces").value)|
  {
    MeshPayload(F32Buffer(NumbersOf(Prop(mesh, "vertices").value)), FaceBytes(Prop(mesh, "faces").value))
  }
}

=== FILE: wrappers.dfy ===
/** Optional values and sequence helpers shared by every module of the model. */
module Wrappers {

  /** `None` stands for JavaScript's `undefined`/`null` or Python's `None`,
      depending on the module that uses it. */
  datatype Option<+T> = None | Some(value: T) {
    function GetOr(default: T): T {
      match this
      case Some(v) => v
      case None => default
    }
  }

  /** Concatenation of a sequence of sequences (JavaScript's `Array.prototype.flat`). */
  function Flatten<T>(xss: seq<seq<T>>): (r: seq<T>)
    ensures |xss| == 0 ==> r == []
  {
    if |xss| == 0 then [] else xss[0] + Flatten(xss[1..])
  }

  /** Flattening distributes over concatenation. */
  lemma {:induction false} FlattenAppend<T>(xss: seq<seq<T>>, yss: seq<seq<T>>)
    ensures Flatten(xss + yss) == Flatten(xss) + Flatten(yss)
  {
    if |xss| == 0 {
      assert xss + yss == yss;
    } else {
      assert (xss + yss)[1..] == xss[1..] + yss;
      FlattenAppend(xss[1..], yss);
    }
  }

  /** When every part has `k` elements, the flattening has `k` elements per part. */
  lemma {:induction false} FlattenUniformLength<T>(xss: seq<seq<T>>, k: nat)
    requires forall i :: 0 <= i < |xss| ==> |xss[i]| == k
    ensures |Flatten(xss)| == k * |xss|
  {
    if |xss| > 0 {
      FlattenUniformLength(xss[1..], k);
      assert k * |xss| == k + k * (|xss| - 1);
    }
  }

  /** When every part has `k` elements, element `k*i + c` of the flattening is element
      `c` of part `i`. */
  lemma {:induction false} FlattenUniformAt<T>(xss: seq<seq<T>>, k: nat, i: nat, c: nat)
    requires forall j :: 0 <= j < |xss| ==> |xss[j]| == k
    requires i < |xss| && c < k
    ensures k * i + c < |Flatten(xss)| && Flatten(xss)[k * i + c] == xss[i][c]
  {
    FlattenUniformLength(xss, k);
    if i > 0 {
      FlattenUniformAt(xss[1..], k, i - 1, c);
      assert k * i + c == k + (k * (i - 1) + c);
    }
  }
}
